=== FILE: README.md ===
# Distributed calculator: a Dafny model

This project models the core of a distributed arithmetic calculator. The
orchestrator accepts an expression such as `2 + 3 * (4 - 1)` from a signed-in
user. It validates and tokenizes the expression and builds an operator tree.
It then compiles the tree, in post-order, into one task per operator. Each
task's operands are either number texts or references `task:<id>` to earlier
tasks. The orchestrator stores the expression row and the task batch.

Agents poll the orchestrator for a task whose referenced tasks are all
complete. They fetch the referenced results, apply the operator and report
the value back. A failed task poll is tried again on the next turn of the
agent's loop after a one-second pause. The fetch of a referenced result and
the report of a value are each retried with an exponential back-off. A
shared counter caps how many tasks an agent holds at once. When a report
leaves no task of its expression incomplete, the orchestrator marks the
expression completed with the reported value. A periodic sweep visits every
user who has a pending expression when the sweep starts. For each of that
user's expressions still pending or in progress, it aggregates the task set
once all tasks are done, and marks a pending expression with ready work as in
progress.

The model is purely functional:
- The database is a value `Db(exprs, tasks)` holding two tables in insertion order.
- Every store query and handler is a function from `Db` to a result or a new `Db`.
- Clocks, UUIDs, environment variables and network responses are parameters.

Modules follow the source files:

| module | source file |
|---|---|
| `Text`, `Validator` | `internal/calculator/validator.go`, plus the shared string helpers |
| `Tokenizer`, `Parser` | `internal/calculator/parser.go` |
| `Tree` | `internal/calculator/tree.go` |
| `Aggregator`, `RoundTrip` | `internal/calculator/aggregator.go`; `RoundTrip` proves that aggregation inverts compilation |
| `Calculator` | `internal/calculator/calculator.go` |
| `Records`, `TaskStore`, `ExpressionStore` | `internal/store/task_store.go`, `internal/store/expression_store.go` |
| `TaskHandler` | `internal/handler/task_handler.go` |
| `Agent`, `Arith` | `cmd/agent/main.go` |
| `Lifecycle` | compile, register, report and sweep chained together |
| `Findings` | the source defects listed below, as written and corrected |

## Model

| member | source | states |
|---|---|---|
| Text.OperatorIsOneOperatorChar | internal/calculator/validator.go:11-13 | an operator is exactly a one-character string whose character is one of `+ - * /` |
| Text.RefTargetOfRef | internal/calculator/tree.go:24-32 | the reference written for a child task starts with `task:`, and trimming that prefix, as the aggregator and agent do, gives back the child's id |
| Text.NumberTextIsNotRef | internal/calculator/aggregator.go:36-49 | an operand that starts with a digit or a point is never mistaken for a task reference or for an operator |
| Text.StripSpaces | internal/calculator/calculator.go:14 | the stripped text has no spaces, leaves space-free text unchanged, and keeps every other character with its multiplicity |
| Text.StripSpacesChar | internal/calculator/calculator.go:14 | a single space is removed and any other single character is kept |
| Text.StripSpacesAppend | internal/calculator/calculator.go:14 | stripping a concatenation strips each part, so the kept characters stay in their original order |
| Text.ParensScanBalanced | internal/calculator/validator.go:35-49 | the counting loop accepts a text iff no prefix closes more parentheses than it opens and the totals match |
| Text.ParseFloat | internal/calculator/validator.go:62-66 | a digits-and-points string parses iff it has at most one point and at least one digit |
| Text.ParseFloatWhole | internal/calculator/validator.go:62-66 | a number without a point is read as the integer its digits spell |
| Text.ParseFloatPointValue | internal/calculator/validator.go:62-66 | a number with its point at position k is read as the integer spelled by its digits with the point deleted, with the decimal point moved left once per digit after the point, which Text.ShiftIsDivision shows is division by ten to that count |
| Text.ParseFloatOfNatText | internal/calculator/validator.go:62-66 | the decimal text of every natural number parses back to that number |
| Text.AtoiOfNatText | internal/calculator/tree.go:48 | `strconv.Atoi` reads back the decimal text of every natural number |
| Arith.Apply | cmd/agent/main.go:203-219 | a division by zero and an unknown operator are the only failures, each exactly in its own case; a quotient times the divisor gives the dividend, a difference plus the subtrahend gives the minuend, a sum minus an addend gives the other addend |
| Validator.FirstDisallowed | internal/calculator/validator.go:21-26 | finds the first character outside digits, point, operators and parentheses, and finds none iff every character is allowed |
| Validator.FirstAdjacentOperators | internal/calculator/validator.go:28-33 | finds the first position where two operator characters stand side by side, and finds none iff there is no such pair |
| Validator.Operands | internal/calculator/validator.go:51-54 | the fields split off at operators and parentheses are non-empty, contain no separator, and use only characters of the text |
| Validator.OperandsAroundSeparator | internal/calculator/validator.go:51-54 | a separator splits the fields into those of the text before it followed by those of the text after it |
| Validator.OperandsOfRun | internal/calculator/validator.go:51-54 | a non-empty text without separators is exactly one field, itself |
| Validator.FirstBadOperand | internal/calculator/validator.go:56-67 | finds no field iff every field parses as a number; a field it returns does not parse and is the first such field, every earlier field parsing |
| Validator.Validate | internal/calculator/validator.go:16-70 | accepts exactly the well-formed texts; an error names what is wrong: empty text iff the text is empty, the first bad character, the first operator pair, unbalanced parentheses iff that check is the first to fail, the first field that does not parse; the checks run in the source's order |
| Validator.OperandsOverAlphabet | internal/calculator/validator.go:51-67 | once the character check has passed, every operand field consists of digits and points only |
| Tokenizer.NumberLength | internal/calculator/parser.go:31-36 | the number run at the front of the text is made of digits and points and ends at the first other character |
| Tokenizer.Tokenize | internal/calculator/parser.go:24-62 | tokenizing fails iff the parentheses are unbalanced; otherwise it yields the maximal-munch token list |
| Tokenizer.ScanMatchesLex | internal/calculator/parser.go:29-61 | the character loop, with its pending number buffer and depth counter, yields the maximal-munch token list, failing only where the counter check fails |
| Tokenizer.LexFacts | internal/calculator/parser.go:29-56 | every number token is a run of digits and points; there is one operator token per operator character; the tokens' parenthesis depth equals the text's |
| Tokenizer.NumberTextsAreOperands | internal/calculator/parser.go:31-41 | over the allowed alphabet, the number tokens' texts are exactly the validator's operand fields, in order |
| Tokenizer.LexIsLexical | internal/calculator/parser.go:29-56 | every token is a non-empty number run, a single operator, or a parenthesis |
| Tokenizer.ValidatedTokens | internal/calculator/calculator.go:15-24 | a text that passes validation always tokenizes, so the tokenizer's error is unreachable from `ProcessExpression`, and each number token is a decimal text |
| Tree.HeightAtMostOpCount | internal/calculator/tree.go:64-100 | a tree is never deeper than its number of operators, which bounds the aggregator's recursion |
| Tree.NodeReferenceMeaning | internal/calculator/tree.go:24-32 | an absent child gives the empty operand, an operator child gives `task:` plus its task id, and a leaf gives its number text |
| Tree.OperationTime | internal/calculator/tree.go:34-62 | a non-operator takes 0; an operator takes its configured setting when that parses as an integer, otherwise 100 for `+` and `-`, 200 for `*` and 300 for `/` |
| Tree.OperationTimeOfSetting | internal/calculator/tree.go:34-62 | a configured number of milliseconds is used as given, and unset settings give the defaults |
| Tree.CreateTasks | internal/calculator/tree.go:64-100 | compiling a tree yields exactly one task per operator node |
| Tree.CreateTasksOfOperator | internal/calculator/tree.go:70-98 | an operator node's tasks are its left subtree's, then its right subtree's, then its own, in post-order |
| Tree.CreateTasksSplit | internal/calculator/tree.go:64-100 | task `k` of an operator node comes from the left subtree, the right subtree or the node itself according to where `k` falls |
| Tree.CreateTasksFresh | internal/calculator/tree.go:85-96 | task `k` gets the k-th fresh id, the expression id, no owner, an operator with its configured time, and is not yet completed |
| Tree.CreateTasksOrdered | internal/calculator/tree.go:64-100 | every reference operand of a task names an id drawn for an earlier task, so the list is in dependency order |
| Tree.CreateTasksIds | internal/calculator/tree.go:85 | the ids are drawn from the id supply in list order |
| Tree.CreateTasksRefersEarlier | internal/calculator/tree.go:87-88 | every `task:` operand of task `k` names the id of some task before `k` in the list |
| Parser.PrecedenceOrder | internal/calculator/parser.go:64-73 | `(` binds looser than every operator, `*` and `/` bind tighter than `+` and `-`, and operators of one level tie |
| Parser.Reduce | internal/calculator/parser.go:87-100 | reducing fails with an invalid expression iff fewer than two subtrees are on the output stack; otherwise it pops the operator and joins the two newest subtrees, the older on the left |
| Parser.ReduceWhile | internal/calculator/parser.go:84-101 | the only error is an invalid expression, and the operator stack never grows |
| Parser.ReduceWhileKeeps | internal/calculator/parser.go:84-101 | reducing keeps the stack invariant and stops only at an empty stack, a `(`, or an operator binding looser than the incoming one |
| Parser.Finish | internal/calculator/parser.go:129-144 | the only error is an invalid expression, and success empties the operator stack |
| Parser.CloseParenKeeps | internal/calculator/parser.go:105-125 | a `)` keeps the stack invariant and is reported unbalanced only when the tokens so far close more than they open |
| Parser.StepKeeps | internal/calculator/parser.go:79-126 | each token keeps the stack invariant: the leaves on the output stack are the number tokens seen, in order, and the operators counted equal the operator tokens seen |
| Parser.RunKeeps | internal/calculator/parser.go:79-127 | the whole token loop keeps the stack invariant |
| Parser.RunUnbalanced | internal/calculator/parser.go:122-124 | the loop reports unbalanced parentheses only if some prefix of the tokens closes more than it opens |
| Parser.FinishKeeps | internal/calculator/parser.go:129-144 | draining the operator stack keeps every subtree well shaped and never reports unbalanced parentheses |
| Parser.BuildTreeFacts | internal/calculator/parser.go:75-150 | a built tree is well shaped, has one operator node per operator token, and its leaves are the number tokens in order; an unbalanced-parentheses error means some prefix closes more than it opens |
| Parser.RunRender | internal/calculator/parser.go:79-127 | running the loop over the infix rendering of a well-shaped tree pushes exactly that tree |
| Parser.BuildTreeOfRender | internal/calculator/parser.go:75-150 | parsing the fully parenthesised rendering of a well-shaped tree gives the tree back |
| Parser.LeftAssociative | internal/calculator/parser.go:84-86 | `1-2-3` groups as `(1-2)-3` |
| Parser.MultiplicationFirst | internal/calculator/parser.go:84-86 | `1+2*3` groups as `1+(2*3)` |
| Parser.PostfixAccepted | internal/calculator/parser.go:79-150 | the token list `(1)(2)+` is accepted and builds `1+2`: the builder does not check operator placement |
| Parser.MissingOperand | internal/calculator/parser.go:132-134 | `1+` is refused as an invalid expression |
| Aggregator.LastWith | internal/calculator/aggregator.go:27-33 | finds the last row with the id, since later rows overwrite earlier ones in the node map, and finds none iff no row has the id |
| Aggregator.FirstIncomplete | internal/calculator/aggregator.go:12-15 | finds the first incomplete row, and finds none iff every row is completed |
| Aggregator.EvalTask | internal/calculator/aggregator.go:58-91 | every error is an evaluation error, and a bad number names a text that does not parse; a task whose operator field is not an operator evaluates to its stored result |
| Aggregator.EvalArg | internal/calculator/aggregator.go:36-49 | a literal operand evaluates to its number iff it parses, as long as no row has the empty id |
| Aggregator.Aggregate | internal/calculator/aggregator.go:10-24 | the not-completed error comes iff some row is incomplete, and names the first such row; the no-tasks error comes iff the list is empty |
| Aggregator.TaskIgnoresResults | internal/calculator/aggregator.go:58-91 | over operator tasks, evaluation never reads stored results: two task lists alike but for their results evaluate alike |
| Aggregator.AggregateIgnoresResults | internal/calculator/aggregator.go:10-91 | the aggregate of operator tasks depends only on the ids, operands, operators and completion flags, never on the agents' reported values |
| Aggregator.DanglingReference | internal/calculator/aggregator.go:36-39 | a reference to a missing task becomes an absent child, and evaluation reports an empty node |
| Aggregator.SelfReferenceDiverges | internal/calculator/aggregator.go:58-91 | a task that references itself makes evaluation recurse without end, whatever the fuel |
| RoundTrip.LastWithDrawn | internal/calculator/aggregator.go:27-33 | with distinct drawn ids, the node map finds compiled task `k` under its id |
| RoundTrip.NoEmptyId | internal/calculator/aggregator.go:62-65 | no compiled task has the empty id, so a literal operand never picks up a stored row |
| RoundTrip.EvalPlaced | internal/calculator/aggregator.go:58-91 | the operand naming a compiled subtree evaluates to the subtree's value once the fuel exceeds its height |
| RoundTrip.AggregateOfCreateTasks | internal/calculator/aggregator.go:10-56 | aggregating the completed tasks compiled from a tree with an operator root gives the value of the tree, whatever results the agents stored, provided the ids are distinct and non-empty |
| Calculator.Compile | internal/calculator/calculator.go:14-30 | the invalid-expression error comes iff validation fails, and the tokenizer's error never comes; a built tree is well shaped, has one operator node per operator character, and its leaves are the operand fields, all decimal texts |
| Calculator.ProcessExpression | internal/calculator/calculator.go:11-67 | compile errors and a taken expression id leave the database unchanged; otherwise the row is added as pending and the compiled tasks are registered under the expression and user; a failure never changes the task table |
| Calculator.CompileRefusesAfterValidation | internal/calculator/calculator.go:15-30 | `1(2)` passes validation but the tree builder refuses it |
| Calculator.DecimalLeavesEvaluate | internal/calculator/aggregator.go:58-91 | a tree built from a validated text can only fail to evaluate through arithmetic, never through a bad number |
| Calculator.ProcessSucceeds | internal/calculator/calculator.go:32-49 | a compilable text with a fresh expression id and fresh distinct task ids is always stored |
| Calculator.DrawnInsertable | internal/store/task_store.go:24-40 | distinct fresh ids make the batch insertable |
| Calculator.LiteralHasNoTasks | internal/calculator/calculator.go:39-49 | a text without operators is stored as a pending row with no tasks at all |
| TaskStore.InsertTasksAppends | internal/store/task_store.go:26-36 | a successful transaction appends the batch, stamped with the expression and user, to the table |
| TaskStore.InsertTasksNamesDuplicate | internal/store/task_store.go:26-36 | a failed transaction names the id of a task in the batch |
| TaskStore.InsertTasksSucceeds | internal/store/task_store.go:24-40 | the transaction succeeds iff the batch ids are distinct and none is in the table already |
| TaskStore.RegisterTasks | internal/store/task_store.go:24-40 | registration is all or nothing: it appends the whole stamped batch iff the batch is insertable, and otherwise changes nothing and names a duplicate id |
| TaskStore.RegisterKeepsUnique | internal/store/task_store.go:24-40 | registration keeps task ids unique, as the primary key demands |
| TaskStore.TasksOf | internal/store/task_store.go:43-71 | the listed tasks are exactly the table's tasks of that expression and user |
| TaskStore.TasksOfAppend | internal/store/task_store.go:43-71 | listing the tasks of two table parts lists those of each in turn, so rows keep table order |
| TaskStore.TaskReferenceRule | internal/store/task_store.go:190-192 | the store treats an operand as a reference iff it starts with `task:` and is longer than that prefix, and the referenced id is the rest |
| TaskStore.CompletedIds | internal/store/task_store.go:80-86 | the collected ids are exactly those of completed rows |
| TaskStore.ReadyFilter | internal/store/task_store.go:88-102 | a task is kept iff it is incomplete and each reference operand names a completed id |
| TaskStore.GetExecutableTasks | internal/store/task_store.go:74-105 | a task is executable iff it belongs to the expression and user, is incomplete, and every reference operand names a completed task of that expression and user |
| TaskStore.DanglingNeverExecutable | internal/store/task_store.go:94-101 | a task holding at least one reference, whose references name no task of the same expression and user, is never executable |
| TaskStore.CountIncomplete | internal/store/task_store.go:247-261 | the count is zero iff every task of the expression is completed |
| TaskStore.CountIgnoresOwner | internal/store/task_store.go:247-261 | the incomplete count does not depend on task owners, unlike the other per-expression queries |
| TaskStore.FirstNextReady | internal/store/task_store.go:112-131 | finds the first ready task from a position on, and finds none iff none is ready |
| TaskStore.GetNextExecutableTask | internal/store/task_store.go:108-147 | a task is returned iff some incomplete task has every reference to an existing task completed, and the returned row is such a task without its owner |
| TaskStore.DanglingReadyForNext | internal/store/task_store.go:118-131 | a task referencing a missing task is handed out, because the existence check skips unknown ids |
| TaskStore.GetTask | internal/store/task_store.go:150-174 | a task is found iff its id is in the table; the row read back never carries its owner |
| TaskStore.CompleteTask | internal/store/task_store.go:177-187 | completing a task changes only results and completion flags, and leaves expressions, ids, operands, operators and owners alone |
| TaskStore.CompleteTaskSets | internal/store/task_store.go:177-187 | every row with the id ends completed, holding the reported result |
| TaskStore.CompleteTaskMonotone | internal/store/task_store.go:177-187 | a completed task never becomes incomplete |
| TaskStore.CompleteTaskLastWins | internal/store/task_store.go:177-187 | completing twice is completing once with the later result: the earlier value is overwritten |
| TaskStore.CompleteUnknownTask | internal/store/task_store.go:177-187 | completing an unknown id changes nothing |
| TaskStore.CompleteRowsCount | internal/store/task_store.go:177-187 | completing a task never raises an expression's incomplete count |
| TaskStore.UpdateExpressionStatus | internal/store/task_store.go:264-280 | the update fails iff no row has the id; otherwise exactly the rows with that id take the new status and result, and the tasks are untouched |
| TaskStore.StatusCanRegress | internal/store/task_store.go:264-280 | the update has no guard on transitions: it can move a completed expression back to in progress |
| TaskStore.PendingOwners | internal/store/task_store.go:199-225 | the owners listed are exactly the owners of pending expressions, each once |
| ExpressionStore.View | internal/store/expression_store.go:46-64 | reading a row keeps its id, text, status and time, and a NULL result reads as 0 |
| ExpressionStore.NewExpression | internal/store/expression_store.go:21-43 | inserting fails iff the id is taken; otherwise the new pending row without a result is appended and the tasks are untouched |
| ExpressionStore.SameInstantCollides | internal/store/expression_store.go:21-43 | two expressions created at the same instant get the same time-based id, and the second insert fails |
| ExpressionStore.GetExpression | internal/store/expression_store.go:46-64 | an expression is found iff its id is stored, and is read as that row |
| ExpressionStore.NewThenGet | internal/store/expression_store.go:21-64 | reading back a newly stored expression gives its text, pending status, result 0 and creation time |
| ExpressionStore.OwnedBy | internal/store/expression_store.go:67-71 | the rows kept are exactly the owner's rows |
| ExpressionStore.InsertByTime | internal/store/expression_store.go:70 | inserting a row into a newest-first list keeps it newest first and adds exactly that row |
| ExpressionStore.SortNewestFirst | internal/store/expression_store.go:70 | the sorted list is a permutation of its input, ordered newest first |
| ExpressionStore.ListExpressions | internal/store/expression_store.go:67-90 | one expression is listed per row of the owner |
| ExpressionStore.ListExpressionsMeaning | internal/store/expression_store.go:67-90 | the listing holds exactly the owner's expressions, newest first |
| TaskHandler.NextTask | internal/handler/task_handler.go:34-49 | not found iff no task is ready; a task handed out is incomplete and carries no owner |
| TaskHandler.TasksOfExpression | internal/handler/task_handler.go:73-76 | the tasks read back for the roll-up are exactly the expression's tasks, whoever owns them |
| TaskHandler.PostResult | internal/handler/task_handler.go:52-90 | a report for an unknown task is not found; otherwise the task is completed with the value and other expressions are untouched; the task's expression becomes completed with the reported value when none of its tasks is left incomplete, and in progress with result 0 otherwise |
| TaskHandler.PostResultKeepsCompleted | internal/handler/task_handler.go:73-87 | a report on an expression whose tasks are all done leaves it completed |
| TaskHandler.InternalLookup | internal/handler/task_handler.go:132-147 | the agent's lookup answers iff the first row with the id is completed, and then answers that row's result |
| TaskHandler.InternalLookupMeaning | internal/handler/task_handler.go:132-147 | with unique ids, a completed task answers its result and an incomplete one is not found |
| TaskHandler.UserLookup | internal/handler/task_handler.go:93-129 | an anonymous caller is unauthorized, and an unknown task is not found |
| TaskHandler.UserLookupAlwaysForbidden | internal/handler/task_handler.go:107-117 | every signed-in user is refused every existing task, their own included, because the row read back has no owner |
| TaskHandler.StoredOwner | internal/store/task_store.go:150-174 | the owner column of the task row, found iff the task exists |
| TaskHandler.UserLookupByOwner | internal/handler/task_handler.go:93-129 | an anonymous caller is unauthorized, and an unknown task is not found |
| TaskHandler.UserLookupByOwnerMeaning | internal/handler/task_handler.go:113-122 | the owner of a completed task gets its result, the owner of an unfinished one is told so, and anyone else is forbidden |
| TaskHandler.SweepExpression | internal/handler/task_handler.go:169-215 | the sweep of one expression touches only that expression's rows, keeps ids and owners, leaves completed expressions alone, and a row it changes becomes in progress or completed with the aggregate; a pending expression with executable tasks is marked in progress with result 0 |
| TaskHandler.SweepAll | internal/handler/task_handler.go:168-216 | sweeping a list of expressions changes only rows whose id is in the list, and keeps the task table, ids and owners |
| TaskHandler.ProcessUserTasks | internal/handler/task_handler.go:166-217 | a user's sweep keeps the task table, row count, ids and owners |
| TaskHandler.ProcessUserTasksScope | internal/handler/task_handler.go:166-175 | a user's sweep leaves alone every row whose id no expression of that user shares |
| TaskHandler.SweepUsers | internal/handler/task_handler.go:159-162 | sweeping several users keeps the task table, row count, ids and owners |
| TaskHandler.ProcessPendingTasks | internal/handler/task_handler.go:150-163 | the periodic sweep keeps the task table, row count, ids and owners |
| TaskHandler.SweepSkipsUntasked | internal/handler/task_handler.go:182-208 | an expression without tasks is left as it is: no ready work, zero incomplete, and the empty aggregate fails |
| TaskHandler.SweepAllSkipsUntasked | internal/handler/task_handler.go:168-216 | no sweep over any list of expressions changes a row without tasks |
| TaskHandler.SweepUsersSkipsUntasked | internal/handler/task_handler.go:159-162 | no sweep over any list of users changes a row without tasks |
| TaskHandler.ProcessPendingSkipsUntasked | internal/handler/task_handler.go:150-217 | the periodic sweep never changes an expression that has no tasks |
| TaskHandler.SweepCompletes | internal/handler/task_handler.go:190-207 | a pending or running expression whose tasks are all done, and whose tasks aggregate, is completed with the aggregate |
| TaskHandler.NothingReady | internal/store/task_store.go:88-102 | when every task is completed, nothing is executable |
| Agent.Retry | cmd/agent/main.go:254-267 | the retry loop succeeds iff one of its first five attempts does, returns the first success, and pauses 2, 4, 8, 16 seconds and so on after each failed attempt |
| Agent.SumOfDelays | cmd/agent/main.go:254-267 | n failed attempts pause 2^n - 1 base delays in total, for any n |
| Agent.GiveUpAfter62Seconds | cmd/agent/main.go:32-35 | five failed attempts pause 62 seconds in total |
| Agent.ResolveArgument | cmd/agent/main.go:195-201 | a `task:` operand is fetched under the id after the prefix, and a failed fetch names that id; any other operand resolves iff it is a decimal text, to its value |
| Agent.ProcessTask | cmd/agent/main.go:182-193 | the first operand is resolved before the second; the task succeeds iff both resolve and the operator applies, and the result is the operator applied to the two values |
| Agent.ProcessTaskMatchesAggregator | cmd/agent/main.go:182-219 | when the fetched results agree with the aggregator's values, the agent's result for a task is the aggregator's value for it, and the two fail together |
| Agent.OperandMatches | cmd/agent/main.go:195-201 | under that agreement, an operand resolves on the agent iff it evaluates in the aggregator, to the same value |
| Agent.Claim | cmd/agent/main.go:132-178 | a worker takes a task only when the counter is below the limit and a task is offered, and then the counter rises by one |
| Agent.Release | cmd/agent/main.go:124-128 | a finishing worker lowers the counter by one and goes idle |
| Agent.ClaimKeepsCount | cmd/agent/main.go:132-178 | a claim keeps the counter equal to the number of busy workers |
| Agent.ReleaseKeepsCount | cmd/agent/main.go:124-128 | a release keeps the counter equal to the number of busy workers |
| Agent.CountedBounds | cmd/agent/main.go:132-178 | the counter never falls below zero or rises above the limit |
| Agent.IdleWorkerNeverRefused | cmd/agent/main.go:136-138 | with one worker per capacity slot, an idle worker always finds the counter below the limit |
| Lifecycle.ReportAll | internal/handler/task_handler.go:52-90 | any sequence of reports changes only results and completion flags of task rows |
| Lifecycle.RegisteredRows | internal/store/task_store.go:24-71 | after a stored expression, reading its tasks back gives the compiled tasks in order |
| Lifecycle.ReportedRows | internal/handler/task_handler.go:52-90 | after any reports, the expression's tasks still do the compiled work |
| Lifecycle.SweepOfCompiledTasks | internal/handler/task_handler.go:190-207 | the sweep completes an expression whose compiled tasks are all done with the value of its tree |
| Lifecycle.ComputedValueIsStored | internal/handler/task_handler.go:166-217 | once agents have reported every task of a stored expression, whatever the reported values, a sweep step whose listing of the expression predates the final report (still pending or in progress) stores the value of the expression's tree |
| Findings.LiteralStaysPending | internal/calculator/calculator.go:39-49 | a text without operators is stored with no tasks, and no sweep ever changes its row, so it stays pending for good |
| Findings.ProcessExpressionCompletingLiterals | internal/calculator/calculator.go:11-67 | as `ProcessExpression`, except that a lone number is stored completed with its value |
| Findings.LiteralCompletes | internal/calculator/calculator.go:39-49 | with the correction, a text without operators is stored completed with the number's value |
| Findings.LateReportOverwrites | internal/handler/task_handler.go:73-81 | for `1+2*3`, reporting 6 for `2*3`, then 7 for the root, then 6 again for `2*3` leaves the expression completed with 6, although its tasks aggregate to 7 |
| Findings.PostResultAggregating | internal/handler/task_handler.go:52-90 | as `PostResult`, except that the expression's result is always recomputed from the stored tasks |
| Findings.LateReportHarmless | internal/handler/task_handler.go:73-81 | with the correction, a report on an expression of operator tasks that are all done keeps it completed with the aggregate of its tasks, whatever the reported value |
| Findings.LateReportKeepsValue | internal/handler/task_handler.go:66-87 | with the correction, the scenario that showed the overwrite keeps the expression's correct value |

## Left out

- Authentication is not modelled: registration, login, JWT issue and checking, and the middleware that puts the user id in the request context. The signed-in user id is a parameter, and the empty string means no user.
- The HTTP layer is not modelled: JSON decoding and its 422 answer, method checks, status codes beyond the error kinds, and response encoding. Handlers return `Result` values with `NotFound`, `Unauthorized`, `Forbidden` and `Unfinished`.
- Logging is left out; it has no effect on state.
- Database I/O failures (a closed connection, a failed scan) are left out. The only store errors modelled are the logical ones: duplicate keys and no rows affected.
- The order of rows from queries without `ORDER BY` is modelled as insertion order. SQLite gives that in practice but does not promise it.
- ExpressionStore.SortNewestFirst: rows with the same creation time are placed in insertion order. SQL leaves the order of ties open.
- Expression ids come from the clock in the source. Here the id and the time are parameters, and `SameInstantCollides` shows what a repeated id does.
- Task UUIDs are drawn from an id supply `nat -> string`, and the results assume the drawn ids are distinct.
- The operation-time environment variables are a `TimeConfig` parameter.
- Text.Atoi: does not model `strconv.Atoi` rejecting values outside the 64-bit range.
- Arith.Apply: computes on exact reals, not float64. Rounding, infinities and NaN do not appear, and its exact results hold in the source only up to rounding.
- Text.ParseFloat: accepts only texts of digits with at most one point. `strconv.ParseFloat` also accepts signs, exponents, `Inf`, `NaN`, hexadecimal floats and underscores. The calculator only ever hands it validated operands or operands it compiled itself, which are digits and points. The model also accepts digit strings beyond the range of a 64-bit float, for which `strconv.ParseFloat` returns a range error, so the source reports an invalid operand that the model accepts.
- Validator.Validate: treats only ASCII `0`-`9` as digits. Go's `unicode.IsDigit` also lets other Unicode decimal digits through the character check, but they then fail `strconv.ParseFloat`. Such text is refused in both, possibly with a different error: an invalid character here, and in the source an invalid operand or whatever earlier check fails first (consecutive operators for `٣++1`, mismatched parentheses for `(٣`).
- The validator indexes bytes while the model indexes characters. The two agree on every text made of the allowed ASCII characters.
- Aggregator.EvalTask: a fuel argument bounds the recursion. The source recurses without bound on a reference cycle and overflows the stack; the model reports `Diverges` when the fuel runs out.
- The agent's network legs (fetch a task, fetch a result, send a result) are an oracle. A fetch is a function `string -> Option<real>`, and retried legs are a sequence of attempt outcomes. `Agent.Retry` returns the pauses it would sleep instead of sleeping.
- Sleeping for the operation time and the one-second idle poll only pass time, and are left out.
- `fetchToken`, `getEnvAsInt`, `addAuthHeader` and `main` are left out. They handle configuration and authentication. The worker loop is modelled only through the claim and release steps of the shared counter.
- Concurrency between agents, the orchestrator's handlers and the sweep is not modelled as interleavings. Each operation is atomic on a `Db` value, and the counter is modelled as a mutex-guarded value. One race matters for the stored result: the sweep works from a listing of expressions read before it aggregates, so a listing can predate the final report. Lifecycle.ComputedValueIsStored describes that interleaving by taking the listing as a parameter.
- The window between `GetNextExecutableTask` handing a task out and its completion is not modelled. The same task can be handed out again meanwhile, since the store records no claim.
- `CountPendingTasks` in `task_store.go` is left out: no part of the core calls it.
- The foreign keys from tasks to expressions are not enforced by the model, nor relied on.
- Expression and authentication handlers outside the task handler, the orchestrator's `main` and the database wrapper are not part of this model.

## Findings

| source | as written | input that shows it | evidently intended | confidence | as-written member | corrected member |
|---|---|---|---|---|---|---|
| internal/handler/task_handler.go:107-117 | `GetTask` (task_store.go:150-174) does not select `user_id`, so the owner check compares the caller with an empty string | any signed-in user asking for one of their own tasks | the owner reads the result of their own task; other users are forbidden | high, not executed | TaskHandler.UserLookupAlwaysForbidden | TaskHandler.UserLookupByOwnerMeaning |
| internal/calculator/calculator.go:39-49 | a text with no operator compiles to no tasks; no report ever arrives, and the sweep's aggregate of no tasks fails, so the row is never completed | the text `42` | the expression is completed with the value 42 | high, not executed | Findings.LiteralStaysPending | Findings.LiteralCompletes |
| internal/handler/task_handler.go:73-81 | once no task is left incomplete, whichever task is reported stores its own value as the expression's result; this is right only when that task is the root | `1+2*3` as task `a` (`2*3`) and task `b` (`1+task:a`); reports 6 for `a`, 7 for `b`, then 6 again for `a` (a resent report, or a second agent the store handed `a` to) | a completed expression keeps the value its tasks aggregate to | medium, not executed | Findings.LateReportOverwrites | Findings.LateReportHarmless |

=== FILE: agent.dfy ===
/** The agent: workers that fetch a task, resolve its operands, compute it and
    send the result back, with retries on the network calls and a counter that
    caps the tasks in hand. The network is an oracle: the outcome of each
    attempt is a parameter. */
module Agent {
  import opened Wrappers
  import opened Text
  import opened Arith
  import opened Records
  import opened Aggregator

  /** Attempts per network call. */
  const MaxRetries: nat := 5

  /** The pause after the first failed attempt, in milliseconds; it doubles
      after each further failure. */
  const BaseRetryDelayMs: nat := 2000

  /** `1 << n`, the factor by which the pause has grown after `n` failures. */
  function Pow2(n: nat): nat {
    if n == 0 then 1 else 2 * Pow2(n - 1)
  }

  /** The pause after failed attempt `i` (counting from 0). */
  function RetryDelay(i: nat): nat {
    Pow2(i) * BaseRetryDelayMs
  }

  function Sum(s: seq<nat>): nat {
    if s == [] then 0 else s[0] + Sum(s[1..])
  }

  /** `fetchTaskResultWithRetry` and `sendResultWithRetry`: attempt after
      attempt, each failure followed by its pause, the last one included. The
      answer is the first success among the first `MaxRetries` outcomes. */
  method Retry<T>(outcomes: seq<Option<T>>) returns (r: Option<T>, pauses: seq<nat>)
    requires |outcomes| >= MaxRetries
    ensures r.Some? <==> exists i | 0 <= i < MaxRetries :: outcomes[i].Some?
    ensures r.Some? ==> |pauses| < MaxRetries && r == outcomes[|pauses|]
    ensures r.None? ==> |pauses| == MaxRetries
    ensures forall j | 0 <= j < |pauses| :: outcomes[j].None? && pauses[j] == RetryDelay(j)
  {
    pauses := [];
    var i := 0;
    while i < MaxRetries
      invariant 0 <= i <= MaxRetries && |pauses| == i
      invariant forall j | 0 <= j < i :: outcomes[j].None? && pauses[j] == RetryDelay(j)
    {
      if outcomes[i].Some? {
        return outcomes[i], pauses;
      }
      pauses := pauses + [RetryDelay(i)];
      i := i + 1;
    }
    r := None;
  }

  lemma {:induction false} SumSnoc(s: seq<nat>, x: nat)
    ensures Sum(s + [x]) == Sum(s) + x
    decreases |s|
  {
    if s == [] {
      assert s + [x] == [x];
      assert [x][1..] == [];
    } else {
      assert (s + [x])[1..] == s[1..] + [x];
      SumSnoc(s[1..], x);
    }
  }

  /** The doubling pauses of `n` failed attempts add up to `2^n - 1` base delays. */
  lemma {:induction false} SumOfDelays(pauses: seq<nat>)
    requires forall j | 0 <= j < |pauses| :: pauses[j] == RetryDelay(j)
    ensures Sum(pauses) == (Pow2(|pauses|) - 1) * BaseRetryDelayMs
    decreases |pauses|
  {
    if pauses != [] {
      var n := |pauses| - 1;
      var front := pauses[..n];
      assert pauses == front + [pauses[n]];
      SumSnoc(front, pauses[n]);
      SumOfDelays(front);
    }
  }

  /** A call that never succeeds waits 2 + 4 + 8 + 16 + 32 seconds before it
      gives up. */
  lemma GiveUpAfter62Seconds(pauses: seq<nat>)
    requires |pauses| == MaxRetries && forall j | 0 <= j < |pauses| :: pauses[j] == RetryDelay(j)
    ensures Sum(pauses) == 62000
  {
    SumOfDelays(pauses);
    assert Pow2(5) == 32;
  }

  // ---------------------------------------------------------------------------
  // Computing one task

  datatype AgentError =
    | FetchFailed(id: string)
    | BadOperand(text: string)
    | Calculation(cause: ArithError)

  /** `resolveArgument`: anything starting with `task:` names a task whose
      result is fetched (the bare prefix names the empty id); anything else is
      parsed as a number. `fetch` is the outcome of the retried fetch. */
  function ResolveArgument(arg: string, fetch: string -> Option<real>): (r: Result<real, AgentError>)
    ensures HasPrefix(arg, RefPrefix) ==>
      (r.Ok? <==> fetch(RefTarget(arg)).Some?) && (r.Ok? ==> r.value == fetch(RefTarget(arg)).value)
    ensures HasPrefix(arg, RefPrefix) && r.Err? ==> r.error == FetchFailed(RefTarget(arg))
    ensures !HasPrefix(arg, RefPrefix) ==> (r.Ok? <==> IsDecimalText(arg))
    ensures !HasPrefix(arg, RefPrefix) && r.Ok? ==> Some(r.value) == ParseFloat(arg)
  {
    if HasPrefix(arg, RefPrefix) then
      match fetch(RefTarget(arg))
      case Some(v) => Ok(v)
      case None => Err(FetchFailed(RefTarget(arg)))
    else
      match ParseFloat(arg)
      case Some(v) => Ok(v)
      case None => Err(BadOperand(arg))
  }

  /** The ids an operand makes the agent fetch. */
  function Fetches(arg: string): seq<string> {
    if HasPrefix(arg, RefPrefix) then [RefTarget(arg)] else []
  }

  /** What computing a task yields, and the ids fetched on the way, in order. */
  datatype Computed = Computed(outcome: Result<real, AgentError>, fetched: seq<string>)

  /** `processTask`: the first operand, then the second, then `calculate`. The
      operation time is a pause and does not change the value. */
  function ProcessTask(t: Task, fetch: string -> Option<real>): (c: Computed)
    ensures ResolveArgument(t.arg1, fetch).Err? ==>
      c == Computed(Err(ResolveArgument(t.arg1, fetch).error), Fetches(t.arg1))
    ensures ResolveArgument(t.arg1, fetch).Ok? ==> c.fetched == Fetches(t.arg1) + Fetches(t.arg2)
    ensures c.outcome.Ok? <==>
      && ResolveArgument(t.arg1, fetch).Ok? && ResolveArgument(t.arg2, fetch).Ok?
      && Apply(t.op, ResolveArgument(t.arg1, fetch).value, ResolveArgument(t.arg2, fetch).value).Ok?
    ensures c.outcome.Ok? ==>
      c.outcome.value == Apply(t.op, ResolveArgument(t.arg1, fetch).value, ResolveArgument(t.arg2, fetch).value).value
  {
    match ResolveArgument(t.arg1, fetch)
    case Err(e) => Computed(Err(e), Fetches(t.arg1))
    case Ok(a) =>
      var fetched := Fetches(t.arg1) + Fetches(t.arg2);
      match ResolveArgument(t.arg2, fetch)
      case Err(e) => Computed(Err(e), fetched)
      case Ok(b) =>
        match Apply(t.op, a, b)
        case Ok(v) => Computed(Ok(v), fetched)
        case Err(e) => Computed(Err(Calculation(e)), fetched)
  }

  /** The fetched result of a referenced operand is the value the aggregator
      gives that operand; literal operands are not operator symbols. */
  predicate Agrees(ts: seq<Task>, arg: string, fuel: nat, fetch: string -> Option<real>) {
    && !IsOperator(arg)
    && (HasPrefix(arg, RefPrefix) ==>
          fetch(RefTarget(arg)).Some? && EvalArg(ts, arg, fuel) == Ok(fetch(RefTarget(arg)).value))
  }

  /** The agent computes what the aggregator later recomputes for the same
      task: when the fetched operands agree with the rebuilt ones, both succeed
      together and with the same value. */
  lemma ProcessTaskMatchesAggregator(ts: seq<Task>, i: nat, fuel: nat, sub: nat, fetch: string -> Option<real>)
    requires i < |ts| && fuel > 0 && sub == fuel - 1 && IsOperator(ts[i].op)
    requires LastWith(ts, []).None?
    requires Agrees(ts, ts[i].arg1, sub, fetch) && Agrees(ts, ts[i].arg2, sub, fetch)
    ensures ProcessTask(ts[i], fetch).outcome.Ok? <==> EvalTask(ts, i, fuel).Ok?
    ensures ProcessTask(ts[i], fetch).outcome.Ok? ==>
      EvalTask(ts, i, fuel).value == ProcessTask(ts[i], fetch).outcome.value
  {
    var t := ts[i];
    OperandMatches(ts, t.arg1, sub, fetch);
    OperandMatches(ts, t.arg2, sub, fetch);
    assert EvalTask(ts, i, fuel) == Combine(t.op, EvalArg(ts, t.arg1, sub), EvalArg(ts, t.arg2, sub));
  }

  lemma OperandMatches(ts: seq<Task>, arg: string, fuel: nat, fetch: string -> Option<real>)
    requires LastWith(ts, []).None? && Agrees(ts, arg, fuel, fetch)
    ensures ResolveArgument(arg, fetch).Ok? <==> EvalArg(ts, arg, fuel).Ok?
    ensures ResolveArgument(arg, fetch).Ok? ==> EvalArg(ts, arg, fuel) == Ok(ResolveArgument(arg, fetch).value)
  {
  }

  // ---------------------------------------------------------------------------
  // The capacity counter

  /** The workers' shared state: the counter guarded by the mutex, the limit,
      and for each worker goroutine whether it holds a task. */
  datatype Workers = Workers(active: int, limit: int, busy: seq<bool>)

  function BusyCount(busy: seq<bool>): (n: nat)
    ensures n <= |busy|
  {
    if busy == [] then 0 else BusyCount(busy[..|busy| - 1]) + (if busy[|busy| - 1] then 1 else 0)
  }

  /** The counter counts the workers holding a task, and one worker goroutine is
      started per unit of the limit. */
  predicate Counted(s: Workers) {
    && s.active == BusyCount(s.busy)
    && |s.busy| == (if s.limit < 0 then 0 else s.limit)
  }

  /** `fetchTask` for idle worker `w`, with the orchestrator's answer `offered`:
      refused at the limit, otherwise the counter goes up exactly when a task
      comes back. */
  function Claim(s: Workers, w: nat, offered: bool): (r: Workers)
    requires w < |s.busy| && !s.busy[w]
    ensures s.active >= s.limit || !offered ==> r == s
    ensures s.active < s.limit && offered ==> r == Workers(s.active + 1, s.limit, s.busy[w := true])
  {
    if s.active >= s.limit || !offered then s
    else Workers(s.active + 1, s.limit, s.busy[w := true])
  }

  /** `updateWorkerCount(-1)` after the task failed or its result was sent. */
  function Release(s: Workers, w: nat): (r: Workers)
    requires w < |s.busy| && s.busy[w]
    ensures r.active == s.active - 1 && r.limit == s.limit && r.busy == s.busy[w := false]
  {
    Workers(s.active - 1, s.limit, s.busy[w := false])
  }

  lemma {:induction false} BusyCountSet(busy: seq<bool>, w: nat, b: bool)
    requires w < |busy|
    ensures BusyCount(busy[w := b]) == BusyCount(busy) - (if busy[w] then 1 else 0) + (if b then 1 else 0)
    decreases |busy|
  {
    var n := |busy| - 1;
    if w < n {
      assert busy[w := b][..n] == busy[..n][w := b];
      BusyCountSet(busy[..n], w, b);
    } else {
      assert busy[w := b][..n] == busy[..n];
    }
  }

  lemma ClaimKeepsCount(s: Workers, w: nat, offered: bool)
    requires Counted(s) && w < |s.busy| && !s.busy[w]
    ensures Counted(Claim(s, w, offered))
  {
    BusyCountSet(s.busy, w, true);
  }

  lemma ReleaseKeepsCount(s: Workers, w: nat)
    requires Counted(s) && w < |s.busy| && s.busy[w]
    ensures Counted(Release(s, w))
  {
    BusyCountSet(s.busy, w, false);
  }

  /** The counter stays between zero and the limit. */
  lemma CountedBounds(s: Workers)
    requires Counted(s)
    ensures 0 <= s.active && (s.limit >= 0 ==> s.active <= s.limit)
  {
  }

  /** Since each worker holds at most one task, an idle worker always finds the
      counter below the limit: the limit check never refuses anyone. */
  lemma {:induction false} IdleWorkerNeverRefused(s: Workers, w: nat)
    requires Counted(s) && w < |s.busy| && !s.busy[w]
    ensures s.active < s.limit
  {
    BusyCountSet(s.busy, w, true);
  }
}

=== FILE: aggregator.dfy ===
/** `AggregateResults`: once every task of an expression is completed, the tree
    is rebuilt from the task rows and evaluated to the expression's value. */
module Aggregator {
  import opened Wrappers
  import opened Text
  import opened Arith
  import opened Records
  import opened Tree

  datatype AggregateError =
    | NotCompleted(id: string)
    | NoTasks
    | EmptyNode
    | BadNumber(text: string)
    | Arithmetic(cause: ArithError)
    | Diverges

  /** The index of the last task with the given id: the rebuilt node map and the
      results map both keep the last row written for an id. */
  function LastWith(ts: seq<Task>, id: string): (r: Option<nat>)
    ensures r.None? <==> forall j | 0 <= j < |ts| :: ts[j].id != id
    ensures r.Some? ==> r.value < |ts| && ts[r.value].id == id
    ensures r.Some? ==> forall j | r.value < j < |ts| :: ts[j].id != id
  {
    if ts == [] then None
    else if ts[|ts| - 1].id == id then Some(|ts| - 1)
    else LastWith(ts[..|ts| - 1], id)
  }

  /** The index of the first task not yet completed. */
  function FirstIncomplete(ts: seq<Task>): (r: Option<nat>)
    ensures r.None? <==> forall j | 0 <= j < |ts| :: ts[j].completed
    ensures r.Some? ==> r.value < |ts| && !ts[r.value].completed
    ensures r.Some? ==> forall j | 0 <= j < r.value :: ts[j].completed
  {
    if ts == [] then None
    else if !ts[0].completed then Some(0)
    else match FirstIncomplete(ts[1..])
      case None => None
      case Some(i) => Some(i + 1)
  }

  /** The errors evaluation itself can report. */
  predicate IsEvalError(e: AggregateError) {
    e.EmptyNode? || e.BadNumber? || e.Arithmetic? || e.Diverges?
  }

  /** An operator node's value from its operands' values: the left error wins,
      then the right one, then the arithmetic. */
  function Combine(op: string, a: Result<real, AggregateError>, b: Result<real, AggregateError>): Result<real, AggregateError> {
    if a.Err? then a
    else if b.Err? then b
    else match Apply(op, a.value, b.value)
      case Ok(v) => Ok(v)
      case Err(e) => Err(Arithmetic(e))
  }

  /** `evaluateWithResults` on the node rebuilt for task `ts[i]`, the last row
      with its id. An operator node is recomputed from its operands; any other
      node answers with the stored result. `fuel` bounds the depth of task nodes
      visited: the source recurses without bound on a reference cycle, and
      running out of fuel stands for that. */
  function EvalTask(ts: seq<Task>, i: nat, fuel: nat): (r: Result<real, AggregateError>)
    requires i < |ts|
    ensures r.Err? ==> IsEvalError(r.error)
    ensures r.Err? && r.error.BadNumber? ==> ParseFloat(r.error.text).None?
    ensures !IsOperator(ts[i].op) && fuel > 0 ==> r == Ok(ts[i].result)
    decreases fuel, 0
  {
    if fuel == 0 then Err(Diverges)
    else
      var t := ts[i];
      if !IsOperator(t.op) then Ok(t.result)
      else
        Combine(t.op, EvalArg(ts, t.arg1, fuel - 1), EvalArg(ts, t.arg2, fuel - 1))
  }

  /** The child node an operand stands for. A reference `task:X` is the node of
      task `X`, absent when no task has that id. Any other operand is a fresh
      node with no task id and no children: an operator text there has no
      operands to combine, and otherwise the result stored under the empty id
      (when some task has that id) is taken before the text is parsed. */
  function EvalArg(ts: seq<Task>, arg: string, fuel: nat): (r: Result<real, AggregateError>)
    ensures r.Err? ==> IsEvalError(r.error)
    ensures r.Err? && r.error.BadNumber? ==> ParseFloat(r.error.text).None?
    ensures !HasPrefix(arg, RefPrefix) && !IsOperator(arg) && LastWith(ts, []).None? ==>
      (r.Ok? <==> ParseFloat(arg).Some?)
    decreases fuel, 1
  {
    if HasPrefix(arg, RefPrefix) then
      match LastWith(ts, RefTarget(arg))
      case None => Err(EmptyNode)
      case Some(j) => EvalTask(ts, j, fuel)
    else if IsOperator(arg) then Err(EmptyNode)
    else match LastWith(ts, [])
      case Some(j) => Ok(ts[j].result)
      case None =>
        match ParseFloat(arg)
        case Some(v) => Ok(v)
        case None => Err(BadNumber(arg))
  }

  /** `AggregateResults`: the first incomplete task stops it, an empty list has
      nothing to aggregate, and otherwise the last task is the root. The fuel is
      one more than the number of tasks, enough for any reference chain that
      visits no task twice. */
  function Aggregate(ts: seq<Task>): (r: Result<real, AggregateError>)
    ensures r.Err? && r.error.NotCompleted? <==> exists j | 0 <= j < |ts| :: !ts[j].completed
    ensures r.Err? && r.error.NotCompleted? ==>
      exists j | 0 <= j < |ts| :: ts[j].id == r.error.id && !ts[j].completed
        && forall k | 0 <= k < j :: ts[k].completed
    ensures r == Err(NoTasks) <==> ts == []
  {
    match FirstIncomplete(ts)
    case Some(i) => Err(NotCompleted(ts[i].id))
    case None =>
      if ts == [] then Err(NoTasks)
      else EvalTask(ts, |ts| - 1, |ts| + 1)
  }

  /** The value the parsed tree denotes, computed on the tree itself: leaves are
      parsed as numbers, operator nodes apply their operator. */
  function Evaluate(n: Node): Result<real, AggregateError>
    requires WellShaped(n)
  {
    if n.left.Nil? then
      match ParseFloat(n.value)
      case Some(v) => Ok(v)
      case None => Err(BadNumber(n.value))
    else
      Combine(n.value, Evaluate(n.left), Evaluate(n.right))
  }

  // ---------------------------------------------------------------------------
  // Stored results of operator tasks are never read

  /** Two task lists that describe the same work, whatever their outcomes. */
  predicate SameWorkAll(ts: seq<Task>, us: seq<Task>) {
    |ts| == |us| && forall k | 0 <= k < |ts| :: SameWork(ts[k], us[k])
  }

  lemma SameWorkLastWith(ts: seq<Task>, us: seq<Task>, id: string)
    requires SameWorkAll(ts, us)
    ensures LastWith(ts, id) == LastWith(us, id)
  {
    if ts != [] {
      assert SameWorkAll(ts[..|ts| - 1], us[..|us| - 1]);
      SameWorkLastWith(ts[..|ts| - 1], us[..|us| - 1], id);
    }
  }

  /** Only operator tasks with non-empty ids: every stored result is then
      recomputed rather than read. */
  predicate OperatorTasks(ts: seq<Task>) {
    forall k | 0 <= k < |ts| :: IsOperator(ts[k].op) && ts[k].id != []
  }

  /** Rebuilding a task's node gives the same value whatever the stored results. */
  lemma {:induction false} TaskIgnoresResults(ts: seq<Task>, us: seq<Task>, i: nat, fuel: nat)
    requires SameWorkAll(ts, us) && OperatorTasks(ts) && i < |ts|
    ensures EvalTask(ts, i, fuel) == EvalTask(us, i, fuel)
    decreases fuel, 0
  {
    if fuel > 0 {
      var sub := fuel - 1;
      assert SameWork(ts[i], us[i]);
      ArgIgnoresResults(ts, us, ts[i].arg1, sub);
      ArgIgnoresResults(ts, us, ts[i].arg2, sub);
      EvalOperatorTask(ts, i, fuel, sub);
      EvalOperatorTask(us, i, fuel, sub);
    }
  }

  /** An operator task with fuel left combines its operands. */
  lemma EvalOperatorTask(ts: seq<Task>, k: nat, fuel: nat, sub: nat)
    requires k < |ts| && fuel > 0 && sub == fuel - 1 && IsOperator(ts[k].op)
    ensures EvalTask(ts, k, fuel) == Combine(ts[k].op, EvalArg(ts, ts[k].arg1, sub), EvalArg(ts, ts[k].arg2, sub))
  {
  }

  lemma {:induction false} ArgIgnoresResults(ts: seq<Task>, us: seq<Task>, arg: string, fuel: nat)
    requires SameWorkAll(ts, us) && OperatorTasks(ts)
    ensures EvalArg(ts, arg, fuel) == EvalArg(us, arg, fuel)
    decreases fuel, 1
  {
    SameWorkLastWith(ts, us, []);
    if HasPrefix(arg, RefPrefix) {
      SameWorkLastWith(ts, us, RefTarget(arg));
      if LastWith(ts, RefTarget(arg)).Some? {
        TaskIgnoresResults(ts, us, LastWith(ts, RefTarget(arg)).value, fuel);
      }
    }
  }

  /** When every task is an operator task, the stored results do not affect the
      aggregated value: it depends on the operands and operators alone. */
  lemma AggregateIgnoresResults(ts: seq<Task>, us: seq<Task>)
    requires SameWorkAll(ts, us) && OperatorTasks(ts)
    requires forall k | 0 <= k < |ts| :: ts[k].completed == us[k].completed
    ensures Aggregate(ts) == Aggregate(us)
  {
    if FirstIncomplete(ts).Some? {
      assert FirstIncomplete(us).Some?;
      assert ts[FirstIncomplete(ts).value].id == us[FirstIncomplete(us).value].id;
    } else if ts != [] {
      TaskIgnoresResults(ts, us, |ts| - 1, |ts| + 1);
    }
  }

  // ---------------------------------------------------------------------------
  // How the rebuilt graph behaves on rows not produced by the compiler

  /** A reference to an id no task has is an `empty node` error. */
  lemma DanglingReference()
    ensures EvalTask([Task("t1", "e", "", "task:t9", "1", "+", 0, 0.0, true)], 0, 2) == Err(EmptyNode)
  {
    var t := Task("t1", "e", "", "task:t9", "1", "+", 0, 0.0, true);
    assert HasPrefix("task:t9", RefPrefix);
    assert RefTarget("task:t9") == "t9";
  }

  /** A task that refers to itself never bottoms out. */
  lemma SelfReferenceDiverges(fuel: nat)
    ensures EvalTask([Task("t1", "e", "", "task:t1", "1", "+", 0, 0.0, true)], 0, fuel) == Err(Diverges)
  {
    var ts := [Task("t1", "e", "", "task:t1", "1", "+", 0, 0.0, true)];
    assert HasPrefix("task:t1", RefPrefix);
    assert RefTarget("task:t1") == "t1";
    if fuel > 0 {
      assert LastWith(ts, "t1") == Some(0);
      SelfReferenceDiverges(fuel - 1);
    }
  }
}

=== FILE: arith.dfy ===
/** The arithmetic of one task: the agent's `calculate` and the operator switch
    at the end of the aggregator's `evaluateWithResults` agree case by case, so
    both are modelled by `Apply`. Values are `real`; floating-point rounding is
    not modelled. */
module Arith {
  import opened Wrappers
  import opened Text

  datatype ArithError = DivisionByZero | UnknownOperator(op: string)

  /** Applies a binary operator to its left and right operand. */
  function Apply(op: string, a: real, b: real): (r: Result<real, ArithError>)
    ensures r == Err(DivisionByZero) <==> op == "/" && b == 0.0
    ensures r == Err(UnknownOperator(op)) <==> !IsOperator(op)
    ensures r.Ok? ==> IsOperator(op)
    ensures r.Ok? && op == "/" ==> r.value * b == a
    ensures r.Ok? && op == "-" ==> r.value + b == a
    ensures r.Ok? && op == "+" ==> r.value - b == a
    ensures r.Ok? && op == "*" ==> r.value == a * b
  {
    match op
    case "+" => Ok(a + b)
    case "-" => Ok(a - b)
    case "*" => Ok(a * b)
    case "/" => if b == 0.0 then Err(DivisionByZero) else Ok(a / b)
    case _ => Err(UnknownOperator(op))
  }
}

=== FILE: calculator.dfy ===
/** `ProcessExpression`: the text is compiled into a tree, recorded as a pending
    expression and split into tasks, which are registered for the agents. */
module Calculator {
  import opened Wrappers
  import opened Text
  import opened Records
  import opened Tree
  import opened Validator
  import opened Tokenizer
  import opened Parser
  import opened Aggregator
  import opened TaskStore
  import opened ExpressionStore

  datatype CalcError =
    | Invalid(reason: ValidationError)
    | Lexing(lexError: TokenizeError)
    | Syntax(parseError: ParseError)
    | Storage(storeError: StoreError)

  /** The steps before anything is stored: spaces are removed, the text is
      validated, tokenized and turned into a tree. */
  function Compile(text: string): (r: Result<Node, CalcError>)
    ensures r.Err? && r.error.Invalid? <==> !WellFormedText(StripSpaces(text))
    ensures r.Err? ==> !r.error.Lexing? && !r.error.Storage?
    ensures r.Ok? ==> WellShaped(r.value)
    ensures r.Ok? ==> OpCount(r.value) == OperatorChars(StripSpaces(text))
    ensures r.Ok? ==> Leaves(r.value) == Operands(StripSpaces(text))
    ensures r.Ok? ==> forall t | t in Leaves(r.value) :: IsDecimalText(t)
  {
    var s := StripSpaces(text);
    match Validate(s)
    case Some(e) => Err(Invalid(e))
    case None =>
      ValidatedTokens(s);
      LexFacts(s);
      LexIsLexical(s);
      NumberTextsAreOperands(s);
      BuildTreeFacts(Lex(s));
      match Tokenize(s)
      case Err(e) => Err(Lexing(e))
      case Ok(toks) =>
        match BuildTree(toks)
        case Err(e) => Err(Syntax(e))
        case Ok(n) => Ok(n)
  }

  /** What a call leaves behind: the store, and the expression or the error. */
  datatype Processed = Processed(db: Db, outcome: Result<Expression, CalcError>)

  /** `ProcessExpression` for user `userId`. The expression id `id`, the clock
      `now`, the task-id supply from position `start` and the configured
      operation times `cfg` are parameters. Once the expression record is
      inserted a later failure does not remove it. */
  function ProcessExpression(db: Db, text: string, userId: string, id: string, now: int,
                             supply: nat -> string, start: nat, cfg: TimeConfig): (p: Processed)
    ensures Compile(text).Err? ==> p == Processed(db, Err(Compile(text).error))
    ensures Compile(text).Ok? && HasExpr(db.exprs, id) ==> p == Processed(db, Err(Storage(DuplicateId(id))))
    ensures Compile(text).Ok? && !HasExpr(db.exprs, id) ==>
      p.db.exprs == db.exprs + [NewRow(id, userId, StripSpaces(text), now)]
    ensures p.outcome.Ok? <==>
      Compile(text).Ok? && !HasExpr(db.exprs, id)
      && Insertable(db.tasks, CreateTasks(id, Compile(text).value, supply, start, cfg))
    ensures p.outcome.Ok? ==>
      && p.outcome.value == Expression(id, StripSpaces(text), Pending, 0.0, now)
      && p.db.tasks == db.tasks + StampAll(CreateTasks(id, Compile(text).value, supply, start, cfg), id, userId)
    ensures p.outcome.Err? ==> p.db.tasks == db.tasks
  {
    match Compile(text)
    case Err(e) => Processed(db, Err(e))
    case Ok(n) =>
      var s := StripSpaces(text);
      match NewExpression(db, id, userId, s, now)
      case Err(e) => Processed(db, Err(Storage(e)))
      case Ok(db1) =>
        var tasks := CreateTasks(id, n, supply, start, cfg);
        match RegisterTasks(db1, id, userId, tasks)
        case Err(e) => Processed(db1, Err(Storage(e)))
        case Ok(db2) => Processed(db2, Ok(View(NewRow(id, userId, s, now))))
  }

  // ---------------------------------------------------------------------------
  // Properties of the pipeline

  /** Validated text always tokenizes: the tokenizer's own parenthesis error is
      unreachable from `ProcessExpression`. The tree builder can still refuse
      validated text, as `1(2)` shows. */
  lemma CompileRefusesAfterValidation()
    ensures WellFormedText("1(2)")
    ensures Compile("1(2)") == Err(Syntax(InvalidExpression))
  {
    var s := "1(2)";
    assert StripSpaces(s) == s;
    OneParenTwoIsValid();
    OneParenTwoTokens();
    ValidatedTokens(s);
    OneParenTwoTree();
  }

  lemma OneParenTwoIsValid()
    ensures WellFormedText("1(2)")
  {
    OneParenTwoOperands();
    OneParenTwoBalanced();
    OneParenTwoChars();
    DecimalDigit("1");
    DecimalDigit("2");
    WellFormedOfParts("1(2)", "1", "2");
  }

  lemma WellFormedOfParts(s: string, x: string, y: string)
    requires |s| > 0 && AllAllowed(s) && NoAdjacentOperators(s) && Balanced(s)
    requires Operands(s) == [x, y] && IsDecimalText(x) && IsDecimalText(y)
    ensures WellFormedText(s)
  {
  }

  lemma OneParenTwoChars()
    ensures AllAllowed("1(2)") && NoAdjacentOperators("1(2)")
  {
  }

  lemma DecimalDigit(d: string)
    requires |d| == 1 && IsDigit(d[0])
    ensures IsDecimalText(d)
  {
    assert d[..0] == [];
  }

  /** The operands are read off the tokens. */
  lemma OneParenTwoOperands()
    ensures Operands("1(2)") == ["1", "2"]
  {
    OneParenTwoChars();
    NumberTextsAreOperands("1(2)");
    OneParenTwoTokens();
    OneParenTwoNumbers();
  }

  lemma OneParenTwoNumbers()
    ensures NumberTexts([Number("1"), LeftParen, Number("2"), RightParen]) == ["1", "2"]
  {
    var toks := [Number("1"), LeftParen, Number("2"), RightParen];
    NumberTextsCons(toks[0], toks[1..]);
    NumberTextsCons(toks[1], toks[2..]);
    NumberTextsCons(toks[2], toks[3..]);
    NumberTextsCons(toks[3], []);
    assert toks == [toks[0]] + toks[1..] && toks[1..] == [toks[1]] + toks[2..];
    assert toks[2..] == [toks[2]] + toks[3..] && toks[3..] == [toks[3]] + [];
  }

  lemma OneParenTwoBalanced()
    ensures Balanced("1(2)")
  {
    var s := "1(2)";
    assert s[..0] == [] && s[..1] == "1" && s[..2] == "1(" && s[..3] == "1(2" && s[..4] == s;
    assert "1(2"[..2] == "1(" && "1("[..1] == "1" && "1"[..0] == [];
    assert Depth("1") == 0 && Depth("1(") == 1 && Depth("1(2") == 1 && Depth(s) == 0;
  }

  lemma OneParenTwoTokens()
    ensures Lex("1(2)") == [Number("1"), LeftParen, Number("2"), RightParen]
  {
    var s := "1(2)";
    assert NumberLength(s) == 1;
    assert s[..1] == "1" && s[1..] == "(2)";
    assert "(2)"[1..] == "2)";
    assert Lex("(2)") == [LeftParen] + Lex("2)");
    assert NumberLength("2)") == 1;
    assert "2)"[..1] == "2" && "2)"[1..] == ")";
    assert Lex(")") == [RightParen] by {
      assert ")"[1..] == [];
    }
  }

  lemma OneParenTwoTree()
    ensures BuildTree([Number("1"), LeftParen, Number("2"), RightParen]) == Err(InvalidExpression)
  {
  }

  /** The leaves of a compiled tree are decimal texts, so evaluating the tree can
      only fail on arithmetic. */
  lemma {:induction false} DecimalLeavesEvaluate(n: Node)
    requires WellShaped(n) && forall t | t in Leaves(n) :: IsDecimalText(t)
    ensures Evaluate(n).Ok? || Evaluate(n).error.Arithmetic?
    decreases n
  {
    if !n.left.Nil? {
      assert Leaves(n) == Leaves(n.left) + Leaves(n.right);
      DecimalLeavesEvaluate(n.left);
      DecimalLeavesEvaluate(n.right);
    } else {
      assert Leaves(n) == [n.value];
    }
  }

  /** With fresh expression and task ids, a compiled text is always recorded and
      its tasks registered. */
  lemma ProcessSucceeds(db: Db, text: string, userId: string, id: string, now: int,
                        supply: nat -> string, start: nat, cfg: TimeConfig)
    requires Compile(text).Ok? && !HasExpr(db.exprs, id)
    requires forall i, j | start <= i < j < start + OpCount(Compile(text).value) :: supply(i) != supply(j)
    requires forall i | start <= i < start + OpCount(Compile(text).value) :: !HasTask(db.tasks, supply(i))
    ensures ProcessExpression(db, text, userId, id, now, supply, start, cfg).outcome.Ok?
  {
    var n := Compile(text).value;
    var batch := CreateTasks(id, n, supply, start, cfg);
    CreateTasksIds(id, n, supply, start, cfg);
    DrawnInsertable(db.tasks, batch, supply, start);
  }

  /** A batch whose ids are drawn in order from distinct, unused supply values
      can be inserted. */
  lemma DrawnInsertable(table: seq<Task>, batch: seq<Task>, supply: nat -> string, start: nat)
    requires IdsFrom(batch, supply, start)
    requires forall i, j | start <= i < j < start + |batch| :: supply(i) != supply(j)
    requires forall i | start <= i < start + |batch| :: !HasTask(table, supply(i))
    ensures Insertable(table, batch)
  {
    forall i, j | 0 <= i < j < |batch|
      ensures batch[i].id != batch[j].id
    {
      assert batch[i].id == supply(start + i) && batch[j].id == supply(start + j);
    }
    forall k | 0 <= k < |batch|
      ensures !HasTask(table, batch[k].id)
    {
      assert batch[k].id == supply(start + k);
    }
  }

  /** A text with no operator compiles to a single leaf and gets no tasks: the
      record is created pending and nothing is left for the agents. */
  lemma LiteralHasNoTasks(db: Db, text: string, userId: string, id: string, now: int,
                          supply: nat -> string, start: nat, cfg: TimeConfig)
    requires Compile(text).Ok? && !HasExpr(db.exprs, id)
    requires OperatorChars(StripSpaces(text)) == 0
    ensures var p := ProcessExpression(db, text, userId, id, now, supply, start, cfg);
      && p.outcome == Ok(Expression(id, StripSpaces(text), Pending, 0.0, now))
      && p.db.tasks == db.tasks
  {
    var n := Compile(text).value;
    assert CreateTasks(id, n, supply, start, cfg) == [];
    assert db.tasks + StampAll([], id, userId) == db.tasks;
  }
}

=== FILE: expression_store.dfy ===
/** The expressions table: creating a record, reading one back and listing a
    user's records newest first. */
module ExpressionStore {
  import opened Wrappers
  import opened Records
  import opened TaskStore

  /** An expression as the store hands it out: no owner, and a NULL result
      read as 0. */
  datatype Expression = Expression(id: string, text: string, status: Status, result: real, createdAt: int)

  function View(row: ExprRow): (e: Expression)
    ensures e.id == row.id && e.text == row.text && e.status == row.status && e.createdAt == row.createdAt
    ensures row.result.None? ==> e.result == 0.0
    ensures row.result.Some? ==> e.result == row.result.value
  {
    Expression(row.id, row.text, row.status, row.result.GetOr(0.0), row.createdAt)
  }

  /** The row a new expression starts as: pending, with no result. */
  function NewRow(id: string, owner: string, text: string, now: int): ExprRow {
    ExprRow(id, owner, text, Pending, None, now)
  }

  /** `NewExpression`. The id (`expr-` and the clock in nanoseconds) and the
      creation time are parameters; an id already taken makes the insert fail
      and leaves the table as it was. */
  function NewExpression(db: Db, id: string, owner: string, text: string, now: int): (r: Result<Db, StoreError>)
    ensures r.Err? <==> HasExpr(db.exprs, id)
    ensures r.Err? ==> r.error == DuplicateId(id)
    ensures r.Ok? ==> r.value.tasks == db.tasks && r.value.exprs == db.exprs + [NewRow(id, owner, text, now)]
  {
    if HasExpr(db.exprs, id) then Err(DuplicateId(id))
    else Ok(db.(exprs := db.exprs + [NewRow(id, owner, text, now)]))
  }

  /** Two submissions that read the same clock value get the same id: the
      second one is refused. */
  lemma SameInstantCollides(db: Db, id: string, a: string, b: string, textA: string, textB: string, now: int)
    requires NewExpression(db, id, a, textA, now).Ok?
    ensures NewExpression(NewExpression(db, id, a, textA, now).value, id, b, textB, now) == Err(DuplicateId(id))
  {
    var db1 := NewExpression(db, id, a, textA, now).value;
    assert db1.exprs[|db.exprs|].id == id;
  }

  function FirstExpr(rows: seq<ExprRow>, id: string): (r: Option<nat>)
    ensures r.None? <==> !HasExpr(rows, id)
    ensures r.Some? ==> r.value < |rows| && rows[r.value].id == id
  {
    if rows == [] then None
    else if rows[0].id == id then Some(0)
    else match FirstExpr(rows[1..], id)
      case None => None
      case Some(i) => Some(i + 1)
  }

  /** `GetExpression`: by id alone, whoever owns it. */
  function GetExpression(db: Db, id: string): (r: Option<Expression>)
    ensures r.None? <==> !HasExpr(db.exprs, id)
    ensures r.Some? ==> exists i | 0 <= i < |db.exprs| :: db.exprs[i].id == id && r.value == View(db.exprs[i])
  {
    match FirstExpr(db.exprs, id)
    case None => None
    case Some(i) => Some(View(db.exprs[i]))
  }

  /** A freshly created expression reads back pending, with result 0. */
  lemma NewThenGet(db: Db, id: string, owner: string, text: string, now: int)
    requires NewExpression(db, id, owner, text, now).Ok?
    ensures GetExpression(NewExpression(db, id, owner, text, now).value, id) == Some(Expression(id, text, Pending, 0.0, now))
  {
    var db1 := NewExpression(db, id, owner, text, now).value;
    assert db1.exprs[|db.exprs|].id == id;
  }

  // ---------------------------------------------------------------------------
  // ListExpressions

  function OwnedBy(rows: seq<ExprRow>, owner: string): (r: seq<ExprRow>)
    ensures forall x :: x in r <==> x in rows && x.owner == owner
  {
    if rows == [] then []
    else (if rows[0].owner == owner then [rows[0]] else []) + OwnedBy(rows[1..], owner)
  }

  /** Newest first: creation times never increase along the list. */
  predicate NewestFirst(s: seq<ExprRow>) {
    forall i, j | 0 <= i < j < |s| :: s[i].createdAt >= s[j].createdAt
  }

  /** Puts `x` after every row at least as new as it. */
  function InsertByTime(x: ExprRow, s: seq<ExprRow>): (r: seq<ExprRow>)
    requires NewestFirst(s)
    ensures NewestFirst(r)
    ensures multiset(r) == multiset(s) + multiset{x}
    ensures |r| == |s| + 1
    ensures forall k | 0 <= k < |r| :: r[k].createdAt <= Newest(x, s)
  {
    if s == [] then [x]
    else if s[0].createdAt < x.createdAt then [x] + s
    else
      var rest := InsertByTime(x, s[1..]);
      InsertAfterHead(x, s, rest);
      [s[0]] + rest
  }

  /** The head of `s` stays in front of `x` placed into the rest of `s`. */
  lemma InsertAfterHead(x: ExprRow, s: seq<ExprRow>, rest: seq<ExprRow>)
    requires s != [] && NewestFirst(s) && x.createdAt <= s[0].createdAt
    requires NewestFirst(rest) && multiset(rest) == multiset(s[1..]) + multiset{x}
    requires forall k | 0 <= k < |rest| :: rest[k].createdAt <= Newest(x, s[1..])
    ensures NewestFirst([s[0]] + rest)
    ensures multiset([s[0]] + rest) == multiset(s) + multiset{x}
    ensures forall k | 0 <= k < |rest| + 1 :: ([s[0]] + rest)[k].createdAt <= s[0].createdAt
  {
    assert s == [s[0]] + s[1..];
    assert Newest(x, s[1..]) <= s[0].createdAt;
  }

  /** The newest creation time among `x` and the already ordered `s`. */
  function Newest(x: ExprRow, s: seq<ExprRow>): int {
    if s == [] || s[0].createdAt < x.createdAt then x.createdAt else s[0].createdAt
  }

  function SortNewestFirst(s: seq<ExprRow>): (r: seq<ExprRow>)
    ensures NewestFirst(r)
    ensures multiset(r) == multiset(s)
    ensures |r| == |s|
  {
    if s == [] then []
    else
      assert s == s[..|s| - 1] + [s[|s| - 1]];
      InsertByTime(s[|s| - 1], SortNewestFirst(s[..|s| - 1]))
  }

  /** `ListExpressions`: the owner's expressions, newest first. Rows created at
      the same instant keep their insertion order. */
  function ListExpressions(db: Db, owner: string): (r: seq<Expression>)
    ensures |r| == |OwnedBy(db.exprs, owner)|
  {
    Views(SortNewestFirst(OwnedBy(db.exprs, owner)))
  }

  function Views(rows: seq<ExprRow>): (r: seq<Expression>)
    ensures |r| == |rows|
    ensures forall k | 0 <= k < |rows| :: r[k] == View(rows[k])
  {
    if rows == [] then [] else [View(rows[0])] + Views(rows[1..])
  }

  /** The listing holds exactly the owner's rows, each as often as it is
      stored, newest first. */
  lemma ListExpressionsMeaning(db: Db, owner: string)
    ensures var sorted := SortNewestFirst(OwnedBy(db.exprs, owner));
      && multiset(sorted) == multiset(OwnedBy(db.exprs, owner))
      && (forall x :: x in sorted <==> x in db.exprs && x.owner == owner)
      && ListExpressions(db, owner) == Views(sorted)
    ensures forall i, j | 0 <= i < j < |ListExpressions(db, owner)| ::
      ListExpressions(db, owner)[i].createdAt >= ListExpressions(db, owner)[j].createdAt
  {
    var sorted := SortNewestFirst(OwnedBy(db.exprs, owner));
    forall x
      ensures x in sorted <==> x in OwnedBy(db.exprs, owner)
    {
      assert x in sorted <==> x in multiset(sorted);
      assert x in OwnedBy(db.exprs, owner) <==> x in multiset(OwnedBy(db.exprs, owner));
    }
  }
}

=== FILE: findings.dfy ===
/** Two places where the orchestrator does not do what it evidently means to,
    each modelled as written and corrected: an expression without operators is
    never completed, and a late repeated report overwrites a final value. */
module Findings {
  import opened Wrappers
  import opened Text
  import opened Records
  import opened Tree
  import opened Validator
  import opened Parser
  import opened Tokenizer
  import opened Aggregator
  import opened TaskStore
  import opened ExpressionStore
  import opened Calculator
  import opened TaskHandler

  // ---------------------------------------------------------------------------
  // An expression without operators

  /** As written: a text with no operator is recorded pending with no tasks, so
      no report ever names it and the sweep skips it. It stays pending. */
  lemma LiteralStaysPending(db: Db, text: string, userId: string, id: string, now: int,
                            supply: nat -> string, start: nat, cfg: TimeConfig)
    requires Compile(text).Ok? && !HasExpr(db.exprs, id)
    requires OperatorChars(StripSpaces(text)) == 0
    requires forall k | 0 <= k < |db.tasks| :: db.tasks[k].exprId != id
    ensures var p := ProcessExpression(db, text, userId, id, now, supply, start, cfg);
      && |p.db.exprs| == |db.exprs| + 1
      && ProcessPendingTasks(p.db).exprs[|db.exprs|] == NewRow(id, userId, StripSpaces(text), now)
  {
    var p := ProcessExpression(db, text, userId, id, now, supply, start, cfg);
    LiteralHasNoTasks(db, text, userId, id, now, supply, start, cfg);
    assert p.db.exprs[|db.exprs|] == NewRow(id, userId, StripSpaces(text), now);
    ProcessPendingSkipsUntasked(p.db, |db.exprs|);
  }

  /** Corrected: a text that compiles to a single number is recorded completed
      with that number; everything else goes through `ProcessExpression`. */
  function ProcessExpressionCompletingLiterals(db: Db, text: string, userId: string, id: string, now: int,
                                               supply: nat -> string, start: nat, cfg: TimeConfig): (p: Processed)
    ensures Compile(text).Err? || !Compile(text).value.left.Nil? ==>
      p == ProcessExpression(db, text, userId, id, now, supply, start, cfg)
    ensures Compile(text).Ok? && HasExpr(db.exprs, id) ==> p == Processed(db, Err(Storage(DuplicateId(id))))
  {
    match Compile(text)
    case Err(_) => ProcessExpression(db, text, userId, id, now, supply, start, cfg)
    case Ok(n) =>
      if !n.left.Nil? then ProcessExpression(db, text, userId, id, now, supply, start, cfg)
      else match ParseFloat(n.value)
        case None => ProcessExpression(db, text, userId, id, now, supply, start, cfg)
        case Some(v) =>
          var s := StripSpaces(text);
          match NewExpression(db, id, userId, s, now)
          case Err(e) => Processed(db, Err(Storage(e)))
          case Ok(db1) =>
            var db2 := Written(UpdateExpressionStatus(db1, id, Completed, v), db1);
            Processed(db2, Ok(Expression(id, s, Completed, v, now)))
  }

  /** With the correction, a text without operators is answered at once: the
      record is completed with the value of its one number, and no task is
      registered. */
  lemma LiteralCompletes(db: Db, text: string, userId: string, id: string, now: int,
                         supply: nat -> string, start: nat, cfg: TimeConfig)
    requires Compile(text).Ok? && !HasExpr(db.exprs, id)
    requires OperatorChars(StripSpaces(text)) == 0
    ensures var p := ProcessExpressionCompletingLiterals(db, text, userId, id, now, supply, start, cfg);
      && |Operands(StripSpaces(text))| == 1
      && ParseFloat(Operands(StripSpaces(text))[0]).Some?
      && p.outcome == Ok(Expression(id, StripSpaces(text), Completed, ParseFloat(Operands(StripSpaces(text))[0]).value, now))
      && p.db.tasks == db.tasks
      && p.db.exprs == db.exprs + [ExprRow(id, userId, StripSpaces(text), Completed,
                                          ParseFloat(Operands(StripSpaces(text))[0]), now)]
  {
    LiteralLeaf(text);
    var n := Compile(text).value;
    InsertCompleted(db, id, userId, StripSpaces(text), now, ParseFloat(n.value).value);
  }

  /** Text without operators compiles to a single number leaf. */
  lemma LiteralLeaf(text: string)
    requires Compile(text).Ok? && OperatorChars(StripSpaces(text)) == 0
    ensures Compile(text).value.left.Nil?
    ensures Operands(StripSpaces(text)) == [Compile(text).value.value]
    ensures ParseFloat(Compile(text).value.value).Some?
  {
    var n := Compile(text).value;
    assert Leaves(n) == [n.value];
  }

  /** A new row written completed at once. */
  lemma InsertCompleted(db: Db, id: string, owner: string, s: string, now: int, v: real)
    requires !HasExpr(db.exprs, id)
    ensures var db1 := NewExpression(db, id, owner, s, now).value;
      && UpdateExpressionStatus(db1, id, Completed, v).Ok?
      && UpdateExpressionStatus(db1, id, Completed, v).value.tasks == db.tasks
      && UpdateExpressionStatus(db1, id, Completed, v).value.exprs == db.exprs + [ExprRow(id, owner, s, Completed, Some(v), now)]
  {
    var db1 := NewExpression(db, id, owner, s, now).value;
    assert db1.exprs[|db.exprs|].id == id;
    var db2 := UpdateExpressionStatus(db1, id, Completed, v).value;
    forall k | 0 <= k < |db.exprs|
      ensures db2.exprs[k] == db.exprs[k]
    {
      assert db1.exprs[k] == db.exprs[k];
    }
    assert db2.exprs == db.exprs + [ExprRow(id, owner, s, Completed, Some(v), now)];
  }

  // ---------------------------------------------------------------------------
  // A late report of a task already done

  /** `1+2*3`: task `a` computes `2*3`, task `b` adds 1 to it. */
  function Scenario(): Db {
    Db([ExprRow("e", "u", "1+2*3", Pending, None, 0)], [TaskA(0.0, false), TaskB(0.0, false)])
  }

  function TaskA(result: real, completed: bool): Task {
    Task("a", "e", "u", "2", "3", "*", 0, result, completed)
  }

  function TaskB(result: real, completed: bool): Task {
    Task("b", "e", "u", "1", "task:a", "+", 0, result, completed)
  }

  /** A report for either scenario task names expression `e` and completes
      exactly that row. */
  lemma ScenarioReport(db: Db, ra: real, ca: bool, rb: real, cb: bool, x: real)
    requires db.tasks == [TaskA(ra, ca), TaskB(rb, cb)]
    ensures HasTask(db.tasks, "a") && ReportedExpression(db, "a") == "e"
    ensures HasTask(db.tasks, "b") && ReportedExpression(db, "b") == "e"
    ensures CompleteTask(db, "a", x).tasks == [TaskA(x, true), TaskB(rb, cb)]
    ensures CompleteTask(db, "b", x).tasks == [TaskA(ra, ca), TaskB(x, true)]
  {
    assert db.tasks[0].id == "a" && db.tasks[1].id == "b";
    assert FirstWithId(db.tasks, "a") == Some(0);
    assert FirstWithId(db.tasks[1..], "b") == Some(0);
  }

  /** As written: `a` is reported, then `b`, then `a` once more (a second agent
      that fetched `a` before it was completed, or a resent report). The last
      report finds no task left incomplete and completes the expression with
      its own value, 6, although the tasks aggregate to 7; the sweep skips
      completed expressions, so 6 stays. */
  lemma LateReportOverwrites(d0: Db)
    requires d0 == Scenario()
    ensures PostResult(d0, "a", 6.0).Ok?
    ensures PostResult(PostResult(d0, "a", 6.0).value, "b", 7.0).Ok?
    ensures var d2 := PostResult(PostResult(d0, "a", 6.0).value, "b", 7.0).value;
      && d2.exprs[0] == ExprRow("e", "u", "1+2*3", Completed, Some(7.0), 0)
      && PostResult(d2, "a", 6.0).Ok?
      && PostResult(d2, "a", 6.0).value.exprs[0] == ExprRow("e", "u", "1+2*3", Completed, Some(6.0), 0)
      && Aggregate(PostResult(d2, "a", 6.0).value.tasks) == Ok(7.0)
  {
    ScenarioReport(d0, 0.0, false, 0.0, false, 6.0);
    PostOnOneRow(d0, "a", 6.0);
    var d1 := PostResult(d0, "a", 6.0).value;
    ScenarioReport(d1, 6.0, true, 0.0, false, 7.0);
    PostOnOneRow(d1, "b", 7.0);
    var d2 := PostResult(d1, "b", 7.0).value;
    ScenarioReport(d2, 6.0, true, 7.0, true, 6.0);
    PostOnOneRow(d2, "a", 6.0);
    ScenarioAggregates(d2.tasks);
  }

  /** A report against a store with one expression row, which the task names. */
  lemma PostOnOneRow(db: Db, id: string, x: real)
    requires |db.exprs| == 1 && HasTask(db.tasks, id) && ReportedExpression(db, id) == db.exprs[0].id
    ensures PostResult(db, id, x).Ok? && |PostResult(db, id, x).value.exprs| == 1
    ensures PostResult(db, id, x).value.tasks == CompleteTask(db, id, x).tasks
    ensures var n := CountIncomplete(CompleteTask(db, id, x).tasks, db.exprs[0].id);
      PostResult(db, id, x).value.exprs[0]
        == db.exprs[0].(status := if n == 0 then Completed else InProgress, result := Some(if n == 0 then x else 0.0))
  {
  }

  /** The completed scenario's tasks aggregate to 7. */
  lemma ScenarioAggregates(ts: seq<Task>)
    requires ts == [TaskA(6.0, true), TaskB(7.0, true)]
    ensures Aggregate(ts) == Ok(7.0)
  {
    ScenarioLookups(ts);
    SmallNumbers();
    ScenarioProduct(ts);
    assert EvalArg(ts, "1", 2) == Ok(1.0);
    assert EvalArg(ts, "task:a", 2) == Ok(6.0);
    assert EvalTask(ts, 1, 3) == Ok(7.0);
  }

  lemma ScenarioProduct(ts: seq<Task>)
    requires ts == [TaskA(6.0, true), TaskB(7.0, true)]
    ensures EvalTask(ts, 0, 2) == Ok(6.0)
  {
    ScenarioLookups(ts);
    SmallNumbers();
    assert EvalArg(ts, "2", 1) == Ok(2.0);
    assert EvalArg(ts, "3", 1) == Ok(3.0);
  }

  lemma ScenarioLookups(ts: seq<Task>)
    requires ts == [TaskA(6.0, true), TaskB(7.0, true)]
    ensures LastWith(ts, []).None? && LastWith(ts, "a") == Some(0)
    ensures HasPrefix("task:a", RefPrefix) && RefTarget("task:a") == "a"
    ensures !HasPrefix("1", RefPrefix) && !HasPrefix("2", RefPrefix) && !HasPrefix("3", RefPrefix)
    ensures !IsOperator("1") && !IsOperator("2") && !IsOperator("3")
  {
  }

  lemma SmallNumbers()
    ensures ParseFloat("1") == Some(1.0) && ParseFloat("2") == Some(2.0) && ParseFloat("3") == Some(3.0)
  {
    assert NatText(1) == "1" && NatText(2) == "2" && NatText(3) == "3";
    ParseFloatOfNatText(1);
    ParseFloatOfNatText(2);
    ParseFloatOfNatText(3);
  }

  /** Corrected: when the report leaves no task of its expression incomplete,
      the expression is completed with the value its tasks aggregate to, as the
      sweep does; if they do not aggregate the row is left as it was. */
  function PostResultAggregating(db: Db, id: string, result: real): (r: Result<Db, HandlerError>)
    ensures r.Err? <==> !HasTask(db.tasks, id)
    ensures r.Err? ==> r.error == NotFound
    ensures r.Ok? ==> r.value.tasks == CompleteTask(db, id, result).tasks
    ensures r.Ok? ==> |r.value.exprs| == |db.exprs|
    ensures r.Ok? ==> forall i | 0 <= i < |db.exprs| :: db.exprs[i].id != ReportedExpression(db, id) ==>
      r.value.exprs[i] == db.exprs[i]
    ensures r.Ok? ==> forall i | 0 <= i < |db.exprs| :: db.exprs[i].id == ReportedExpression(db, id) ==>
      && r.value.exprs[i].id == db.exprs[i].id && r.value.exprs[i].owner == db.exprs[i].owner
      && r.value.exprs[i].text == db.exprs[i].text && r.value.exprs[i].createdAt == db.exprs[i].createdAt
      && (CountIncomplete(r.value.tasks, db.exprs[i].id) > 0 ==>
            r.value.exprs[i].status == InProgress && r.value.exprs[i].result == Some(0.0))
      && (CountIncomplete(r.value.tasks, db.exprs[i].id) == 0 ==>
            match Aggregate(TasksOfExpression(r.value.tasks, db.exprs[i].id))
            case Ok(v) => r.value.exprs[i].status == Completed && r.value.exprs[i].result == Some(v)
            case Err(_) => r.value.exprs[i] == db.exprs[i])
  {
    match GetTask(db, id)
    case None => Err(NotFound)
    case Some(t) =>
      var db1 := CompleteTask(db, id, result);
      if CountIncompleteTasks(db1, t.exprId) > 0 then
        Ok(Written(UpdateExpressionStatus(db1, t.exprId, InProgress, 0.0), db1))
      else match Aggregate(TasksOfExpression(db1.tasks, t.exprId))
        case Ok(v) => Ok(Written(UpdateExpressionStatus(db1, t.exprId, Completed, v), db1))
        case Err(_) => Ok(db1)
  }

  /** Rows alike but for outcomes stay alike after keeping one expression's rows. */
  lemma {:induction false} TasksOfExpressionAlike(ts: seq<Task>, us: seq<Task>, e: string)
    requires |ts| == |us|
    requires forall k | 0 <= k < |ts| :: SameWork(ts[k], us[k]) && (ts[k].exprId == e ==> ts[k].completed == us[k].completed)
    ensures SameWorkAll(TasksOfExpression(ts, e), TasksOfExpression(us, e))
    ensures forall k | 0 <= k < |TasksOfExpression(ts, e)| ::
      TasksOfExpression(ts, e)[k].completed == TasksOfExpression(us, e)[k].completed
  {
    if ts != [] {
      TasksOfExpressionAlike(ts[1..], us[1..], e);
      assert SameWork(ts[0], us[0]);
    }
  }

  /** Every row the filter keeps has the expression's id. */
  lemma TasksOfExpressionIds(ts: seq<Task>, e: string)
    ensures forall k | 0 <= k < |TasksOfExpression(ts, e)| :: TasksOfExpression(ts, e)[k].exprId == e
  {
    var r := TasksOfExpression(ts, e);
    assert forall k | 0 <= k < |r| :: r[k] in r;
  }

  /** With the correction the stored value no longer depends on which report
      came last: once an expression's operator tasks are all completed, any
      further report for one of its tasks stores the value they aggregate to,
      whatever result it carries. */
  lemma LateReportHarmless(db: Db, id: string, result: real, i: nat)
    requires HasTask(db.tasks, id) && i < |db.exprs| && db.exprs[i].id == ReportedExpression(db, id)
    requires CountIncomplete(db.tasks, db.exprs[i].id) == 0
    requires OperatorTasks(TasksOfExpression(db.tasks, db.exprs[i].id))
    requires Aggregate(TasksOfExpression(db.tasks, db.exprs[i].id)).Ok?
    ensures PostResultAggregating(db, id, result).Ok?
    ensures PostResultAggregating(db, id, result).value.exprs[i].status == Completed
    ensures PostResultAggregating(db, id, result).value.exprs[i].result
      == Some(Aggregate(TasksOfExpression(db.tasks, db.exprs[i].id)).value)
  {
    var e := db.exprs[i].id;
    var after := CompleteTask(db, id, result).tasks;
    CompleteRowsCount(db.tasks, id, result, e);
    forall k | 0 <= k < |db.tasks|
      ensures SameWork(after[k], db.tasks[k]) && (after[k].exprId == e ==> after[k].completed == db.tasks[k].completed)
    {
    }
    TasksOfExpressionAlike(after, db.tasks, e);
    TasksOfExpressionIds(after, e);
    AggregateIgnoresResults(TasksOfExpression(db.tasks, e), TasksOfExpression(after, e));
  }

  /** In the scenario, the corrected handler keeps 7 through the late report. */
  lemma LateReportKeepsValue(d0: Db)
    requires d0 == Scenario()
    ensures PostResultAggregating(d0, "a", 6.0).Ok?
    ensures PostResultAggregating(PostResultAggregating(d0, "a", 6.0).value, "b", 7.0).Ok?
    ensures var d2 := PostResultAggregating(PostResultAggregating(d0, "a", 6.0).value, "b", 7.0).value;
      && d2.exprs[0] == ExprRow("e", "u", "1+2*3", Completed, Some(7.0), 0)
      && PostResultAggregating(d2, "a", 6.0).Ok?
      && PostResultAggregating(d2, "a", 6.0).value.exprs[0] == ExprRow("e", "u", "1+2*3", Completed, Some(7.0), 0)
  {
    ScenarioReport(d0, 0.0, false, 0.0, false, 6.0);
    AggregatingOnOneRow(d0, "a", 6.0);
    var d1 := PostResultAggregating(d0, "a", 6.0).value;
    ScenarioReport(d1, 6.0, true, 0.0, false, 7.0);
    AggregatingOnOneRow(d1, "b", 7.0);
    ScenarioOneExpression(6.0, 7.0);
    ScenarioAggregates([TaskA(6.0, true), TaskB(7.0, true)]);
    var d2 := PostResultAggregating(d1, "b", 7.0).value;
    ScenarioReport(d2, 6.0, true, 7.0, true, 6.0);
    AggregatingOnOneRow(d2, "a", 6.0);
  }

  /** Both scenario tasks belong to expression `e`. */
  lemma ScenarioOneExpression(ra: real, rb: real)
    ensures TasksOfExpression([TaskA(ra, true), TaskB(rb, true)], "e") == [TaskA(ra, true), TaskB(rb, true)]
  {
    var ts := [TaskA(ra, true), TaskB(rb, true)];
    assert ts[1..] == [TaskB(rb, true)] && ts[1..][1..] == [];
    assert TasksOfExpression(ts[1..][1..], "e") == [];
    assert TasksOfExpression(ts[1..], "e") == [TaskB(rb, true)];
  }

  /** A corrected report against a store with one expression row, which the
      task names. */
  lemma AggregatingOnOneRow(db: Db, id: string, x: real)
    requires |db.exprs| == 1 && HasTask(db.tasks, id) && ReportedExpression(db, id) == db.exprs[0].id
    ensures PostResultAggregating(db, id, x).Ok? && |PostResultAggregating(db, id, x).value.exprs| == 1
    ensures PostResultAggregating(db, id, x).value.tasks == CompleteTask(db, id, x).tasks
    ensures var ts := CompleteTask(db, id, x).tasks;
      CountIncomplete(ts, db.exprs[0].id) > 0 ==>
        PostResultAggregating(db, id, x).value.exprs[0] == db.exprs[0].(status := InProgress, result := Some(0.0))
    ensures var ts := CompleteTask(db, id, x).tasks;
      CountIncomplete(ts, db.exprs[0].id) == 0 && Aggregate(TasksOfExpression(ts, db.exprs[0].id)).Ok? ==>
        PostResultAggregating(db, id, x).value.exprs[0]
          == db.exprs[0].(status := Completed, result := Some(Aggregate(TasksOfExpression(ts, db.exprs[0].id)).value))
  {
  }
}

=== FILE: lifecycle.dfy ===
/** An expression from submission to its final value: the tasks
    `ProcessExpression` registers, any sequence of reports against them, and
    the sweep that completes the expression with the value of its tree. */
module Lifecycle {
  import opened Wrappers
  import opened Text
  import opened Records
  import opened Tree
  import opened Aggregator
  import opened RoundTrip
  import opened TaskStore
  import opened ExpressionStore
  import opened Calculator
  import opened TaskHandler

  /** Two task tables alike but for outcomes: the same rows in the same order,
      owners included. */
  predicate Alike(ts: seq<Task>, us: seq<Task>) {
    |ts| == |us| && forall k | 0 <= k < |ts| :: SameWork(ts[k], us[k]) && ts[k].userId == us[k].userId
  }

  /** Results reported one after the other; a report for an unknown task is
      refused and changes nothing. */
  function ReportAll(db: Db, reports: seq<(string, real)>): (r: Db)
    ensures Alike(db.tasks, r.tasks)
    decreases |reports|
  {
    if reports == [] then db
    else
      var next := match PostResult(db, reports[0].0, reports[0].1)
        case Ok(d) => d
        case Err(_) => db;
      ReportAll(next, reports[1..])
  }

  /** Keeping one expression's rows of one owner keeps tables alike. */
  lemma {:induction false} TasksOfAlike(ts: seq<Task>, us: seq<Task>, e: string, u: string)
    requires Alike(ts, us)
    ensures SameWorkAll(TasksOf(ts, e, u), TasksOf(us, e, u))
    decreases |ts|
  {
    if ts != [] {
      assert Alike(ts[1..], us[1..]);
      TasksOfAlike(ts[1..], us[1..], e, u);
      assert SameWork(ts[0], us[0]) && ts[0].userId == us[0].userId;
    }
  }

  /** Rows all of one expression and owner are kept whole. */
  lemma {:induction false} TasksOfAll(ts: seq<Task>, e: string, u: string)
    requires forall k | 0 <= k < |ts| :: ts[k].exprId == e && ts[k].userId == u
    ensures TasksOf(ts, e, u) == ts
    decreases |ts|
  {
    if ts != [] {
      TasksOfAll(ts[1..], e, u);
    }
  }

  /** Rows of other expressions are dropped. */
  lemma TasksOfNone(ts: seq<Task>, e: string, u: string)
    requires forall k | 0 <= k < |ts| :: ts[k].exprId != e
    ensures TasksOf(ts, e, u) == []
  {
    var r := TasksOf(ts, e, u);
    assert forall k | 0 <= k < |r| :: r[k] in r;
  }

  /** The registered rows do the work the compiler laid out. */
  lemma StampedAlike(exprId: string, n: Node, supply: nat -> string, start: nat, cfg: TimeConfig, userId: string)
    ensures SameWorkAll(StampAll(CreateTasks(exprId, n, supply, start, cfg), exprId, userId), CreateTasks(exprId, n, supply, start, cfg))
    ensures forall k | 0 <= k < OpCount(n) ::
      StampAll(CreateTasks(exprId, n, supply, start, cfg), exprId, userId)[k].exprId == exprId
      && StampAll(CreateTasks(exprId, n, supply, start, cfg), exprId, userId)[k].userId == userId
  {
    var batch := CreateTasks(exprId, n, supply, start, cfg);
    forall k | 0 <= k < |batch|
      ensures batch[k].exprId == exprId
    {
      CreateTasksFresh(exprId, n, supply, start, cfg, k);
    }
  }

  /** Once every task of a submitted expression has been reported, in any order
      and with any values, and no other task shares its expression id, a sweep
      step handed a listing `x` that still shows the expression pending or in
      progress completes it with the value of the compiled tree. The final
      report itself already stores its own value, so such a listing is one the
      ticker read before that report landed. */
  lemma ComputedValueIsStored(db0: Db, text: string, userId: string, id: string, now: int,
                              supply: nat -> string, start: nat, cfg: TimeConfig,
                              reports: seq<(string, real)>, db: Db, x: Expression, v: real)
    requires ProcessExpression(db0, text, userId, id, now, supply, start, cfg).outcome.Ok?
    requires forall k | 0 <= k < |db0.tasks| :: db0.tasks[k].exprId != id
    requires DistinctIds(supply, start, start + OpCount(Compile(text).value))
    requires IsOperator(Compile(text).value.value) && Evaluate(Compile(text).value) == Ok(v)
    requires db == ReportAll(ProcessExpression(db0, text, userId, id, now, supply, start, cfg).db, reports)
    requires forall k | 0 <= k < |db.tasks| :: db.tasks[k].exprId == id ==> db.tasks[k].completed
    requires x.id == id && (x.status == Pending || x.status == InProgress)
    ensures forall i | 0 <= i < |db.exprs| && db.exprs[i].id == id ::
      SweepExpression(db, userId, x).exprs[i].status == Completed
      && SweepExpression(db, userId, x).exprs[i].result == Some(v)
  {
    ReportedRows(db0, text, userId, id, now, supply, start, cfg, db.tasks);
    SweepOfCompiledTasks(db, userId, x, Compile(text).value, supply, start, cfg, v);
  }

  /** Reports change outcomes only: the submitted expression's own rows still do
      the compiler's work. */
  lemma ReportedRows(db0: Db, text: string, userId: string, id: string, now: int,
                     supply: nat -> string, start: nat, cfg: TimeConfig, ts: seq<Task>)
    requires ProcessExpression(db0, text, userId, id, now, supply, start, cfg).outcome.Ok?
    requires forall k | 0 <= k < |db0.tasks| :: db0.tasks[k].exprId != id
    requires Alike(ProcessExpression(db0, text, userId, id, now, supply, start, cfg).db.tasks, ts)
    ensures SameWorkAll(TasksOf(ts, id, userId), CreateTasks(id, Compile(text).value, supply, start, cfg))
  {
    var registered := ProcessExpression(db0, text, userId, id, now, supply, start, cfg).db.tasks;
    RegisteredRows(db0, text, userId, id, now, supply, start, cfg);
    TasksOfAlike(registered, ts, id, userId);
    SameWorkAllTrans(TasksOf(ts, id, userId), TasksOf(registered, id, userId), CreateTasks(id, Compile(text).value, supply, start, cfg));
  }

  /** The sweep step for an expression whose own rows do the work of a compiled
      tree, all completed: the expression is completed with the tree's value. */
  lemma SweepOfCompiledTasks(db: Db, userId: string, x: Expression, n: Node,
                             supply: nat -> string, start: nat, cfg: TimeConfig, v: real)
    requires WellShaped(n) && IsOperator(n.value) && DistinctIds(supply, start, start + OpCount(n))
    requires Evaluate(n) == Ok(v)
    requires SameWorkAll(GetTasksByExpression(db, x.id, userId), CreateTasks(x.id, n, supply, start, cfg))
    requires forall k | 0 <= k < |db.tasks| :: db.tasks[k].exprId == x.id ==> db.tasks[k].completed
    requires x.status == Pending || x.status == InProgress
    ensures forall i | 0 <= i < |db.exprs| && db.exprs[i].id == x.id ::
      SweepExpression(db, userId, x).exprs[i].status == Completed
      && SweepExpression(db, userId, x).exprs[i].result == Some(v)
  {
    var own := GetTasksByExpression(db, x.id, userId);
    forall k | 0 <= k < |own|
      ensures own[k].completed
    {
      assert own[k] in own;
    }
    AggregateOfCreateTasks(x.id, n, supply, start, cfg, own);
    SweepCompletes(db, userId, x, v);
  }

  /** The rows of a freshly submitted expression are the compiler's tasks. */
  lemma RegisteredRows(db0: Db, text: string, userId: string, id: string, now: int,
                       supply: nat -> string, start: nat, cfg: TimeConfig)
    requires ProcessExpression(db0, text, userId, id, now, supply, start, cfg).outcome.Ok?
    requires forall k | 0 <= k < |db0.tasks| :: db0.tasks[k].exprId != id
    ensures SameWorkAll(TasksOf(ProcessExpression(db0, text, userId, id, now, supply, start, cfg).db.tasks, id, userId),
                        CreateTasks(id, Compile(text).value, supply, start, cfg))
  {
    var n := Compile(text).value;
    var batch := CreateTasks(id, n, supply, start, cfg);
    var stamped := StampAll(batch, id, userId);
    StampedAlike(id, n, supply, start, cfg, userId);
    TasksOfAppend(db0.tasks, stamped, id, userId);
    TasksOfNone(db0.tasks, id, userId);
    TasksOfAll(stamped, id, userId);
  }

  lemma SameWorkAllTrans(a: seq<Task>, b: seq<Task>, c: seq<Task>)
    requires SameWorkAll(a, b) && SameWorkAll(b, c)
    ensures SameWorkAll(a, c)
  {
    forall k | 0 <= k < |a|
      ensures SameWork(a[k], c[k])
    {
      assert SameWork(a[k], b[k]) && SameWork(b[k], c[k]);
    }
  }
}

=== FILE: parser.dfy ===
/** `buildExpressionTree`: the two-stack (shunting-yard) builder that turns the
    token sequence into a binary operator tree. */
module Parser {
  import opened Wrappers
  import opened Text
  import opened Tokenizer
  import opened Tree

  datatype ParseError = InvalidExpression | UnbalancedParens

  /** `precedence`: 1 for `+` and `-`, 2 for `*` and `/`, 0 for anything else. */
  function Precedence(op: string): int {
    if op == "+" || op == "-" then 1
    else if op == "*" || op == "/" then 2
    else 0
  }

  /** An operator already on the stack is reduced before `incoming` is pushed
      exactly when it binds at least as tightly, so equal operators associate to
      the left; the `(` marker never binds. */
  lemma PrecedenceOrder(top: string, incoming: string)
    requires IsOperator(incoming)
    ensures Precedence("(") < Precedence(incoming)
    ensures IsOperator(top) ==>
      (Precedence(top) >= Precedence(incoming) <==> top == "*" || top == "/" || incoming == "+" || incoming == "-")
  {
  }

  /** The output queue of finished subtrees and the operator stack; both grow
      and shrink at the back. The stack holds operator strings and `(` markers. */
  datatype Stacks = Stacks(out: seq<Node>, ops: seq<string>)

  /** Pops the top operator and combines it with the two newest subtrees: the
      older one becomes the left child, the newer one the right child. */
  function Reduce(st: Stacks): (r: Result<Stacks, ParseError>)
    requires |st.ops| > 0
    ensures r.Err? <==> |st.out| < 2
    ensures r.Err? ==> r.error == InvalidExpression
    ensures r.Ok? ==> r.value.ops == st.ops[..|st.ops| - 1]
    ensures r.Ok? ==>
      r.value.out == st.out[..|st.out| - 2] + [Node(st.ops[|st.ops| - 1], st.out[|st.out| - 2], st.out[|st.out| - 1])]
  {
    var op := st.ops[|st.ops| - 1];
    var ops := st.ops[..|st.ops| - 1];
    if |st.out| < 2 then Err(InvalidExpression)
    else
      var n := |st.out|;
      Ok(Stacks(st.out[..n - 2] + [Node(op, st.out[n - 2], st.out[n - 1])], ops))
  }

  /** The loop run before pushing an operator of precedence `prec`: reduce while
      the top is not `(` and binds at least as tightly. */
  function ReduceWhile(st: Stacks, prec: int): (r: Result<Stacks, ParseError>)
    ensures r.Err? ==> r.error == InvalidExpression
    ensures r.Ok? ==> |r.value.ops| <= |st.ops|
    decreases |st.ops|
  {
    if |st.ops| > 0 && Precedence(st.ops[|st.ops| - 1]) >= prec && st.ops[|st.ops| - 1] != "(" then
      var next :- Reduce(st);
      ReduceWhile(next, prec)
    else Ok(st)
  }

  /** The loop run on `)`: reduce down to the nearest `(` and drop it; a stack
      that empties first means an unmatched `)`. */
  function CloseParen(st: Stacks): (r: Result<Stacks, ParseError>)
    decreases |st.ops|
  {
    if |st.ops| == 0 then Err(UnbalancedParens)
    else if st.ops[|st.ops| - 1] != "(" then
      var next :- Reduce(st);
      CloseParen(next)
    else Ok(Stacks(st.out, st.ops[..|st.ops| - 1]))
  }

  /** The final loop: reduce everything left on the stack, `(` markers included. */
  function Finish(st: Stacks): (r: Result<Stacks, ParseError>)
    ensures r.Err? ==> r.error == InvalidExpression
    ensures r.Ok? ==> r.value.ops == []
    decreases |st.ops|
  {
    if |st.ops| > 0 then
      var next :- Reduce(st);
      Finish(next)
    else Ok(st)
  }

  /** The loop body for one token. */
  function Step(st: Stacks, t: Token): Result<Stacks, ParseError> {
    match t
    case Number(v) => Ok(Stacks(st.out + [Leaf(v)], st.ops))
    case Operator(c) =>
      var next :- ReduceWhile(st, Precedence([c]));
      Ok(Stacks(next.out, next.ops + [[c]]))
    case LeftParen => Ok(Stacks(st.out, st.ops + ["("]))
    case RightParen => CloseParen(st)
  }

  /** The token loop, from the front. */
  function Run(toks: seq<Token>, st: Stacks): Result<Stacks, ParseError>
    decreases |toks|
  {
    if toks == [] then Ok(st)
    else
      var next :- Step(st, toks[0]);
      Run(toks[1..], next)
  }

  /** `buildExpressionTree`: succeeds only when exactly one subtree is left. */
  function BuildTree(toks: seq<Token>): Result<Node, ParseError> {
    var st :- Run(toks, Stacks([], []));
    var fin :- Finish(st);
    if |fin.out| != 1 then Err(InvalidExpression) else Ok(fin.out[0])
  }

  // ---------------------------------------------------------------------------
  // What the builder preserves

  /** The literal texts at the leaves of `n`, left to right. */
  function Leaves(n: Node): seq<string> {
    match n
    case Nil => []
    case Node(v, l, r) => if l.Nil? && r.Nil? then [v] else Leaves(l) + Leaves(r)
  }

  /** The leaves of the subtrees in the output queue, oldest first. */
  function LeavesOf(out: seq<Node>): seq<string> {
    if out == [] then [] else LeavesOf(out[..|out| - 1]) + Leaves(out[|out| - 1])
  }

  /** The operator nodes in the output queue. */
  function OpSum(out: seq<Node>): nat {
    if out == [] then 0 else OpSum(out[..|out| - 1]) + OpCount(out[|out| - 1])
  }

  /** Operators waiting on the stack. */
  function OperatorsIn(ops: seq<string>): nat {
    if ops == [] then 0 else OperatorsIn(ops[..|ops| - 1]) + (if IsOperator(ops[|ops| - 1]) then 1 else 0)
  }

  /** `(` markers waiting on the stack. */
  function ParensIn(ops: seq<string>): nat {
    if ops == [] then 0 else ParensIn(ops[..|ops| - 1]) + (if ops[|ops| - 1] == "(" then 1 else 0)
  }

  predicate StackEntries(ops: seq<string>) {
    forall j | 0 <= j < |ops| :: IsOperator(ops[j]) || ops[j] == "("
  }

  predicate AllWellShaped(out: seq<Node>) {
    forall i | 0 <= i < |out| :: WellShaped(out[i])
  }

  /** What holds after the tokens `p` have been read: the output queue holds the
      numbers read so far as its leaves, in order; every operator read is either
      in a subtree or still waiting; and one `(` waits per unclosed parenthesis. */
  predicate Invariant(st: Stacks, p: seq<Token>) {
    && AllWellShaped(st.out)
    && StackEntries(st.ops)
    && LeavesOf(st.out) == NumberTexts(p)
    && OpSum(st.out) + OperatorsIn(st.ops) == OperatorTokens(p)
    && ParensIn(st.ops) == TokenDepth(p)
  }

  lemma LeavesOfSnoc(out: seq<Node>, n: Node)
    ensures LeavesOf(out + [n]) == LeavesOf(out) + Leaves(n)
    ensures OpSum(out + [n]) == OpSum(out) + OpCount(n)
  {
    assert (out + [n])[..|out|] == out;
  }

  lemma StackSnoc(ops: seq<string>, op: string)
    ensures OperatorsIn(ops + [op]) == OperatorsIn(ops) + (if IsOperator(op) then 1 else 0)
    ensures ParensIn(ops + [op]) == ParensIn(ops) + (if op == "(" then 1 else 0)
  {
    assert (ops + [op])[..|ops|] == ops;
  }

  /** Reducing moves one stack entry into a subtree and keeps the leaves in order. */
  lemma ReduceKeeps(st: Stacks)
    requires |st.ops| > 0 && |st.out| >= 2
    requires forall i | 0 <= i < |st.out| :: st.out[i].Node?
    ensures var r := Reduce(st).value;
      && LeavesOf(r.out) == LeavesOf(st.out)
      && OpSum(r.out) + OperatorsIn(r.ops) == OpSum(st.out) + OperatorsIn(st.ops)
      && ParensIn(r.ops) + (if st.ops[|st.ops| - 1] == "(" then 1 else 0) == ParensIn(st.ops)
  {
    var n, m := |st.out|, |st.ops|;
    var pre, l, rt := st.out[..n - 2], st.out[n - 2], st.out[n - 1];
    var op := st.ops[m - 1];
    assert st.out == pre + [l] + [rt];
    LeavesOfSnoc(pre, l);
    LeavesOfSnoc(pre + [l], rt);
    LeavesOfSnoc(pre, Node(op, l, rt));
    assert st.ops == st.ops[..m - 1] + [op];
    StackSnoc(st.ops[..m - 1], op);
  }

  /** A reduction of an operator over well-shaped subtrees is well shaped. */
  lemma ReduceShaped(st: Stacks)
    requires |st.ops| > 0 && |st.out| >= 2
    requires AllWellShaped(st.out) && StackEntries(st.ops) && IsOperator(st.ops[|st.ops| - 1])
    ensures AllWellShaped(Reduce(st).value.out) && StackEntries(Reduce(st).value.ops)
  {
  }

  lemma {:induction false} ReduceWhileKeeps(st: Stacks, prec: int, p: seq<Token>)
    requires Invariant(st, p) && prec > 0
    ensures ReduceWhile(st, prec).Ok? ==> Invariant(ReduceWhile(st, prec).value, p)
    ensures ReduceWhile(st, prec).Ok? ==> var r := ReduceWhile(st, prec).value;
      |r.ops| == 0 || Precedence(r.ops[|r.ops| - 1]) < prec || r.ops[|r.ops| - 1] == "("
    decreases |st.ops|
  {
    var m := |st.ops|;
    if m > 0 && Precedence(st.ops[m - 1]) >= prec && st.ops[m - 1] != "(" && |st.out| >= 2 {
      ReduceKeeps(st);
      ReduceShaped(st);
      ReduceWhileKeeps(Reduce(st).value, prec, p);
    }
  }

  /** What reading one more token adds to the token counts. */
  lemma AppendToken(p: seq<Token>, t: Token)
    ensures NumberTexts(p + [t]) == NumberTexts(p) + (if t.Number? then [t.text] else [])
    ensures OperatorTokens(p + [t]) == OperatorTokens(p) + (if t.Operator? then 1 else 0)
    ensures TokenDepth(p + [t]) == TokenDepth(p) + (if t.LeftParen? then 1 else if t.RightParen? then -1 else 0)
  {
    OperatorTokensAppend(p, [t]);
    TokenDepthAppend(p, [t]);
    NumberTextsAppend(p, [t]);
    assert [t][1..] == [];
  }

  lemma {:induction false} CloseParenKeeps(st: Stacks, p: seq<Token>)
    requires Invariant(st, p)
    ensures CloseParen(st).Ok? ==> Invariant(CloseParen(st).value, p + [RightParen])
    ensures CloseParen(st) == Err(UnbalancedParens) ==> TokenDepth(p + [RightParen]) < 0
    decreases |st.ops|
  {
    var m := |st.ops|;
    AppendToken(p, RightParen);
    if m == 0 {
    } else if st.ops[m - 1] != "(" {
      if |st.out| >= 2 {
        ReduceKeeps(st);
        ReduceShaped(st);
        CloseParenKeeps(Reduce(st).value, p);
      }
    } else {
      assert st.ops == st.ops[..m - 1] + ["("];
      StackSnoc(st.ops[..m - 1], "(");
    }
  }

  lemma StepNumberKeeps(st: Stacks, v: string, p: seq<Token>)
    requires Invariant(st, p) && IsNumberText(v)
    ensures Invariant(Stacks(st.out + [Leaf(v)], st.ops), p + [Number(v)])
  {
    AppendToken(p, Number(v));
    LeavesOfSnoc(st.out, Leaf(v));
    NumberTextIsNotRef(v);
  }

  lemma StepOperatorKeeps(st: Stacks, c: char, p: seq<Token>)
    requires Invariant(st, p) && IsOperatorChar(c)
    ensures Step(st, Operator(c)).Ok? ==> Invariant(Step(st, Operator(c)).value, p + [Operator(c)])
  {
    AppendToken(p, Operator(c));
    ReduceWhileKeeps(st, Precedence([c]), p);
    if ReduceWhile(st, Precedence([c])).Ok? {
      var next := ReduceWhile(st, Precedence([c])).value;
      StackSnoc(next.ops, [c]);
    }
  }

  lemma StepKeeps(st: Stacks, t: Token, p: seq<Token>)
    requires Invariant(st, p) && Lexical([t])
    ensures Step(st, t).Ok? ==> Invariant(Step(st, t).value, p + [t])
    ensures Step(st, t) == Err(UnbalancedParens) ==> TokenDepth(p + [t]) < 0
  {
    assert t in [t];
    match t
    case Number(v) => StepNumberKeeps(st, v, p);
    case Operator(c) => StepOperatorKeeps(st, c, p);
    case LeftParen =>
      AppendToken(p, t);
      StackSnoc(st.ops, "(");
    case RightParen => CloseParenKeeps(st, p);
  }

  /** One turn of the loop: the first token is stepped, the rest run from there,
      and the consumed prefix grows by that token. */
  lemma RunFirst(toks: seq<Token>, st: Stacks, p: seq<Token>)
    requires toks != [] && Lexical(toks)
    ensures Lexical([toks[0]]) && Lexical(toks[1..])
    ensures p + [toks[0]] + toks[1..] == p + toks
    ensures Step(st, toks[0]).Ok? ==> Run(toks, st) == Run(toks[1..], Step(st, toks[0]).value)
    ensures Step(st, toks[0]).Err? ==> Run(toks, st) == Err(Step(st, toks[0]).error)
  {
    assert toks == [toks[0]] + toks[1..];
  }

  lemma {:induction false} RunKeeps(toks: seq<Token>, st: Stacks, p: seq<Token>)
    requires Invariant(st, p) && Lexical(toks)
    ensures Run(toks, st).Ok? ==> Invariant(Run(toks, st).value, p + toks)
    decreases |toks|
  {
    if toks != [] {
      var t := toks[0];
      RunFirst(toks, st, p);
      StepKeeps(st, t, p);
      if Step(st, t).Ok? {
        RunKeeps(toks[1..], Step(st, t).value, p + [t]);
      }
    } else {
      assert p + toks == p;
    }
  }

  /** A `)` without its `(` is the only way the loop reports unbalanced
      parentheses: some prefix of the tokens then dips below depth zero. */
  lemma {:induction false} RunUnbalanced(toks: seq<Token>, st: Stacks, p: seq<Token>)
    requires Invariant(st, p) && Lexical(toks)
    ensures Run(toks, st) == Err(UnbalancedParens) ==>
      exists k | 0 < k <= |toks| :: TokenDepth(p + toks[..k]) < 0
    decreases |toks|
  {
    if toks != [] {
      var t := toks[0];
      RunFirst(toks, st, p);
      StepKeeps(st, t, p);
      if Step(st, t).Ok? {
        var next := Step(st, t).value;
        RunUnbalanced(toks[1..], next, p + [t]);
        if Run(toks, st) == Err(UnbalancedParens) {
          var k :| 0 < k <= |toks[1..]| && TokenDepth(p + [t] + toks[1..][..k]) < 0;
          assert p + [t] + toks[1..][..k] == p + toks[..k + 1];
        }
      } else if Run(toks, st) == Err(UnbalancedParens) {
        assert p + toks[..1] == p + [t];
      }
    }
  }

  /** The final loop turns every waiting entry into a subtree and keeps the leaves
      in order; with no `(` left waiting, everything stays well shaped. */
  lemma {:induction false} FinishKeeps(st: Stacks)
    requires AllWellShaped(st.out) && StackEntries(st.ops) && ParensIn(st.ops) == 0
    ensures Finish(st).Ok? ==> var r := Finish(st).value;
      && AllWellShaped(r.out)
      && LeavesOf(r.out) == LeavesOf(st.out)
      && OpSum(r.out) == OpSum(st.out) + OperatorsIn(st.ops)
    ensures Finish(st) != Err(UnbalancedParens)
    decreases |st.ops|
  {
    var m := |st.ops|;
    if m > 0 && |st.out| >= 2 {
      ReduceKeeps(st);
      assert IsOperator(st.ops[m - 1]);
      ReduceShaped(st);
      FinishKeeps(Reduce(st).value);
    } else if m == 0 {
      assert OperatorsIn(st.ops) == 0;
    }
  }

  lemma OneTree(out: seq<Node>)
    requires |out| == 1
    ensures LeavesOf(out) == Leaves(out[0]) && OpSum(out) == OpCount(out[0])
  {
    assert out[..0] == [];
  }

  /** A successful build has one operator node per operator token and the number
      tokens, in order, as its leaves; when the parentheses balance it is well
      shaped. The `unbalanced parentheses` error is reported only when some prefix
      of the tokens closes more parentheses than it opens. */
  lemma BuildTreeFacts(toks: seq<Token>)
    requires Lexical(toks)
    ensures BuildTree(toks).Ok? ==>
      && OpCount(BuildTree(toks).value) == OperatorTokens(toks)
      && Leaves(BuildTree(toks).value) == NumberTexts(toks)
      && (TokenDepth(toks) == 0 ==> WellShaped(BuildTree(toks).value))
    ensures BuildTree(toks) == Err(UnbalancedParens) ==>
      exists k | 0 < k <= |toks| :: TokenDepth(toks[..k]) < 0
  {
    var st0 := Stacks([], []);
    assert Invariant(st0, []);
    RunKeeps(toks, st0, []);
    RunUnbalanced(toks, st0, []);
    assert [] + toks == toks;
    if Run(toks, st0).Ok? {
      var st := Run(toks, st0).value;
      if TokenDepth(toks) == 0 {
        FinishKeeps(st);
        if Finish(st).Ok? && |Finish(st).value.out| == 1 {
          OneTree(Finish(st).value.out);
        }
      } else {
        FinishCounts(st);
        if Finish(st).Ok? && |Finish(st).value.out| == 1 {
          OneTree(Finish(st).value.out);
        }
      }
    } else {
      forall k | 0 < k <= |toks| ensures [] + toks[..k] == toks[..k] {}
    }
  }

  /** The final loop without the balance assumption: leaves and operator count
      are kept even when leftover `(` markers are reduced into nodes. */
  lemma {:induction false} FinishCounts(st: Stacks)
    requires (forall i | 0 <= i < |st.out| :: st.out[i].Node?) && StackEntries(st.ops)
    ensures Finish(st).Ok? ==> var r := Finish(st).value;
      && LeavesOf(r.out) == LeavesOf(st.out)
      && OpSum(r.out) == OpSum(st.out) + OperatorsIn(st.ops)
    ensures Finish(st) != Err(UnbalancedParens)
    decreases |st.ops|
  {
    var m := |st.ops|;
    if m > 0 && |st.out| >= 2 {
      ReduceKeeps(st);
      FinishCounts(Reduce(st).value);
    } else if m == 0 {
      assert OperatorsIn(st.ops) == 0;
    }
  }

  // ---------------------------------------------------------------------------
  // Round trip through the fully parenthesised rendering

  /** A tree written out with every operator node in its own parentheses. */
  function Render(n: Node): seq<Token>
    requires WellShaped(n)
  {
    if n.left.Nil? then [Number(n.value)]
    else [LeftParen] + Render(n.left) + [Operator(n.value[0])] + Render(n.right) + [RightParen]
  }

  /** Running the builder over `a + b` runs it over `a`, then over `b`. */
  lemma {:induction false} RunAppend(a: seq<Token>, b: seq<Token>, st: Stacks)
    ensures Run(a + b, st) == (match Run(a, st) case Ok(mid) => Run(b, mid) case Err(e) => Err(e))
    decreases |a|
  {
    if a == [] {
      assert a + b == b;
    } else {
      assert (a + b)[0] == a[0] && (a + b)[1..] == a[1..] + b;
      if Step(st, a[0]).Ok? {
        RunAppend(a[1..], b, Step(st, a[0]).value);
      }
    }
  }

  /** Reading the rendering of `n` adds exactly `n` to the output queue, whatever
      is waiting. */
  lemma {:induction false} RunRender(n: Node, st: Stacks)
    requires WellShaped(n)
    ensures Run(Render(n), st) == Ok(Stacks(st.out + [n], st.ops))
  {
    if n.left.Nil? {
      assert Run([Number(n.value)], st) == Run([], Stacks(st.out + [Leaf(n.value)], st.ops));
    } else {
      var l, r, op := n.left, n.right, n.value;
      OperatorIsOneOperatorChar(op);
      var c := op[0];
      assert [c] == op;
      var s1 := Stacks(st.out, st.ops + ["("]);
      var s2 := Stacks(st.out + [l], st.ops + ["("]);
      var s3 := Stacks(st.out + [l], st.ops + ["(", op]);
      var s4 := Stacks(st.out + [l, r], st.ops + ["(", op]);
      assert Run([LeftParen], st) == Ok(s1);
      RunRender(l, s1);
      assert ReduceWhile(s2, Precedence([c])) == Ok(s2);
      assert (st.ops + ["("]) + [op] == st.ops + ["(", op];
      assert Run([Operator(c)], s2) == Ok(s3);
      RunRender(r, s3);
      assert s3.out + [r] == s4.out;
      assert Reduce(s4) == Ok(Stacks(st.out + [n], st.ops + ["("])) by {
        assert s4.out[..|s4.out| - 2] == st.out;
        assert s4.ops[..|s4.ops| - 1] == st.ops + ["("];
      }
      var s5 := Stacks(st.out + [n], st.ops + ["("]);
      assert s5.ops[..|s5.ops| - 1] == st.ops;
      assert CloseParen(s5) == Ok(Stacks(st.out + [n], st.ops));
      assert CloseParen(s4) == CloseParen(s5);
      assert Run([RightParen], s4) == Ok(Stacks(st.out + [n], st.ops));
      var a, b, d, e := [LeftParen], Render(l), [Operator(c)], Render(r);
      assert Render(n) == a + (b + (d + (e + [RightParen])));
      RunAppend(a, b + (d + (e + [RightParen])), st);
      RunAppend(b, d + (e + [RightParen]), s1);
      RunAppend(d, e + [RightParen], s2);
      RunAppend(e, [RightParen], s3);
    }
  }

  /** The builder reads back every well-shaped tree from its fully parenthesised
      rendering. */
  lemma BuildTreeOfRender(n: Node)
    requires WellShaped(n)
    ensures BuildTree(Render(n)) == Ok(n)
  {
    RunRender(n, Stacks([], []));
    assert [] + [n] == [n];
  }

  // ---------------------------------------------------------------------------
  // How the loops shape the tree

  /** Equal precedence associates to the left: `1-2-3` is `(1-2)-3`. */
  lemma LeftAssociative()
    ensures BuildTree([Number("1"), Operator('-'), Number("2"), Operator('-'), Number("3")])
      == Ok(Node("-", Node("-", Leaf("1"), Leaf("2")), Leaf("3")))
  {
    var one, two := Leaf("1"), Leaf("2");
    var st := Stacks([one, two], ["-"]);
    var red := Stacks([Node("-", one, two)], []);
    assert st.out[..0] + [Node("-", one, two)] == red.out;
    assert Reduce(st) == Ok(red);
    assert ReduceWhile(red, 1) == Ok(red);
    assert ReduceWhile(st, 1) == Ok(red);
  }

  /** Multiplication binds tighter: `1+2*3` is `1+(2*3)`. */
  lemma MultiplicationFirst()
    ensures BuildTree([Number("1"), Operator('+'), Number("2"), Operator('*'), Number("3")])
      == Ok(Node("+", Leaf("1"), Node("*", Leaf("2"), Leaf("3"))))
  {
    var toks := [Number("1"), Operator('+'), Number("2"), Operator('*'), Number("3")];
    var one, two, three := Leaf("1"), Leaf("2"), Leaf("3");
    var st := Stacks([one, two, three], ["+", "*"]);
    MultiplicationRun(toks, st);
    var times := Node("*", two, three);
    var n := Node("+", one, times);
    var fin := Stacks([n], []);
    assert Finish(st) == Ok(fin) by {
      var mid := Stacks([one, times], ["+"]);
      assert Reduce(st) == Ok(mid) by {
        assert st.out[..1] + [times] == mid.out && st.ops[..1] == mid.ops;
      }
      assert Reduce(mid) == Ok(fin) by {
        assert mid.out[..0] + [n] == [n];
      }
      assert Finish(fin) == Ok(fin);
    }
    assert BuildTree(toks) == Ok(n);
  }

  lemma MultiplicationRun(toks: seq<Token>, st: Stacks)
    requires toks == [Number("1"), Operator('+'), Number("2"), Operator('*'), Number("3")]
    requires st == Stacks([Leaf("1"), Leaf("2"), Leaf("3")], ["+", "*"])
    ensures Run(toks, Stacks([], [])) == Ok(st)
  {
    var one, two := Leaf("1"), Leaf("2");
    var s0, s1 := Stacks([], []), Stacks([one], []);
    var s2, s3 := Stacks([one], ["+"]), Stacks([one, two], ["+"]);
    var s4 := Stacks([one, two], ["+", "*"]);
    assert Run(toks[4..], s4) == Ok(st) by {
      assert s4.out + [Leaf("3")] == st.out;
      RunStep(toks, 4, s4, st);
      assert toks[5..] == [];
    }
    assert Run(toks[3..], s3) == Ok(st) by {
      assert ReduceWhile(s3, Precedence("*")) == Ok(s3);
      assert ['*'] == "*" && s3.ops + ["*"] == s4.ops;
      RunStep(toks, 3, s3, s4);
    }
    assert Run(toks[2..], s2) == Ok(st) by {
      assert s2.out + [two] == s3.out;
      RunStep(toks, 2, s2, s3);
    }
    assert Run(toks[1..], s1) == Ok(st) by {
      assert ReduceWhile(s1, Precedence("+")) == Ok(s1);
      assert ['+'] == "+" && s1.ops + ["+"] == s2.ops;
      RunStep(toks, 1, s1, s2);
    }
    assert s0.out + [one] == s1.out;
    RunStep(toks, 0, s0, s1);
    assert toks[0..] == toks;
  }

  /** The builder does not check that operators sit between operands: the
      postfix `(1)(2)+`, which the validator also lets through, builds `1+2`. */
  lemma PostfixAccepted()
    ensures BuildTree([LeftParen, Number("1"), RightParen, LeftParen, Number("2"), RightParen, Operator('+')])
      == Ok(Node("+", Leaf("1"), Leaf("2")))
  {
    var toks := [LeftParen, Number("1"), RightParen, LeftParen, Number("2"), RightParen, Operator('+')];
    var st := Stacks([Leaf("1"), Leaf("2")], ["+"]);
    PostfixRun(toks, st);
    var n := Node("+", Leaf("1"), Leaf("2"));
    assert st.out[..0] + [n] == [n];
    assert Reduce(st) == Ok(Stacks([n], []));
  }

  lemma PostfixRun(toks: seq<Token>, st: Stacks)
    requires toks == [LeftParen, Number("1"), RightParen, LeftParen, Number("2"), RightParen, Operator('+')]
    requires st == Stacks([Leaf("1"), Leaf("2")], ["+"])
    ensures Run(toks, Stacks([], [])) == Ok(st)
  {
    var one, two := Leaf("1"), Leaf("2");
    var s0, s1 := Stacks([], []), Stacks([], ["("]);
    var s2, s3 := Stacks([one], ["("]), Stacks([one], []);
    var s4, s5 := Stacks([one], ["("]), Stacks([one, two], ["("]);
    var s6 := Stacks([one, two], []);
    assert Run(toks[6..], s6) == Ok(st) by {
      assert ReduceWhile(s6, Precedence("+")) == Ok(s6);
      assert ['+'] == "+" && s6.ops + ["+"] == st.ops;
      RunStep(toks, 6, s6, st);
      assert toks[7..] == [];
    }
    assert Run(toks[5..], s5) == Ok(st) by {
      assert s5.ops[..0] == [];
      RunStep(toks, 5, s5, s6);
    }
    assert Run(toks[4..], s4) == Ok(st) by {
      assert s4.out + [two] == s5.out;
      RunStep(toks, 4, s4, s5);
    }
    assert Run(toks[3..], s3) == Ok(st) by {
      assert s3.ops + ["("] == s4.ops;
      RunStep(toks, 3, s3, s4);
    }
    assert Run(toks[2..], s2) == Ok(st) by {
      assert s2.ops[..0] == [];
      RunStep(toks, 2, s2, s3);
    }
    assert Run(toks[1..], s1) == Ok(st) by {
      assert s1.out + [one] == s2.out;
      RunStep(toks, 1, s1, s2);
    }
    RunStep(toks, 0, s0, s1);
    assert toks[0..] == toks;
  }

  /** The token at position `k` of the loop. */
  lemma RunStep(toks: seq<Token>, k: nat, st: Stacks, next: Stacks)
    requires k < |toks| && Step(st, toks[k]) == Ok(next)
    ensures Run(toks[k..], st) == Run(toks[k + 1..], next)
  {
    assert toks[k..][0] == toks[k] && toks[k..][1..] == toks[k + 1..];
  }

  /** An operator without two operands fails: `1+` is an invalid expression. */
  lemma MissingOperand()
    ensures BuildTree([Number("1"), Operator('+')]) == Err(InvalidExpression)
  {
  }
}

=== FILE: records.dfy ===
/** The rows the store keeps: tasks and expressions. */
module Records {
  import opened Wrappers

  /** One binary operation. Each operand is a literal number text or a
      reference `task:<id>` to the task whose result it needs. */
  datatype Task = Task(
    id: string,
    exprId: string,
    userId: string,
    arg1: string,
    arg2: string,
    op: string,
    opTime: int,
    result: real,
    completed: bool)

  /** The three status strings the service writes: `pending`, `in_progress`, `completed`. */
  datatype Status = Pending | InProgress | Completed

  /** A row of the expressions table; `result` is NULL until a status update writes one. */
  datatype ExprRow = ExprRow(
    id: string,
    owner: string,
    text: string,
    status: Status,
    result: Option<real>,
    createdAt: int)

  /** The two tables, each in insertion order. */
  datatype Db = Db(exprs: seq<ExprRow>, tasks: seq<Task>)

  /** Two tasks that agree on everything but the outcome fields. */
  predicate SameWork(a: Task, b: Task) {
    a.id == b.id && a.exprId == b.exprId && a.arg1 == b.arg1 && a.arg2 == b.arg2 && a.op == b.op
  }
}

=== FILE: roundtrip.dfy ===
/** Compiling a tree into tasks and aggregating the completed tasks gives the
    value of the tree: `createTasksFromTree` and `AggregateResults` are inverse
    views of the same expression. */
module RoundTrip {
  import opened Wrappers
  import opened Text
  import opened Records
  import opened Tree
  import opened Aggregator

  /** The ids drawn from `supply` over `[lo, hi)` are pairwise different and
      non-empty, as random UUID-based ids are. */
  predicate DistinctIds(supply: nat -> string, lo: nat, hi: nat) {
    && (forall i, j | lo <= i < j < hi :: supply(i) != supply(j))
    && (forall i | lo <= i < hi :: supply(i) != [])
  }

  /** `sub` sits in `big` from position `off` on. */
  predicate Placed(big: seq<Task>, sub: seq<Task>, off: nat) {
    off + |sub| <= |big| && big[off..off + |sub|] == sub
  }

  lemma PlacedParts(big: seq<Task>, whole: seq<Task>, a: seq<Task>, b: seq<Task>, t: Task, off: nat)
    requires Placed(big, whole, off) && whole == a + b + [t]
    ensures Placed(big, a, off) && Placed(big, b, off + |a|)
    ensures big[off + |a| + |b|] == t
  {
    assert forall i | 0 <= i < |a| :: big[off + i] == whole[i] == a[i];
    assert forall i | 0 <= i < |b| :: big[off + |a| + i] == whole[|a| + i] == b[i];
    assert big[off + |a| + |b|] == whole[|a| + |b|];
  }

  /** With ids drawn in order from distinct supply values, the task at position
      `k` is the last (indeed the only) one with its id. */
  lemma LastWithDrawn(ts: seq<Task>, supply: nat -> string, start: nat, k: nat)
    requires IdsFrom(ts, supply, start) && DistinctIds(supply, start, start + |ts|)
    requires k < |ts|
    ensures LastWith(ts, supply(start + k)) == Some(k)
  {
    var id := supply(start + k);
    assert ts[k].id == id;
    var j := LastWith(ts, id).value;
    if j != k {
      assert false;
    }
  }

  lemma NoEmptyId(ts: seq<Task>, supply: nat -> string, start: nat)
    requires IdsFrom(ts, supply, start) && DistinctIds(supply, start, start + |ts|)
    ensures LastWith(ts, []).None?
  {
    forall j | 0 <= j < |ts|
      ensures ts[j].id != []
    {
      assert ts[j].id == supply(start + j);
    }
  }

  /** The setting of the evaluation lemma: `ts` does the work of `big`, whose
      ids come in order from distinct supply values. */
  predicate Setting(ts: seq<Task>, big: seq<Task>, supply: nat -> string, start: nat) {
    && SameWorkAll(ts, big)
    && IdsFrom(ts, supply, start)
    && DistinctIds(supply, start, start + |ts|)
  }

  /** A literal operand evaluates as the leaf it came from. */
  lemma EvalLeaf(ts: seq<Task>, c: Node, supply: nat -> string, start: nat, fuel: nat)
    requires IdsFrom(ts, supply, start) && DistinctIds(supply, start, start + |ts|)
    requires WellShaped(c) && c.left.Nil?
    ensures EvalArg(ts, c.value, fuel) == Evaluate(c)
  {
    NoEmptyId(ts, supply, start);
  }

  /** An operator node's list split at a given mid point of the supply. */
  lemma OperatorAt(exprId: string, n: Node, supply: nat -> string, base: nat, mid: nat, cfg: TimeConfig)
    requires WellShaped(n) && !n.left.Nil? && mid == base + OpCount(n.left)
    ensures CreateTasks(exprId, n, supply, base, cfg) ==
      CreateTasks(exprId, n.left, supply, base, cfg) + CreateTasks(exprId, n.right, supply, mid, cfg)
        + [OwnTask(exprId, n, supply, base, cfg)]
  {
    CreateTasksOfOperator(exprId, n, supply, base, cfg);
  }

  /** The fields of an operator node's own task, with the right child's supply
      position given as `mid`. */
  lemma OwnTaskFields(exprId: string, n: Node, supply: nat -> string, base: nat, mid: nat, cfg: TimeConfig)
    requires n.Node? && mid == base + OpCount(n.left)
    ensures OwnTask(exprId, n, supply, base, cfg).op == n.value
    ensures OwnTask(exprId, n, supply, base, cfg).arg1 == NodeReference(n.left, TaskIdOf(n.left, supply, base))
    ensures OwnTask(exprId, n, supply, base, cfg).arg2 == NodeReference(n.right, TaskIdOf(n.right, supply, mid))
  {
  }

  /** Where the parts of an operator subtree placed at `s` sit: the left
      child's tasks first, then the right child's from `s2` on, and the
      subtree's own task last, at `k`. `base` and `mid` are the supply
      positions of the subtree and of its right child. */
  lemma OperatorPlaced(big: seq<Task>, exprId: string, c: Node, supply: nat -> string, cfg: TimeConfig, s: nat, base: nat)
      returns (s2: nat, mid: nat, k: nat)
    requires WellShaped(c) && !c.left.Nil?
    requires Placed(big, CreateTasks(exprId, c, supply, base, cfg), s)
    ensures s2 == s + OpCount(c.left) && mid == base + OpCount(c.left) && k == s + OpCount(c) - 1
    ensures Placed(big, CreateTasks(exprId, c.left, supply, base, cfg), s)
    ensures Placed(big, CreateTasks(exprId, c.right, supply, mid, cfg), s2)
    ensures k < |big| && big[k].op == c.value
    ensures big[k].arg1 == NodeReference(c.left, TaskIdOf(c.left, supply, base))
    ensures big[k].arg2 == NodeReference(c.right, TaskIdOf(c.right, supply, mid))
  {
    s2, mid, k := s + OpCount(c.left), base + OpCount(c.left), s + OpCount(c) - 1;
    PlacedSplit(big, exprId, c, supply, cfg, s, base, mid);
    OwnTaskFields(exprId, c, supply, base, mid, cfg);
  }

  /** The three parts of an operator subtree's list, in `big`. */
  lemma PlacedSplit(big: seq<Task>, exprId: string, c: Node, supply: nat -> string, cfg: TimeConfig, s: nat, base: nat, mid: nat)
    requires WellShaped(c) && !c.left.Nil? && mid == base + OpCount(c.left)
    requires Placed(big, CreateTasks(exprId, c, supply, base, cfg), s)
    ensures Placed(big, CreateTasks(exprId, c.left, supply, base, cfg), s)
    ensures Placed(big, CreateTasks(exprId, c.right, supply, mid, cfg), s + OpCount(c.left))
    ensures s + OpCount(c) - 1 < |big| && big[s + OpCount(c) - 1] == OwnTask(exprId, c, supply, base, cfg)
  {
    var lt := CreateTasks(exprId, c.left, supply, base, cfg);
    var rt := CreateTasks(exprId, c.right, supply, mid, cfg);
    var t := OwnTask(exprId, c, supply, base, cfg);
    var whole := CreateTasks(exprId, c, supply, base, cfg);
    OperatorAt(exprId, c, supply, base, mid, cfg);
    PlacedParts(big, whole, lt, rt, t, s);
  }

  /** The operand naming an operator subtree leads to its own task, which
      combines the values of its two operands. */
  lemma EvalOperator(ts: seq<Task>, big: seq<Task>, c: Node, supply: nat -> string, start: nat, base: nat, k: nat,
                     fuel: nat, sub: nat, arg1: string, arg2: string)
    requires Setting(ts, big, supply, start)
    requires WellShaped(c) && !c.left.Nil? && fuel > 0 && sub == fuel - 1
    requires base + OpCount(c) - 1 == start + k && k < |big|
    requires big[k].op == c.value && big[k].arg1 == arg1 && big[k].arg2 == arg2
    requires EvalArg(ts, arg1, sub) == Evaluate(c.left)
    requires EvalArg(ts, arg2, sub) == Evaluate(c.right)
    ensures EvalArg(ts, NodeReference(c, TaskIdOf(c, supply, base)), fuel) == Evaluate(c)
  {
    var id := TaskIdOf(c, supply, base);
    TaskIdAt(c, supply, base, start, k);
    NodeReferenceMeaning(c, id);
    LastWithDrawn(ts, supply, start, k);
    EvalReference(ts, NodeReference(c, id), fuel, k);
    assert SameWork(ts[k], big[k]);
    EvalOperatorTask(ts, k, fuel, sub);
    EvaluateOperator(c);
  }

  lemma TaskIdAt(c: Node, supply: nat -> string, base: nat, start: nat, k: nat)
    requires OpCount(c) > 0 && base + OpCount(c) - 1 == start + k
    ensures TaskIdOf(c, supply, base) == supply(start + k)
  {
  }

  lemma EvalReference(ts: seq<Task>, arg: string, fuel: nat, j: nat)
    requires HasPrefix(arg, RefPrefix) && LastWith(ts, RefTarget(arg)) == Some(j)
    ensures EvalArg(ts, arg, fuel) == EvalTask(ts, j, fuel)
  {
  }

  lemma EvaluateOperator(c: Node)
    requires WellShaped(c) && !c.left.Nil?
    ensures Evaluate(c) == Combine(c.value, Evaluate(c.left), Evaluate(c.right))
  {
  }

  /** The operand naming subtree `c`, whose tasks sit at `s` and draw their ids
      from supply position `base`, evaluates to the value of `c` once the fuel
      exceeds the height of `c`. */
  lemma {:induction false} EvalPlaced(ts: seq<Task>, big: seq<Task>, exprId: string, c: Node,
                                      supply: nat -> string, start: nat, cfg: TimeConfig, s: nat, base: nat, fuel: nat)
    requires Setting(ts, big, supply, start) && base == start + s
    requires WellShaped(c) && Placed(big, CreateTasks(exprId, c, supply, base, cfg), s)
    requires fuel > Height(c)
    ensures EvalArg(ts, NodeReference(c, TaskIdOf(c, supply, base)), fuel) == Evaluate(c)
    decreases c
  {
    if c.left.Nil? {
      NodeReferenceMeaning(c, TaskIdOf(c, supply, base));
      EvalLeaf(ts, c, supply, start, fuel);
    } else {
      var s2, mid, k := OperatorPlaced(big, exprId, c, supply, cfg, s, base);
      var sub := fuel - 1;
      EvalPlaced(ts, big, exprId, c.left, supply, start, cfg, s, base, sub);
      EvalPlaced(ts, big, exprId, c.right, supply, start, cfg, s2, mid, sub);
      EvalOperator(ts, big, c, supply, start, base, k, fuel, sub,
                   NodeReference(c.left, TaskIdOf(c.left, supply, base)),
                   NodeReference(c.right, TaskIdOf(c.right, supply, mid)));
    }
  }

  /** Aggregating the completed tasks compiled from a well-shaped tree with an
      operator at its root gives the value of the tree, whatever results the
      agents stored, as long as the task ids are distinct and non-empty. */
  lemma AggregateOfCreateTasks(exprId: string, n: Node, supply: nat -> string, start: nat, cfg: TimeConfig, ts: seq<Task>)
    requires WellShaped(n) && IsOperator(n.value)
    requires DistinctIds(supply, start, start + OpCount(n))
    requires SameWorkAll(ts, CreateTasks(exprId, n, supply, start, cfg))
    requires forall k | 0 <= k < |ts| :: ts[k].completed
    ensures Aggregate(ts) == Evaluate(n)
  {
    var big := CreateTasks(exprId, n, supply, start, cfg);
    CreateTasksIds(exprId, n, supply, start, cfg);
    assert IdsFrom(ts, supply, start) by {
      forall j | 0 <= j < |ts|
        ensures ts[j].id == supply(start + j)
      {
        assert SameWork(ts[j], big[j]);
      }
    }
    HeightAtMostOpCount(n);
    assert big[0..|big|] == big;
    EvalPlaced(ts, big, exprId, n, supply, start, cfg, 0, start, |ts| + 1);
    var id := TaskIdOf(n, supply, start);
    NodeReferenceMeaning(n, id);
    LastWithDrawn(ts, supply, start, |ts| - 1);
    assert FirstIncomplete(ts).None?;
  }
}

=== FILE: task_handler.dfy ===
/** The orchestrator's task endpoints and its periodic sweep: a reported result
    completes its task and rolls the expression's status up; lookups answer with
    a task's result; the sweep finalises expressions whose tasks are all done. */
module TaskHandler {
  import opened Wrappers
  import opened Text
  import opened Records
  import opened Aggregator
  import opened TaskStore
  import opened ExpressionStore

  /** The HTTP refusals: 404, 403 and 401. */
  datatype HandlerError = NotFound | Unfinished | Forbidden | Unauthorized

  /** `handleGetTask`: the next executable task, or 404. */
  function NextTask(db: Db): (r: Result<Task, HandlerError>)
    ensures r.Err? <==> forall i | 0 <= i < |db.tasks| :: !NextReady(db.tasks[i], db.tasks)
    ensures r.Err? ==> r.error == NotFound
    ensures r.Ok? ==> !r.value.completed && r.value.userId == []
  {
    match GetNextExecutableTask(db)
    case None => Err(NotFound)
    case Some(t) => Ok(t)
  }

  /** The rows of one expression, whoever owns them. */
  function TasksOfExpression(ts: seq<Task>, exprId: string): (r: seq<Task>)
    ensures forall t :: t in r <==> t in ts && t.exprId == exprId
  {
    if ts == [] then []
    else (if ts[0].exprId == exprId then [ts[0]] else []) + TasksOfExpression(ts[1..], exprId)
  }

  /** The expression of the task a report names. */
  function ReportedExpression(db: Db, id: string): string
    requires HasTask(db.tasks, id)
  {
    GetTask(db, id).value.exprId
  }

  /** A status write whose failure is only logged: the state is kept. */
  function Written(r: Result<Db, StoreError>, db: Db): Db {
    match r
    case Ok(d) => d
    case Err(_) => db
  }

  /** `handlePostTaskResult`: the task is completed with the reported value; when
      no task of its expression is left incomplete the expression is completed
      with the reported value, otherwise it is marked in progress. */
  function PostResult(db: Db, id: string, result: real): (r: Result<Db, HandlerError>)
    ensures r.Err? <==> !HasTask(db.tasks, id)
    ensures r.Err? ==> r.error == NotFound
    ensures r.Ok? ==> r.value.tasks == CompleteTask(db, id, result).tasks
    ensures r.Ok? ==> |r.value.exprs| == |db.exprs|
    ensures r.Ok? ==> forall i | 0 <= i < |db.exprs| :: db.exprs[i].id != ReportedExpression(db, id) ==>
      r.value.exprs[i] == db.exprs[i]
    ensures r.Ok? ==> forall i | 0 <= i < |db.exprs| :: db.exprs[i].id == ReportedExpression(db, id) ==>
      && r.value.exprs[i].id == db.exprs[i].id && r.value.exprs[i].owner == db.exprs[i].owner
      && r.value.exprs[i].text == db.exprs[i].text && r.value.exprs[i].createdAt == db.exprs[i].createdAt
      && (CountIncomplete(r.value.tasks, db.exprs[i].id) == 0 ==>
            r.value.exprs[i].status == Completed && r.value.exprs[i].result == Some(result))
      && (CountIncomplete(r.value.tasks, db.exprs[i].id) > 0 ==>
            r.value.exprs[i].status == InProgress && r.value.exprs[i].result == Some(0.0))
  {
    match GetTask(db, id)
    case None => Err(NotFound)
    case Some(t) =>
      var db1 := CompleteTask(db, id, result);
      var remaining := CountIncompleteTasks(db1, t.exprId);
      if remaining == 0 then Ok(Written(UpdateExpressionStatus(db1, t.exprId, Completed, result), db1))
      else Ok(Written(UpdateExpressionStatus(db1, t.exprId, InProgress, 0.0), db1))
  }

  /** Once every task of an expression is completed, any further report for one
      of them leaves the expression completed. */
  lemma PostResultKeepsCompleted(db: Db, id: string, result: real, i: nat)
    requires HasTask(db.tasks, id) && i < |db.exprs| && db.exprs[i].id == ReportedExpression(db, id)
    requires CountIncomplete(db.tasks, db.exprs[i].id) == 0
    ensures PostResult(db, id, result).value.exprs[i].status == Completed
  {
    CompleteRowsCount(db.tasks, id, result, db.exprs[i].id);
  }

  /** `HandleInternalTaskByID`: the result of a completed task, to any caller. */
  function InternalLookup(db: Db, id: string): (r: Result<real, HandlerError>)
    ensures r.Ok? <==> exists i | 0 <= i < |db.tasks| :: db.tasks[i].id == id && FirstWithId(db.tasks, id) == Some(i) && db.tasks[i].completed
    ensures r.Ok? ==> exists i | 0 <= i < |db.tasks| :: db.tasks[i].id == id && db.tasks[i].completed && r.value == db.tasks[i].result
    ensures r.Err? ==> r.error == NotFound
  {
    match GetTask(db, id)
    case None => Err(NotFound)
    case Some(t) => if !t.completed then Err(NotFound) else Ok(t.result)
  }

  /** Under the primary key, the lookup answers exactly for completed tasks. */
  lemma InternalLookupMeaning(db: Db, id: string, i: nat)
    requires UniqueTaskIds(db.tasks) && i < |db.tasks| && db.tasks[i].id == id
    ensures db.tasks[i].completed ==> InternalLookup(db, id) == Ok(db.tasks[i].result)
    ensures !db.tasks[i].completed ==> InternalLookup(db, id) == Err(NotFound)
  {
    var j := FirstWithId(db.tasks, id).value;
    assert j == i;
  }

  /** `HandleTaskByID` as written: the owner it compares with is the one the
      lookup returns, and the lookup never reads it. */
  function UserLookup(db: Db, userId: string, id: string): (r: Result<real, HandlerError>)
    ensures userId == [] ==> r == Err(Unauthorized)
    ensures userId != [] && !HasTask(db.tasks, id) ==> r == Err(NotFound)
  {
    if userId == [] then Err(Unauthorized)
    else match GetTask(db, id)
      case None => Err(NotFound)
      case Some(t) =>
        if t.userId != userId then Err(Forbidden)
        else if !t.completed then Err(Unfinished)
        else Ok(t.result)
  }

  /** No signed-in user ever gets a result: every existing task is forbidden,
      the owner's own completed tasks included. */
  lemma UserLookupAlwaysForbidden(db: Db, userId: string, id: string)
    requires userId != [] && HasTask(db.tasks, id)
    ensures UserLookup(db, userId, id) == Err(Forbidden)
  {
  }

  /** The owner of the row with that id, as the table stores it. */
  function StoredOwner(db: Db, id: string): (r: Option<string>)
    ensures r.None? <==> !HasTask(db.tasks, id)
    ensures r.Some? ==> exists i | 0 <= i < |db.tasks| :: db.tasks[i].id == id && r.value == db.tasks[i].userId
  {
    match FirstWithId(db.tasks, id)
    case None => None
    case Some(i) => Some(db.tasks[i].userId)
  }

  /** `HandleTaskByID` with the ownership test made against the stored owner. */
  function UserLookupByOwner(db: Db, userId: string, id: string): (r: Result<real, HandlerError>)
    ensures userId == [] ==> r == Err(Unauthorized)
    ensures userId != [] && !HasTask(db.tasks, id) ==> r == Err(NotFound)
  {
    if userId == [] then Err(Unauthorized)
    else match FirstWithId(db.tasks, id)
      case None => Err(NotFound)
      case Some(i) =>
        var t := db.tasks[i];
        if t.userId != userId then Err(Forbidden)
        else if !t.completed then Err(Unfinished)
        else Ok(t.result)
  }

  /** With the stored owner, a user gets exactly the results of their own
      completed tasks and is refused everyone else's. */
  lemma UserLookupByOwnerMeaning(db: Db, userId: string, id: string, i: nat)
    requires UniqueTaskIds(db.tasks) && i < |db.tasks| && db.tasks[i].id == id && userId != []
    ensures db.tasks[i].userId == userId && db.tasks[i].completed ==> UserLookupByOwner(db, userId, id) == Ok(db.tasks[i].result)
    ensures db.tasks[i].userId == userId && !db.tasks[i].completed ==> UserLookupByOwner(db, userId, id) == Err(Unfinished)
    ensures db.tasks[i].userId != userId ==> UserLookupByOwner(db, userId, id) == Err(Forbidden)
  {
    var j := FirstWithId(db.tasks, id).value;
    assert j == i;
  }

  // ---------------------------------------------------------------------------
  // The sweep

  /** The sweep's step for one listed expression `x` of user `userId`, with the
      status as listed. */
  function SweepExpression(db: Db, userId: string, x: Expression): (r: Db)
    ensures r.tasks == db.tasks && |r.exprs| == |db.exprs|
    ensures forall i | 0 <= i < |db.exprs| :: r.exprs[i].id == db.exprs[i].id && r.exprs[i].owner == db.exprs[i].owner
    ensures forall i | 0 <= i < |db.exprs| :: db.exprs[i].id != x.id ==> r.exprs[i] == db.exprs[i]
    ensures x.status == Completed ==> r == db
    ensures forall i | 0 <= i < |db.exprs| :: r.exprs[i] != db.exprs[i] ==>
      || (&& r.exprs[i].status == Completed
          && CountIncomplete(db.tasks, x.id) == 0
          && r.exprs[i].result.Some?
          && Aggregate(GetTasksByExpression(db, x.id, userId)) == Ok(r.exprs[i].result.value))
      || (r.exprs[i].status == InProgress && x.status == Pending && |GetExecutableTasks(db, x.id, userId)| > 0)
    ensures x.status == Pending && |GetExecutableTasks(db, x.id, userId)| > 0 ==>
      forall i | 0 <= i < |db.exprs| && db.exprs[i].id == x.id ::
        r.exprs[i].status == InProgress && r.exprs[i].result == Some(0.0)
  {
    if x.status != Pending && x.status != InProgress then db
    else if |GetExecutableTasks(db, x.id, userId)| == 0 then
      if CountIncompleteTasks(db, x.id) == 0 then
        match Aggregate(GetTasksByExpression(db, x.id, userId))
        case Err(_) => db
        case Ok(v) => Written(UpdateExpressionStatus(db, x.id, Completed, v), db)
      else db
    else if x.status == Pending then Written(UpdateExpressionStatus(db, x.id, InProgress, 0.0), db)
    else db
  }

  /** The loop over a snapshot of the user's expressions. */
  function SweepAll(db: Db, userId: string, xs: seq<Expression>): (r: Db)
    ensures r.tasks == db.tasks && |r.exprs| == |db.exprs|
    ensures forall i | 0 <= i < |db.exprs| :: r.exprs[i].id == db.exprs[i].id && r.exprs[i].owner == db.exprs[i].owner
    ensures forall i | 0 <= i < |db.exprs| :: (forall k | 0 <= k < |xs| :: xs[k].id != db.exprs[i].id) ==> r.exprs[i] == db.exprs[i]
    decreases |xs|
  {
    if xs == [] then db else SweepAll(SweepExpression(db, userId, xs[0]), userId, xs[1..])
  }

  /** `ProcessUserTasks`. */
  function ProcessUserTasks(db: Db, userId: string): (r: Db)
    ensures r.tasks == db.tasks && |r.exprs| == |db.exprs|
    ensures forall i | 0 <= i < |db.exprs| :: r.exprs[i].id == db.exprs[i].id && r.exprs[i].owner == db.exprs[i].owner
  {
    SweepAll(db, userId, ListExpressions(db, userId))
  }

  /** Only the user's own expressions, by id, can change. */
  lemma ProcessUserTasksScope(db: Db, userId: string, i: nat)
    requires i < |db.exprs|
    requires forall j | 0 <= j < |db.exprs| :: db.exprs[j].owner == userId ==> db.exprs[j].id != db.exprs[i].id
    ensures ProcessUserTasks(db, userId).exprs[i] == db.exprs[i]
  {
    var xs := ListExpressions(db, userId);
    ListExpressionsMeaning(db, userId);
    var sorted := SortNewestFirst(OwnedBy(db.exprs, userId));
    forall k | 0 <= k < |xs|
      ensures xs[k].id != db.exprs[i].id
    {
      assert xs[k] == View(sorted[k]);
      assert sorted[k] in sorted;
    }
  }

  function SweepUsers(db: Db, users: seq<string>): (r: Db)
    ensures r.tasks == db.tasks && |r.exprs| == |db.exprs|
    ensures forall i | 0 <= i < |db.exprs| :: r.exprs[i].id == db.exprs[i].id && r.exprs[i].owner == db.exprs[i].owner
    decreases |users|
  {
    if users == [] then db else SweepUsers(ProcessUserTasks(db, users[0]), users[1..])
  }

  /** `ProcessPendingTasks`: the sweep over every user that has a pending
      expression when it starts. It never writes a task. */
  function ProcessPendingTasks(db: Db): (r: Db)
    ensures r.tasks == db.tasks && |r.exprs| == |db.exprs|
    ensures forall i | 0 <= i < |db.exprs| :: r.exprs[i].id == db.exprs[i].id && r.exprs[i].owner == db.exprs[i].owner
  {
    SweepUsers(db, GetUsersWithPendingExpressions(db))
  }

  /** An expression with no task rows at all is never changed by the sweep:
      there is nothing to aggregate. */
  lemma SweepSkipsUntasked(db: Db, userId: string, x: Expression)
    requires forall k | 0 <= k < |db.tasks| :: db.tasks[k].exprId != x.id
    ensures SweepExpression(db, userId, x) == db
  {
    var own := GetTasksByExpression(db, x.id, userId);
    assert forall k | 0 <= k < |own| :: own[k] in own;
  }

  lemma {:induction false} SweepAllSkipsUntasked(db: Db, userId: string, xs: seq<Expression>, eid: string, i: nat)
    requires forall k | 0 <= k < |db.tasks| :: db.tasks[k].exprId != eid
    requires i < |db.exprs| && db.exprs[i].id == eid
    ensures SweepAll(db, userId, xs).exprs[i] == db.exprs[i]
    decreases |xs|
  {
    if xs != [] {
      var db1 := SweepExpression(db, userId, xs[0]);
      if xs[0].id == eid {
        SweepSkipsUntasked(db, userId, xs[0]);
      }
      SweepAllSkipsUntasked(db1, userId, xs[1..], eid, i);
    }
  }

  lemma {:induction false} SweepUsersSkipsUntasked(db: Db, users: seq<string>, eid: string, i: nat)
    requires forall k | 0 <= k < |db.tasks| :: db.tasks[k].exprId != eid
    requires i < |db.exprs| && db.exprs[i].id == eid
    ensures SweepUsers(db, users).exprs[i] == db.exprs[i]
    decreases |users|
  {
    if users != [] {
      SweepAllSkipsUntasked(db, users[0], ListExpressions(db, users[0]), eid, i);
      SweepUsersSkipsUntasked(ProcessUserTasks(db, users[0]), users[1..], eid, i);
    }
  }

  /** The whole sweep leaves an expression without tasks exactly as it is. */
  lemma ProcessPendingSkipsUntasked(db: Db, i: nat)
    requires i < |db.exprs|
    requires forall k | 0 <= k < |db.tasks| :: db.tasks[k].exprId != db.exprs[i].id
    ensures ProcessPendingTasks(db).exprs[i] == db.exprs[i]
  {
    SweepUsersSkipsUntasked(db, GetUsersWithPendingExpressions(db), db.exprs[i].id, i);
  }

  /** A listed expression that is pending or in progress, whose tasks are all
      completed and aggregate to `v`, is completed with `v` by its sweep step. */
  lemma SweepCompletes(db: Db, userId: string, x: Expression, v: real)
    requires x.status == Pending || x.status == InProgress
    requires forall k | 0 <= k < |db.tasks| :: db.tasks[k].exprId == x.id ==> db.tasks[k].completed
    requires Aggregate(GetTasksByExpression(db, x.id, userId)) == Ok(v)
    ensures forall i | 0 <= i < |db.exprs| && db.exprs[i].id == x.id ::
      SweepExpression(db, userId, x).exprs[i].status == Completed
      && SweepExpression(db, userId, x).exprs[i].result == Some(v)
  {
    var own := TasksOf(db.tasks, x.id, userId);
    assert forall k | 0 <= k < |own| :: own[k] in own;
    NothingReady(own, CompletedIds(own));
  }

  /** Completed rows are never executable. */
  lemma NothingReady(ts: seq<Task>, done: set<string>)
    requires forall k | 0 <= k < |ts| :: ts[k].completed
    ensures ReadyFilter(ts, done) == []
  {
  }
}

=== FILE: task_store.dfy ===
/** The task table and the expression-status writes of the store, as pure
    transitions over an in-memory `Db`. A failed statement leaves the state as
    it was; the SQL `WHERE` clauses become filters over the rows, kept in
    insertion order. */
module TaskStore {
  import opened Wrappers
  import opened Text
  import opened Records

  datatype StoreError = DuplicateId(id: string) | NoRowsAffected(id: string)

  /** Some row of the table has this id. */
  predicate HasTask(ts: seq<Task>, id: string) {
    exists i | 0 <= i < |ts| :: ts[i].id == id
  }

  /** The `id` primary key: no two rows share an id. */
  predicate UniqueTaskIds(ts: seq<Task>) {
    forall i, j | 0 <= i < j < |ts| :: ts[i].id != ts[j].id
  }

  // ---------------------------------------------------------------------------
  // RegisterTasks

  /** The row inserted for `t`: the expression and owner come from the caller,
      not from the task; the result column is left NULL, which every query
      reads back as 0. */
  function Stamp(t: Task, exprId: string, userId: string): Task {
    t.(exprId := exprId, userId := userId, result := 0.0)
  }

  function StampAll(batch: seq<Task>, exprId: string, userId: string): (r: seq<Task>)
    ensures |r| == |batch|
    ensures forall k | 0 <= k < |batch| :: r[k] == Stamp(batch[k], exprId, userId)
  {
    if batch == [] then [] else [Stamp(batch[0], exprId, userId)] + StampAll(batch[1..], exprId, userId)
  }

  /** The inserts of the transaction, one after the other; the first one whose
      id is already taken fails. */
  function InsertTasks(table: seq<Task>, batch: seq<Task>, exprId: string, userId: string): Result<seq<Task>, StoreError>
    decreases |batch|
  {
    if batch == [] then Ok(table)
    else if HasTask(table, batch[0].id) then Err(DuplicateId(batch[0].id))
    else InsertTasks(table + [Stamp(batch[0], exprId, userId)], batch[1..], exprId, userId)
  }

  /** The batch can be inserted: its ids are pairwise different and none is
      taken yet. */
  predicate Insertable(table: seq<Task>, batch: seq<Task>) {
    && UniqueTaskIds(batch)
    && forall k | 0 <= k < |batch| :: !HasTask(table, batch[k].id)
  }

  /** One insert moves the first task of the batch into the table. */
  lemma InsertableStep(table: seq<Task>, batch: seq<Task>, next: seq<Task>)
    requires batch != [] && !HasTask(table, batch[0].id)
    requires |next| == |table| + 1 && next[..|table|] == table && next[|table|].id == batch[0].id
    ensures Insertable(table, batch) <==> Insertable(next, batch[1..])
  {
    var rest := batch[1..];
    assert forall k | 0 <= k < |rest| :: rest[k] == batch[k + 1];
    assert forall i | 0 <= i < |table| :: next[i] == table[i];
    if Insertable(next, rest) {
      forall i, j | 0 <= i < j < |batch|
        ensures batch[i].id != batch[j].id
      {
        if i == 0 {
          assert !HasTask(next, rest[j - 1].id);
          assert next[|table|].id == batch[0].id;
        }
      }
      forall k | 0 < k < |batch|
        ensures !HasTask(table, batch[k].id)
      {
        assert !HasTask(next, rest[k - 1].id);
      }
    }
  }

  /** A transaction that goes through appends the stamped batch. */
  lemma {:induction false} InsertTasksAppends(table: seq<Task>, batch: seq<Task>, exprId: string, userId: string)
    ensures InsertTasks(table, batch, exprId, userId).Ok? ==>
      InsertTasks(table, batch, exprId, userId).value == table + StampAll(batch, exprId, userId)
    decreases |batch|
  {
    if batch == [] {
      assert table + StampAll(batch, exprId, userId) == table;
    } else if !HasTask(table, batch[0].id) {
      var head := [Stamp(batch[0], exprId, userId)];
      var tail := StampAll(batch[1..], exprId, userId);
      InsertTasksAppends(table + head, batch[1..], exprId, userId);
      StampAllCons(batch, exprId, userId);
      AppendRegroup(table, head, tail);
    }
  }

  lemma StampAllCons(batch: seq<Task>, exprId: string, userId: string)
    requires batch != []
    ensures StampAll(batch, exprId, userId) == [Stamp(batch[0], exprId, userId)] + StampAll(batch[1..], exprId, userId)
  {
  }

  lemma AppendRegroup(a: seq<Task>, b: seq<Task>, c: seq<Task>)
    ensures a + (b + c) == (a + b) + c
  {
  }

  /** A transaction that fails names the id of one task of the batch. */
  lemma {:induction false} InsertTasksNamesDuplicate(table: seq<Task>, batch: seq<Task>, exprId: string, userId: string)
    ensures InsertTasks(table, batch, exprId, userId).Err? ==>
      exists k | 0 <= k < |batch| :: InsertTasks(table, batch, exprId, userId).error == DuplicateId(batch[k].id)
    decreases |batch|
  {
    if batch != [] && !HasTask(table, batch[0].id) {
      var next := table + [Stamp(batch[0], exprId, userId)];
      var rest := batch[1..];
      InsertTasksNamesDuplicate(next, rest, exprId, userId);
      if InsertTasks(next, rest, exprId, userId).Err? {
        var k :| 0 <= k < |rest| && InsertTasks(next, rest, exprId, userId).error == DuplicateId(rest[k].id);
        assert rest[k] == batch[k + 1];
      }
    }
  }

  lemma {:induction false} InsertTasksSucceeds(table: seq<Task>, batch: seq<Task>, exprId: string, userId: string)
    ensures InsertTasks(table, batch, exprId, userId).Ok? <==> Insertable(table, batch)
    decreases |batch|
  {
    if batch != [] && !HasTask(table, batch[0].id) {
      var next := table + [Stamp(batch[0], exprId, userId)];
      InsertTasksSucceeds(next, batch[1..], exprId, userId);
      InsertableStep(table, batch, next);
    }
  }

  /** `RegisterTasks`: one transaction that inserts every task or none. */
  function RegisterTasks(db: Db, exprId: string, userId: string, batch: seq<Task>): (r: Result<Db, StoreError>)
    ensures r.Ok? <==> Insertable(db.tasks, batch)
    ensures r.Ok? ==> r.value.exprs == db.exprs && r.value.tasks == db.tasks + StampAll(batch, exprId, userId)
    ensures r.Err? ==> exists k | 0 <= k < |batch| :: r.error == DuplicateId(batch[k].id)
  {
    InsertTasksAppends(db.tasks, batch, exprId, userId);
    InsertTasksNamesDuplicate(db.tasks, batch, exprId, userId);
    InsertTasksSucceeds(db.tasks, batch, exprId, userId);
    var tasks :- InsertTasks(db.tasks, batch, exprId, userId);
    Ok(db.(tasks := tasks))
  }

  /** Registering keeps the primary key intact. */
  lemma RegisterKeepsUnique(db: Db, exprId: string, userId: string, batch: seq<Task>)
    requires UniqueTaskIds(db.tasks) && RegisterTasks(db, exprId, userId, batch).Ok?
    ensures UniqueTaskIds(RegisterTasks(db, exprId, userId, batch).value.tasks)
  {
    var ts := RegisterTasks(db, exprId, userId, batch).value.tasks;
    var n := |db.tasks|;
    forall i, j | 0 <= i < j < |ts|
      ensures ts[i].id != ts[j].id
    {
      if j >= n && i < n {
        assert ts[j].id == batch[j - n].id;
        assert ts[i] == db.tasks[i];
      } else if i >= n {
        assert ts[i].id == batch[i - n].id && ts[j].id == batch[j - n].id;
      }
    }
  }

  // ---------------------------------------------------------------------------
  // Queries over one expression

  /** `GetTasksByExpression`: the rows of that expression and that user. The
      query has no ORDER BY; the rows are taken in insertion order. */
  function TasksOf(ts: seq<Task>, exprId: string, userId: string): (r: seq<Task>)
    ensures |r| <= |ts|
    ensures forall t :: t in r <==> t in ts && t.exprId == exprId && t.userId == userId
  {
    if ts == [] then []
    else (if ts[0].exprId == exprId && ts[0].userId == userId then [ts[0]] else []) + TasksOf(ts[1..], exprId, userId)
  }

  lemma TasksOfAppend(a: seq<Task>, b: seq<Task>, exprId: string, userId: string)
    ensures TasksOf(a + b, exprId, userId) == TasksOf(a, exprId, userId) + TasksOf(b, exprId, userId)
  {
    if a == [] {
      assert a + b == b;
    } else {
      assert (a + b)[1..] == a[1..] + b;
      TasksOfAppend(a[1..], b, exprId, userId);
    }
  }

  function GetTasksByExpression(db: Db, exprId: string, userId: string): seq<Task> {
    TasksOf(db.tasks, exprId, userId)
  }

  /** `isTaskReference`: longer than five characters and starting with `task:`. */
  predicate IsTaskReference(a: string) {
    |a| > 5 && a[..5] == "task:"
  }

  /** The store's rule is the prefix rule minus the bare `task:`. */
  lemma TaskReferenceRule(a: string)
    ensures IsTaskReference(a) <==> HasPrefix(a, RefPrefix) && a != RefPrefix
    ensures IsTaskReference(a) ==> a[5..] == RefTarget(a)
  {
    if HasPrefix(a, RefPrefix) && a != RefPrefix {
      assert a[..5] == RefPrefix;
    }
  }

  /** A completed row of the expression's own rows has this id. */
  predicate CompletedAmong(ts: seq<Task>, id: string) {
    exists c | c in ts :: c.completed && c.id == id
  }

  /** An operand is ready when it is not a reference by the store's rule or it
      names a completed task of the same expression and user. */
  predicate OperandReady(arg: string, own: seq<Task>) {
    !IsTaskReference(arg) || CompletedAmong(own, arg[5..])
  }

  function CompletedIds(ts: seq<Task>): (r: set<string>)
    ensures forall id :: id in r <==> CompletedAmong(ts, id)
  {
    if ts == [] then {}
    else (if ts[0].completed then {ts[0].id} else {}) + CompletedIds(ts[1..])
  }

  function ReadyFilter(ts: seq<Task>, done: set<string>): (r: seq<Task>)
    ensures forall t :: t in r <==>
      (t in ts && !t.completed
       && (!IsTaskReference(t.arg1) || t.arg1[5..] in done)
       && (!IsTaskReference(t.arg2) || t.arg2[5..] in done))
  {
    if ts == [] then []
    else
      var t := ts[0];
      var ready := !t.completed
        && (!IsTaskReference(t.arg1) || t.arg1[5..] in done)
        && (!IsTaskReference(t.arg2) || t.arg2[5..] in done);
      (if ready then [t] else []) + ReadyFilter(ts[1..], done)
  }

  /** `GetExecutableTasks`: the incomplete rows of the expression and user whose
      reference operands all name a completed row of that same set. */
  function GetExecutableTasks(db: Db, exprId: string, userId: string): (r: seq<Task>)
    ensures forall t :: t in r <==>
      && t in db.tasks && t.exprId == exprId && t.userId == userId && !t.completed
      && OperandReady(t.arg1, TasksOf(db.tasks, exprId, userId))
      && OperandReady(t.arg2, TasksOf(db.tasks, exprId, userId))
  {
    var own := TasksOf(db.tasks, exprId, userId);
    ReadyFilter(own, CompletedIds(own))
  }

  /** A reference to a task outside the expression's own rows is never ready,
      so a task holding one is never executable. */
  lemma DanglingNeverExecutable(db: Db, exprId: string, userId: string, t: Task)
    requires IsTaskReference(t.arg1) || IsTaskReference(t.arg2)
    requires forall c | c in db.tasks && c.exprId == exprId && c.userId == userId ::
      (IsTaskReference(t.arg1) ==> c.id != t.arg1[5..]) && (IsTaskReference(t.arg2) ==> c.id != t.arg2[5..])
    ensures t !in GetExecutableTasks(db, exprId, userId)
  {
  }

  /** `CountIncompleteTasks`: incomplete rows of the expression, whoever owns them. */
  function CountIncomplete(ts: seq<Task>, exprId: string): (n: nat)
    ensures n <= |ts|
    ensures n == 0 <==> forall i | 0 <= i < |ts| :: ts[i].exprId == exprId ==> ts[i].completed
  {
    if ts == [] then 0
    else CountIncomplete(ts[..|ts| - 1], exprId) + (if ts[|ts| - 1].exprId == exprId && !ts[|ts| - 1].completed then 1 else 0)
  }

  function CountIncompleteTasks(db: Db, exprId: string): nat {
    CountIncomplete(db.tasks, exprId)
  }

  /** Rows of another user count too: the count is by expression id alone. */
  lemma CountIgnoresOwner(ts: seq<Task>, exprId: string, i: nat, owner: string)
    requires i < |ts|
    ensures CountIncomplete(ts[i := ts[i].(userId := owner)], exprId) == CountIncomplete(ts, exprId)
  {
    if i < |ts| - 1 {
      assert ts[i := ts[i].(userId := owner)][..|ts| - 1] == ts[..|ts| - 1][i := ts[i].(userId := owner)];
      CountIgnoresOwner(ts[..|ts| - 1], exprId, i, owner);
    } else {
      assert ts[i := ts[i].(userId := owner)][..|ts| - 1] == ts[..|ts| - 1];
    }
  }

  // ---------------------------------------------------------------------------
  // The global next-task pick

  /** An incomplete row whose id, behind `task:`, is exactly `arg`: SQL string
      equality, with no length rule. */
  predicate BlockedBy(arg: string, ts: seq<Task>) {
    exists j | 0 <= j < |ts| :: !ts[j].completed && RefPrefix + ts[j].id == arg
  }

  /** The condition of the next-task query. */
  predicate NextReady(t: Task, ts: seq<Task>) {
    !t.completed && !BlockedBy(t.arg1, ts) && !BlockedBy(t.arg2, ts)
  }

  function FirstNextReady(ts: seq<Task>, from: nat): (r: Option<nat>)
    requires from <= |ts|
    ensures r.None? <==> forall i | from <= i < |ts| :: !NextReady(ts[i], ts)
    ensures r.Some? ==> from <= r.value < |ts| && NextReady(ts[r.value], ts)
    ensures r.Some? ==> forall i | from <= i < r.value :: !NextReady(ts[i], ts)
    decreases |ts| - from
  {
    if from == |ts| then None
    else if NextReady(ts[from], ts) then Some(from)
    else FirstNextReady(ts, from + 1)
  }

  /** The row as the next-task and lookup queries return it: `user_id` is not
      selected, so the owner reads back empty. */
  function Unowned(t: Task): Task {
    t.(userId := [])
  }

  /** `GetNextExecutableTask`: some incomplete row, of any user, that no
      incomplete row blocks. `LIMIT 1` without ORDER BY leaves the choice open;
      the first in insertion order is taken. */
  function GetNextExecutableTask(db: Db): (r: Option<Task>)
    ensures r.None? <==> forall i | 0 <= i < |db.tasks| :: !NextReady(db.tasks[i], db.tasks)
    ensures r.Some? ==> exists i | 0 <= i < |db.tasks| :: NextReady(db.tasks[i], db.tasks) && r.value == Unowned(db.tasks[i])
  {
    match FirstNextReady(db.tasks, 0)
    case None => None
    case Some(i) => Some(Unowned(db.tasks[i]))
  }

  /** A reference to a task that does not exist blocks nothing here, while the
      executable filter never lets it through. */
  lemma DanglingReadyForNext()
    ensures var db := Db([], [Task("t1", "e1", "u1", "task:gone", "2", "+", 100, 0.0, false)]);
      && GetNextExecutableTask(db) == Some(Task("t1", "e1", "", "task:gone", "2", "+", 100, 0.0, false))
      && GetExecutableTasks(db, "e1", "u1") == []
  {
    var t := Task("t1", "e1", "u1", "task:gone", "2", "+", 100, 0.0, false);
    var db := Db([], [t]);
    assert IsTaskReference(t.arg1);
    assert t.arg1[5..] == "gone";
    assert !BlockedBy(t.arg1, db.tasks) by {
      assert RefPrefix + "t1" != "task:gone" by {
        assert (RefPrefix + "t1")[5] == 't';
      }
    }
    assert !BlockedBy(t.arg2, db.tasks) by {
      assert |RefPrefix + "t1"| != |"2"|;
    }
  }

  // ---------------------------------------------------------------------------
  // Single-row reads and writes

  function FirstWithId(ts: seq<Task>, id: string): (r: Option<nat>)
    ensures r.None? <==> !HasTask(ts, id)
    ensures r.Some? ==> r.value < |ts| && ts[r.value].id == id
  {
    if ts == [] then None
    else if ts[0].id == id then Some(0)
    else match FirstWithId(ts[1..], id)
      case None => None
      case Some(i) => Some(i + 1)
  }

  /** `GetTask`: the row with that id, without its owner. */
  function GetTask(db: Db, id: string): (r: Option<Task>)
    ensures r.None? <==> !HasTask(db.tasks, id)
    ensures r.Some? ==> exists i | 0 <= i < |db.tasks| :: db.tasks[i].id == id && r.value == Unowned(db.tasks[i])
    ensures r.Some? ==> r.value.id == id && r.value.userId == []
  {
    match FirstWithId(db.tasks, id)
    case None => None
    case Some(i) => Some(Unowned(db.tasks[i]))
  }

  /** `CompleteTask`: `UPDATE ... SET completed = true, result = ? WHERE id = ?`.
      An unknown id matches no row and is not an error. */
  function CompleteTask(db: Db, id: string, result: real): (r: Db)
    ensures r.exprs == db.exprs && |r.tasks| == |db.tasks|
    ensures forall i | 0 <= i < |db.tasks| :: SameWork(r.tasks[i], db.tasks[i]) && r.tasks[i].userId == db.tasks[i].userId
  {
    db.(tasks := CompleteRows(db.tasks, id, result))
  }

  function CompleteRows(ts: seq<Task>, id: string, result: real): (r: seq<Task>)
    ensures |r| == |ts|
    ensures forall i | 0 <= i < |ts| :: r[i] == if ts[i].id == id then ts[i].(completed := true, result := result) else ts[i]
  {
    if ts == [] then [] else CompleteRows(ts[..|ts| - 1], id, result) + [if ts[|ts| - 1].id == id then ts[|ts| - 1].(completed := true, result := result) else ts[|ts| - 1]]
  }

  /** After completing, the row with that id is completed and holds the result. */
  lemma CompleteTaskSets(db: Db, id: string, result: real, i: nat)
    requires i < |db.tasks| && db.tasks[i].id == id
    ensures CompleteTask(db, id, result).tasks[i].completed
    ensures CompleteTask(db, id, result).tasks[i].result == result
  {
  }

  /** Completing never makes a row incomplete. */
  lemma CompleteTaskMonotone(db: Db, id: string, result: real, i: nat)
    requires i < |db.tasks| && db.tasks[i].completed
    ensures CompleteTask(db, id, result).tasks[i].completed
  {
  }

  /** A repeated report overwrites: the last result written wins. */
  lemma CompleteTaskLastWins(db: Db, id: string, a: real, b: real)
    ensures CompleteTask(CompleteTask(db, id, a), id, b) == CompleteTask(db, id, b)
  {
    var x := CompleteTask(CompleteTask(db, id, a), id, b).tasks;
    var y := CompleteTask(db, id, b).tasks;
    assert |x| == |y|;
    forall i | 0 <= i < |x|
      ensures x[i] == y[i]
    {
    }
  }

  /** An unknown id changes nothing. */
  lemma CompleteUnknownTask(db: Db, id: string, result: real)
    requires !HasTask(db.tasks, id)
    ensures CompleteTask(db, id, result) == db
  {
    var x := CompleteTask(db, id, result).tasks;
    forall i | 0 <= i < |x|
      ensures x[i] == db.tasks[i]
    {
    }
  }

  /** Completing a task never raises any expression's incomplete count. */
  lemma {:induction false} CompleteRowsCount(ts: seq<Task>, id: string, result: real, exprId: string)
    ensures CountIncomplete(CompleteRows(ts, id, result), exprId) <= CountIncomplete(ts, exprId)
  {
    if ts != [] {
      var n := |ts| - 1;
      assert CompleteRows(ts, id, result)[..n] == CompleteRows(ts[..n], id, result);
      CompleteRowsCount(ts[..n], id, result, exprId);
    }
  }

  // ---------------------------------------------------------------------------
  // Expression status

  predicate HasExpr(rows: seq<ExprRow>, id: string) {
    exists i | 0 <= i < |rows| :: rows[i].id == id
  }

  function SetStatus(rows: seq<ExprRow>, id: string, status: Status, result: real): (r: seq<ExprRow>)
    ensures |r| == |rows|
    ensures forall i | 0 <= i < |rows| :: r[i] == if rows[i].id == id then rows[i].(status := status, result := Some(result)) else rows[i]
  {
    if rows == [] then []
    else (SetStatus(rows[..|rows| - 1], id, status, result)
      + [if rows[|rows| - 1].id == id then rows[|rows| - 1].(status := status, result := Some(result)) else rows[|rows| - 1]])
  }

  /** `UpdateExpressionStatus`: overwrites status and result whatever the current
      status; the only error is an id that matches no row. */
  function UpdateExpressionStatus(db: Db, id: string, status: Status, result: real): (r: Result<Db, StoreError>)
    ensures r.Err? <==> !HasExpr(db.exprs, id)
    ensures r.Err? ==> r.error == NoRowsAffected(id)
    ensures r.Ok? ==> r.value.tasks == db.tasks && |r.value.exprs| == |db.exprs|
    ensures r.Ok? ==> forall i | 0 <= i < |db.exprs| ::
      && r.value.exprs[i].id == db.exprs[i].id && r.value.exprs[i].owner == db.exprs[i].owner
      && r.value.exprs[i].text == db.exprs[i].text && r.value.exprs[i].createdAt == db.exprs[i].createdAt
      && (db.exprs[i].id == id ==> r.value.exprs[i].status == status && r.value.exprs[i].result == Some(result))
      && (db.exprs[i].id != id ==> r.value.exprs[i] == db.exprs[i])
  {
    if !HasExpr(db.exprs, id) then Err(NoRowsAffected(id))
    else Ok(db.(exprs := SetStatus(db.exprs, id, status, result)))
  }

  /** The write is not guarded by the current status: a completed expression can
      be moved back to in progress. */
  lemma StatusCanRegress(db: Db, id: string)
    requires HasExpr(db.exprs, id)
    ensures var r := UpdateExpressionStatus(db, id, InProgress, 0.0);
      r.Ok? && forall i | 0 <= i < |db.exprs| && db.exprs[i].id == id :: r.value.exprs[i].status == InProgress
  {
  }

  /** `GetUsersWithPendingExpressions`: the owners of `pending` expressions, each
      once, in order of first appearance. */
  function PendingOwners(rows: seq<ExprRow>): (r: seq<string>)
    ensures forall u :: u in r <==> exists i | 0 <= i < |rows| :: rows[i].status == Pending && rows[i].owner == u
    ensures forall i, j | 0 <= i < j < |r| :: r[i] != r[j]
    decreases |rows|, 1
  {
    if rows == [] then [] else PendingOwnersStep(rows)
  }

  function PendingOwnersStep(rows: seq<ExprRow>): (r: seq<string>)
    requires rows != []
    ensures forall u :: u in r <==> exists i | 0 <= i < |rows| :: rows[i].status == Pending && rows[i].owner == u
    ensures forall i, j | 0 <= i < j < |r| :: r[i] != r[j]
    decreases |rows|, 0
  {
    var prev := PendingOwners(rows[..|rows| - 1]);
    var last := rows[|rows| - 1];
    assert forall i | 0 <= i < |rows| - 1 :: rows[..|rows| - 1][i] == rows[i];
    if last.status == Pending && last.owner !in prev then prev + [last.owner] else prev
  }

  function GetUsersWithPendingExpressions(db: Db): seq<string> {
    PendingOwners(db.exprs)
  }
}

=== FILE: text.dfy ===
/** Character classes, prefix rules, parenthesis depth and the numeric parsers
    (`strconv.ParseFloat`, `strconv.Atoi`) as the calculator uses them.
    Strings are `seq<char>`; the sources only ever see ASCII after validation. */
module Text {
  import opened Wrappers

  predicate IsDigit(c: char) {
    '0' <= c <= '9'
  }

  predicate IsOperatorChar(c: char) {
    c == '+' || c == '-' || c == '*' || c == '/'
  }

  /** A character that may belong to a number token: a digit or the decimal point. */
  predicate IsNumberChar(c: char) {
    IsDigit(c) || c == '.'
  }

  /** `isOperator`: the four one-character operator strings. */
  predicate IsOperator(s: string) {
    s == "+" || s == "-" || s == "*" || s == "/"
  }

  lemma OperatorIsOneOperatorChar(s: string)
    ensures IsOperator(s) <==> |s| == 1 && IsOperatorChar(s[0])
  {
  }

  /** The marker that turns a task operand into a dependency reference. */
  const RefPrefix: string := "task:"

  /** `strings.HasPrefix`. */
  predicate HasPrefix(s: string, p: string) {
    |p| <= |s| && s[..|p|] == p
  }

  /** `strings.TrimPrefix(s, "task:")` for a string that has the prefix: the referenced id. */
  function RefTarget(s: string): string
    requires HasPrefix(s, RefPrefix)
  {
    s[|RefPrefix|..]
  }

  lemma RefTargetOfRef(id: string)
    ensures HasPrefix(RefPrefix + id, RefPrefix)
    ensures RefTarget(RefPrefix + id) == id
  {
    assert (RefPrefix + id)[..|RefPrefix|] == RefPrefix;
  }

  /** A string whose first character is a number character never looks like a reference. */
  lemma NumberTextIsNotRef(s: string)
    requires |s| > 0 && IsNumberChar(s[0])
    ensures !HasPrefix(s, RefPrefix)
    ensures !IsOperator(s)
  {
    assert s[0] != 't';
    if |RefPrefix| <= |s| {
      assert s[..|RefPrefix|][0] == s[0];
    }
  }

  /** `strings.ReplaceAll(s, " ", "")`: only the plain space is removed. */
  function StripSpaces(s: string): (r: string)
    ensures ' ' !in r
    ensures |r| <= |s|
    ensures ' ' !in s ==> r == s
    ensures forall c | c != ' ' :: multiset(r)[c] == multiset(s)[c]
  {
    if s == [] then []
    else
      assert s == [s[0]] + s[1..];
      (if s[0] == ' ' then [] else [s[0]]) + StripSpaces(s[1..])
  }

  /** A single character is dropped when it is a space and kept otherwise. */
  lemma StripSpacesChar(c: char)
    ensures StripSpaces([c]) == if c == ' ' then [] else [c]
  {
    assert [c][1..] == [];
  }

  /** Stripping works piece by piece, so the kept characters stay in order. */
  lemma {:induction false} StripSpacesAppend(a: string, b: string)
    ensures StripSpaces(a + b) == StripSpaces(a) + StripSpaces(b)
    decreases |a|
  {
    if a == [] {
      assert a + b == b;
    } else {
      assert (a + b)[0] == a[0] && (a + b)[1..] == a[1..] + b;
      StripSpacesAppend(a[1..], b);
    }
  }

  /** Change of parenthesis depth contributed by one character. */
  function Delta(c: char): int {
    if c == '(' then 1 else if c == ')' then -1 else 0
  }

  /** Number of `(` minus number of `)` in `s`. */
  function Depth(s: string): int
    decreases |s|
  {
    if s == [] then 0 else Depth(s[..|s| - 1]) + Delta(s[|s| - 1])
  }

  /** No prefix closes more parentheses than it opens, and the totals agree. */
  predicate Balanced(s: string) {
    (forall k | 0 <= k <= |s| :: Depth(s[..k]) >= 0) && Depth(s) == 0
  }

  /** The parenthesis loop: `open` is the running count, a `)` that drives it
      below zero fails at once, and the count must end at zero. */
  function ParensScan(s: string, i: nat, open: int): bool
    requires i <= |s|
    decreases |s| - i
  {
    if i == |s| then open == 0
    else if s[i] == '(' then ParensScan(s, i + 1, open + 1)
    else if s[i] == ')' then open - 1 >= 0 && ParensScan(s, i + 1, open - 1)
    else ParensScan(s, i + 1, open)
  }

  lemma DepthStep(s: string, i: nat)
    requires i < |s|
    ensures Depth(s[..i + 1]) == Depth(s[..i]) + Delta(s[i])
  {
    assert s[..i + 1][..i] == s[..i];
  }

  /** The running-count loop accepts exactly the balanced strings. */
  lemma {:induction false} ParensScanBalanced(s: string, i: nat, open: int)
    requires i <= |s|
    requires open == Depth(s[..i])
    requires forall k | 0 <= k <= i :: Depth(s[..k]) >= 0
    ensures ParensScan(s, i, open) <==> Balanced(s)
    decreases |s| - i
  {
    if i == |s| {
      assert s[..i] == s;
    } else {
      DepthStep(s, i);
      if s[i] == ')' && open - 1 < 0 {
        assert Depth(s[..i + 1]) < 0;
      } else {
        assert forall k | 0 <= k <= i + 1 :: Depth(s[..k]) >= 0 by {
          forall k | 0 <= k <= i + 1
            ensures Depth(s[..k]) >= 0
          {
            if k == i + 1 {
              if s[i] != ')' {
                assert Delta(s[i]) >= 0;
              }
            }
          }
        }
        ParensScanBalanced(s, i + 1, Depth(s[..i + 1]));
      }
    }
  }

  /** Depth is additive over concatenation. */
  lemma {:induction false} DepthAppend(a: string, b: string)
    ensures Depth(a + b) == Depth(a) + Depth(b)
    decreases |b|
  {
    if b == [] {
      assert a + b == a;
    } else {
      assert (a + b)[..|a + b| - 1] == a + b[..|b| - 1];
      DepthAppend(a, b[..|b| - 1]);
    }
  }

  lemma DepthCons(c: char, t: string)
    ensures Depth([c] + t) == Delta(c) + Depth(t)
  {
    DepthAppend([c], t);
    assert [c][..0] == [];
  }

  function Count(s: string, c: char): nat {
    if s == [] then 0 else Count(s[..|s| - 1], c) + (if s[|s| - 1] == c then 1 else 0)
  }

  function DigitValue(c: char): nat
    requires IsDigit(c)
  {
    (c as int) - ('0' as int)
  }

  predicate AllDigits(s: string) {
    forall i | 0 <= i < |s| :: IsDigit(s[i])
  }

  /** The value of a string of decimal digits. */
  function DigitsValue(s: string): nat
    requires AllDigits(s)
  {
    if s == [] then 0 else DigitsValue(s[..|s| - 1]) * 10 + DigitValue(s[|s| - 1])
  }

  function Pow10(n: nat): (r: nat)
    ensures r >= 1
  {
    if n == 0 then 1 else 10 * Pow10(n - 1)
  }

  /** The strings `strconv.ParseFloat` accepts among those built from digits and `.`:
      at least one digit and at most one decimal point. */
  predicate IsDecimalText(s: string) {
    && (forall i | 0 <= i < |s| :: IsNumberChar(s[i]))
    && Count(s, '.') <= 1
    && (exists i | 0 <= i < |s| :: IsDigit(s[i]))
  }

  /** Index of the first `.` in `s`, or `|s|` when there is none. */
  function DotIndex(s: string): (k: nat)
    ensures k <= |s|
    ensures forall i | 0 <= i < k :: s[i] != '.'
    ensures k < |s| ==> s[k] == '.'
  {
    if s == [] then 0
    else if s[0] == '.' then 0
    else 1 + DotIndex(s[1..])
  }

  lemma CountZero(s: string, c: char)
    requires forall i | 0 <= i < |s| :: s[i] != c
    ensures Count(s, c) == 0
  {
    if s != [] {
      CountZero(s[..|s| - 1], c);
    }
  }

  lemma CountAppend(a: string, b: string, c: char)
    ensures Count(a + b, c) == Count(a, c) + Count(b, c)
    decreases |b|
  {
    if b == [] {
      assert a + b == a;
    } else {
      assert (a + b)[..|a + b| - 1] == a + b[..|b| - 1];
      CountAppend(a, b[..|b| - 1], c);
    }
  }

  lemma CountZeroAbsent(s: string, c: char)
    requires Count(s, c) == 0
    ensures forall i | 0 <= i < |s| :: s[i] != c
  {
    if s != [] {
      CountZeroAbsent(s[..|s| - 1], c);
      assert forall i | 0 <= i < |s| - 1 :: s[i] == s[..|s| - 1][i];
    }
  }

  /** Around the only decimal point of a decimal text there are digits only. */
  lemma DecimalSplit(s: string)
    requires IsDecimalText(s)
    ensures AllDigits(s[..DotIndex(s)])
    ensures DotIndex(s) < |s| ==> AllDigits(s[DotIndex(s) + 1..])
  {
    var k := DotIndex(s);
    if k < |s| {
      var whole, frac := s[..k], s[k + 1..];
      assert s == whole + [s[k]] + frac;
      CountAppend(whole + [s[k]], frac, '.');
      CountAppend(whole, [s[k]], '.');
      assert Count([s[k]], '.') == 1 by {
        assert [s[k]][..0] == [];
      }
      CountZeroAbsent(frac, '.');
      assert forall i | 0 <= i < |frac| :: frac[i] == s[k + 1 + i];
    }
  }

  /** `x` with its decimal point moved `n` places to the left. */
  function Shift(x: real, n: nat): real {
    if n == 0 then x else Shift(x, n - 1) / 10.0
  }

  /** `strconv.ParseFloat(s, 64)` on the strings of digits and points the
      calculator produces; every other string is rejected. The value is exact. */
  function ParseFloat(s: string): (r: Option<real>)
    ensures r.Some? <==> IsDecimalText(s)
  {
    if !IsDecimalText(s) then None
    else
      var k := DotIndex(s);
      DecimalSplit(s);
      if k == |s| then
        Some(DigitsValue(s[..k]) as real)
      else
        var frac := s[k + 1..];
        Some(DigitsValue(s[..k]) as real + Shift(DigitsValue(frac) as real, |frac|))
  }

  lemma ShiftOneDigit(va: int, vf: int, p: int, d: int)
    ensures (va * p + vf) * 10 + d == va * (p * 10) + (vf * 10 + d)
  {
  }

  /** Appending digits shifts the value of the front by one place per digit. */
  lemma {:induction false} DigitsValueAppend(a: string, b: string)
    requires AllDigits(a) && AllDigits(b)
    ensures AllDigits(a + b)
    ensures DigitsValue(a + b) == DigitsValue(a) * Pow10(|b|) + DigitsValue(b)
    decreases |b|
  {
    if b == [] {
      assert a + b == a;
    } else {
      var front := b[..|b| - 1];
      var d := DigitValue(b[|b| - 1]);
      assert (a + b)[..|a + b| - 1] == a + front;
      assert (a + b)[|a + b| - 1] == b[|b| - 1];
      DigitsValueAppend(a, front);
      assert Pow10(|b|) == Pow10(|front|) * 10;
      ShiftOneDigit(DigitsValue(a), DigitsValue(front), Pow10(|front|), d);
    }
  }

  /** A decimal text without a point is read as the whole number its digits spell. */
  lemma ParseFloatWhole(s: string)
    requires IsDecimalText(s) && forall i | 0 <= i < |s| :: s[i] != '.'
    ensures AllDigits(s)
    ensures ParseFloat(s) == Some(DigitsValue(s) as real)
  {
    assert DotIndex(s) == |s|;
    assert s[..|s|] == s;
  }

  lemma {:induction false} CountPositive(s: string, c: char, i: nat)
    requires i < |s| && s[i] == c
    ensures Count(s, c) >= 1
    decreases |s|
  {
    if i < |s| - 1 {
      CountPositive(s[..|s| - 1], c, i);
    }
  }

  /** A decimal text has its point nowhere but at the first one. */
  lemma OnlyPoint(s: string, k: nat)
    requires Count(s, '.') <= 1 && k < |s| && s[k] == '.'
    ensures DotIndex(s) == k
  {
    var d := DotIndex(s);
    if d != k {
      // two points, at `d` and at `k`, against a count of at most one
      var front, back := s[..k], s[k..];
      assert s == front + back;
      CountAppend(front, back, '.');
      CountPositive(front, '.', d);
      CountPositive(back, '.', 0);
      assert false;
    }
  }

  lemma {:induction false} ShiftAdd(x: real, y: real, sum: real, n: nat)
    requires sum == x + y
    ensures Shift(sum, n) == Shift(x, n) + Shift(y, n)
  {
    if n > 0 {
      ShiftAdd(x, y, sum, n - 1);
    }
  }

  /** Moving the point of `x * 10^n` back `n` places gives `x`. */
  lemma {:induction false} ShiftScaled(x: real, y: real, n: nat)
    requires y == x * Pow10(n) as real
    ensures Shift(y, n) == x
    decreases n
  {
    if n > 0 {
      assert Pow10(n) as real == 10.0 * Pow10(n - 1) as real;
      ShiftScaled(10.0 * x, y, n - 1);
    }
  }

  /** Moving the point `n` places is dividing by `10^n`. */
  lemma {:induction false} ShiftIsDivision(x: real, n: nat)
    ensures Shift(x, n) == x / Pow10(n) as real
  {
    if n > 0 {
      ShiftIsDivision(x, n - 1);
      assert Pow10(n) as real == Pow10(n - 1) as real * 10.0;
    }
  }

  lemma CastAffine(w: int, p: int, f: int, x: int)
    requires x == w * p + f
    ensures x as real == w as real * p as real + f as real
  {
  }

  /** `w.f`, with `n` digits after the point, is the digits of both with the
      point moved `n` places left. */
  lemma ShiftSplit(w: nat, f: nat, n: nat, x: nat)
    requires x == w * Pow10(n) + f
    ensures w as real + Shift(f as real, n) == Shift(x as real, n)
  {
    CastAffine(w, Pow10(n), f, x);
    ShiftAdd(w as real * Pow10(n) as real, f as real, x as real, n);
    ShiftScaled(w as real, w as real * Pow10(n) as real, n);
  }

  lemma ScaledPoint(whole: string, frac: string)
    requires AllDigits(whole) && AllDigits(frac)
    ensures AllDigits(whole + frac)
    ensures DigitsValue(whole) as real + Shift(DigitsValue(frac) as real, |frac|)
      == Shift(DigitsValue(whole + frac) as real, |frac|)
  {
    DigitsValueAppend(whole, frac);
    ShiftSplit(DigitsValue(whole), DigitsValue(frac), |frac|, DigitsValue(whole + frac));
  }

  /** A decimal text with its point at `k` is read as the digits with the point
      deleted, moved back one place for each digit after the point. */
  lemma ParseFloatPointValue(s: string, k: nat)
    requires IsDecimalText(s) && k < |s| && s[k] == '.'
    ensures AllDigits(s[..k] + s[k + 1..])
    ensures ParseFloat(s).Some?
    ensures ParseFloat(s).value == Shift(DigitsValue(s[..k] + s[k + 1..]) as real, |s| - k - 1)
  {
    OnlyPoint(s, k);
    DecimalSplit(s);
    ScaledPoint(s[..k], s[k + 1..]);
  }

  /** Decimal rendering of a natural number. */
  function NatText(n: nat): (s: string)
    ensures |s| > 0 && AllDigits(s)
  {
    if n < 10 then [('0' as int + n) as char]
    else NatText(n / 10) + [('0' as int + n % 10) as char]
  }

  lemma {:induction false} DigitsOfNatText(n: nat)
    ensures DigitsValue(NatText(n)) == n
  {
    if n >= 10 {
      var s := NatText(n);
      assert s[..|s| - 1] == NatText(n / 10);
      DigitsOfNatText(n / 10);
    }
  }

  /** Rendering a natural number and parsing it back gives the number. */
  lemma ParseFloatOfNatText(n: nat)
    ensures ParseFloat(NatText(n)) == Some(n as real)
  {
    var s := NatText(n);
    CountZero(s, '.');
    assert IsDigit(s[0]);
    assert DotIndex(s) == |s|;
    assert s[..|s|] == s;
    DigitsOfNatText(n);
  }

  /** `strconv.Atoi`: an optional sign followed by at least one decimal digit. */
  function Atoi(s: string): (r: Option<int>)
    ensures r.Some? ==> |s| > 0
  {
    if |s| > 0 && (s[0] == '+' || s[0] == '-') then
      var digits := s[1..];
      if |digits| > 0 && AllDigits(digits) then
        Some(if s[0] == '-' then -(DigitsValue(digits) as int) else DigitsValue(digits))
      else None
    else if |s| > 0 && AllDigits(s) then Some(DigitsValue(s))
    else None
  }

  lemma AtoiOfNatText(n: nat)
    ensures Atoi(NatText(n)) == Some(n)
  {
    DigitsOfNatText(n);
  }
}

=== FILE: tokenizer.dfy ===
/** `tokenize`: splits a space-stripped expression into number, operator and
    parenthesis tokens while counting parenthesis depth. */
module Tokenizer {
  import opened Wrappers
  import opened Text
  import Validator

  datatype Token = Number(text: string) | Operator(sym: char) | LeftParen | RightParen

  datatype TokenizeError = UnbalancedParentheses

  /** One pass of the tokenizer's loop from position `i`: `toks` holds the tokens
      emitted so far, `pending` the number buffer and `depth` the parenthesis count.
      A number is emitted as soon as the next character cannot extend it; operators
      and `)` flush the buffer first, `(` does not; any other character is dropped. */
  function Scan(s: string, i: nat, toks: seq<Token>, pending: string, depth: int): Result<seq<Token>, TokenizeError>
    requires i <= |s|
    decreases |s| - i
  {
    if i == |s| then
      if depth != 0 then Err(UnbalancedParentheses) else Ok(toks)
    else
      var c := s[i];
      if IsNumberChar(c) then
        var grown := pending + [c];
        if i == |s| - 1 || !IsNumberChar(s[i + 1]) then Scan(s, i + 1, toks + [Number(grown)], [], depth)
        else Scan(s, i + 1, toks, grown, depth)
      else if IsOperatorChar(c) then
        var flushed := if |pending| > 0 then toks + [Number(pending)] else toks;
        Scan(s, i + 1, flushed + [Operator(c)], [], depth)
      else if c == '(' then
        Scan(s, i + 1, toks + [LeftParen], pending, depth + 1)
      else if c == ')' then
        var flushed := if |pending| > 0 then toks + [Number(pending)] else toks;
        if depth - 1 < 0 then Err(UnbalancedParentheses)
        else Scan(s, i + 1, flushed + [RightParen], [], depth - 1)
      else
        Scan(s, i + 1, toks, pending, depth)
  }

  /** Length of the run of number characters at the front of `s`. */
  function NumberLength(s: string): (n: nat)
    ensures n <= |s|
    ensures forall i | 0 <= i < n :: IsNumberChar(s[i])
    ensures n < |s| ==> !IsNumberChar(s[n])
  {
    if s == [] || !IsNumberChar(s[0]) then 0 else 1 + NumberLength(s[1..])
  }

  function OperatorChars(s: string): nat {
    if s == [] then 0 else (if IsOperatorChar(s[0]) then 1 else 0) + OperatorChars(s[1..])
  }

  function OperatorTokens(toks: seq<Token>): nat {
    if toks == [] then 0 else (if toks[0].Operator? then 1 else 0) + OperatorTokens(toks[1..])
  }

  function NumberTokens(toks: seq<Token>): nat {
    if toks == [] then 0 else (if toks[0].Number? then 1 else 0) + NumberTokens(toks[1..])
  }

  /** Number of `(` tokens minus number of `)` tokens. */
  function TokenDepth(toks: seq<Token>): int {
    if toks == [] then 0
    else (if toks[0].LeftParen? then 1 else if toks[0].RightParen? then -1 else 0) + TokenDepth(toks[1..])
  }

  /** The texts of the number tokens, in order. */
  function NumberTexts(toks: seq<Token>): seq<string> {
    if toks == [] then []
    else (if toks[0].Number? then [toks[0].text] else []) + NumberTexts(toks[1..])
  }

  predicate IsNumberText(t: string) {
    |t| > 0 && forall i | 0 <= i < |t| :: IsNumberChar(t[i])
  }

  /** A number run contributes neither operators nor depth. */
  lemma NumberRunIsNeutral(s: string, n: nat)
    requires n <= |s|
    requires forall i | 0 <= i < n :: IsNumberChar(s[i])
    ensures OperatorChars(s) == OperatorChars(s[n..])
    ensures Depth(s) == Depth(s[n..])
    ensures forall i | 0 <= i < n :: s[i] != '(' && s[i] != ')'
    decreases n
  {
    if n > 0 {
      assert s == [s[0]] + s[1..];
      DepthCons(s[0], s[1..]);
      NumberRunIsNeutral(s[1..], n - 1);
      assert s[1..][n - 1..] == s[n..];
    }
  }

  /** The tokens one character other than a digit or point contributes. */
  function Emitted(c: char): seq<Token> {
    if IsOperatorChar(c) then [Operator(c)]
    else if c == '(' then [LeftParen]
    else if c == ')' then [RightParen]
    else []
  }

  /** Maximal munch, stated from the front: a number token is the whole run of
      digits and points that starts there; operators and parentheses become one
      token each; every other character is dropped. */
  function Lex(s: string): seq<Token>
    decreases |s|
  {
    if s == [] then []
    else if IsNumberChar(s[0]) then
      var n := NumberLength(s);
      [Number(s[..n])] + Lex(s[n..])
    else Emitted(s[0]) + Lex(s[1..])
  }

  lemma OperatorTokensAppend(a: seq<Token>, b: seq<Token>)
    ensures OperatorTokens(a + b) == OperatorTokens(a) + OperatorTokens(b)
  {
    if a != [] {
      assert (a + b)[1..] == a[1..] + b;
      OperatorTokensAppend(a[1..], b);
    } else {
      assert a + b == b;
    }
  }

  lemma NumberTokensAppend(a: seq<Token>, b: seq<Token>)
    ensures NumberTokens(a + b) == NumberTokens(a) + NumberTokens(b)
  {
    if a != [] {
      assert (a + b)[1..] == a[1..] + b;
      NumberTokensAppend(a[1..], b);
    } else {
      assert a + b == b;
    }
  }

  lemma TokenDepthAppend(a: seq<Token>, b: seq<Token>)
    ensures TokenDepth(a + b) == TokenDepth(a) + TokenDepth(b)
  {
    if a != [] {
      assert (a + b)[1..] == a[1..] + b;
      TokenDepthAppend(a[1..], b);
    } else {
      assert a + b == b;
    }
  }

  /** The tokens keep every operator and the parenthesis balance of the text,
      and every number token is a non-empty run of digits and points. */
  lemma LexFacts(s: string)
    ensures forall k | 0 <= k < |Lex(s)| && Lex(s)[k].Number? :: IsNumberText(Lex(s)[k].text)
    ensures OperatorTokens(Lex(s)) == OperatorChars(s)
    ensures TokenDepth(Lex(s)) == Depth(s)
  {
    LexNumbers(s);
    LexOperators(s);
    LexDepth(s);
  }

  lemma {:induction false} LexNumbers(s: string)
    ensures forall k | 0 <= k < |Lex(s)| && Lex(s)[k].Number? :: IsNumberText(Lex(s)[k].text)
    decreases |s|
  {
    if s != [] {
      if IsNumberChar(s[0]) {
        var n := NumberLength(s);
        NumberRunIsNeutral(s, n);
        LexNumbers(s[n..]);
      } else {
        LexNumbers(s[1..]);
      }
    }
  }

  lemma {:induction false} LexOperators(s: string)
    ensures OperatorTokens(Lex(s)) == OperatorChars(s)
    decreases |s|
  {
    if s != [] {
      assert s == [s[0]] + s[1..];
      if IsNumberChar(s[0]) {
        var n := NumberLength(s);
        NumberRunIsNeutral(s, n);
        LexOperators(s[n..]);
        var head := [Number(s[..n])];
        OperatorTokensAppend(head, Lex(s[n..]));
        assert OperatorTokens(head) == 0;
      } else {
        LexOperators(s[1..]);
        OperatorTokensAppend(Emitted(s[0]), Lex(s[1..]));
      }
    }
  }

  lemma {:induction false} LexDepth(s: string)
    ensures TokenDepth(Lex(s)) == Depth(s)
    decreases |s|
  {
    if s != [] {
      assert s == [s[0]] + s[1..];
      DepthCons(s[0], s[1..]);
      if IsNumberChar(s[0]) {
        var n := NumberLength(s);
        NumberRunIsNeutral(s, n);
        LexDepth(s[n..]);
        var head := [Number(s[..n])];
        TokenDepthAppend(head, Lex(s[n..]));
        assert TokenDepth(head) == 0;
      } else {
        LexDepth(s[1..]);
        TokenDepthAppend(Emitted(s[0]), Lex(s[1..]));
      }
    }
  }

  lemma LexOther(s: string)
    requires |s| > 0 && !IsNumberChar(s[0])
    ensures Lex(s) == Emitted(s[0]) + Lex(s[1..])
  {
  }

  lemma LexNumber(s: string)
    requires |s| > 0 && IsNumberChar(s[0])
    ensures Lex(s) == [Number(s[..NumberLength(s)])] + Lex(s[NumberLength(s)..])
  {
  }

  /** No parenthesis in `s[i..i + n]`: the depth scan passes over it unchanged. */
  lemma {:induction false} ScanSkipsRun(s: string, i: nat, n: nat, open: int)
    requires i + n <= |s|
    requires forall k | i <= k < i + n :: s[k] != '(' && s[k] != ')'
    ensures ParensScan(s, i, open) == ParensScan(s, i + n, open)
    decreases n
  {
    if n > 0 {
      ScanSkipsRun(s, i + 1, n - 1, open);
    }
  }

  /** Inside a number run of length `n` starting at `i`, the scan accumulates the
      run in its buffer and emits it exactly once, at the run's end. */
  lemma {:induction false} ScanConsumesRun(s: string, i: nat, n: nat, k: nat, toks: seq<Token>, depth: int)
    requires i + n <= |s| && k < n
    requires forall j | i <= j < i + n :: IsNumberChar(s[j])
    requires i + n < |s| ==> !IsNumberChar(s[i + n])
    ensures Scan(s, i + k, toks, s[i..i + k], depth) == Scan(s, i + n, toks + [Number(s[i..i + n])], [], depth)
    decreases n - k
  {
    assert s[i..i + k] + [s[i + k]] == s[i..i + k + 1];
    if k + 1 < n {
      ScanConsumesRun(s, i, n, k + 1, toks, depth);
    }
  }

  /** The scan at a position outside any number run agrees with `Lex` on the rest. */
  predicate AtRunBoundary(s: string, i: nat)
    requires i <= |s|
  {
    i == 0 || i == |s| || !IsNumberChar(s[i - 1]) || !IsNumberChar(s[i])
  }

  lemma {:induction false} ScanMatchesLex(s: string, i: nat, toks: seq<Token>, depth: int)
    requires i <= |s| && AtRunBoundary(s, i)
    ensures Scan(s, i, toks, [], depth) ==
      if ParensScan(s, i, depth) then Ok(toks + Lex(s[i..])) else Err(UnbalancedParentheses)
    decreases |s| - i, 1
  {
    if i == |s| {
      assert s[i..] == [];
      assert toks + [] == toks;
    } else {
      if IsNumberChar(s[i]) {
        ScanMatchesLexNumber(s, i, toks, depth);
      } else {
        ScanMatchesLexOther(s, i, toks, depth);
      }
    }
  }

  /** The number run that starts at `i`, restated in positions of `s`. */
  lemma NumberRunAt(s: string, i: nat) returns (n: nat)
    requires i < |s| && IsNumberChar(s[i])
    ensures 0 < n && i + n <= |s|
    ensures forall j | i <= j < i + n :: IsNumberChar(s[j])
    ensures i + n < |s| ==> !IsNumberChar(s[i + n])
    ensures Lex(s[i..]) == [Number(s[i..i + n])] + Lex(s[i + n..])
  {
    var rest := s[i..];
    n := NumberLength(rest);
    assert forall j | i <= j < i + n :: s[j] == rest[j - i];
    assert i + n < |s| ==> s[i + n] == rest[n];
    assert rest[..n] == s[i..i + n] && rest[n..] == s[i + n..];
    LexNumber(rest);
  }

  lemma {:induction false} ScanMatchesLexNumber(s: string, i: nat, toks: seq<Token>, depth: int)
    requires i < |s| && AtRunBoundary(s, i) && IsNumberChar(s[i])
    ensures Scan(s, i, toks, [], depth) ==
      if ParensScan(s, i, depth) then Ok(toks + Lex(s[i..])) else Err(UnbalancedParentheses)
    decreases |s| - i, 0
  {
    var n := NumberRunAt(s, i);
    var run := [Number(s[i..i + n])];
    assert toks + (run + Lex(s[i + n..])) == toks + run + Lex(s[i + n..]);
    assert s[i..i] == [];
    ScanConsumesRun(s, i, n, 0, toks, depth);
    ScanSkipsRun(s, i, n, depth);
    ScanMatchesLex(s, i + n, toks + run, depth);
  }

  lemma {:induction false} ScanMatchesLexOther(s: string, i: nat, toks: seq<Token>, depth: int)
    requires i < |s| && !IsNumberChar(s[i])
    ensures Scan(s, i, toks, [], depth) ==
      if ParensScan(s, i, depth) then Ok(toks + Lex(s[i..])) else Err(UnbalancedParentheses)
    decreases |s| - i, 0
  {
    var c := s[i];
    var rest := s[i..];
    assert rest[0] == c && rest[1..] == s[i + 1..];
    var emitted := Emitted(c);
    LexOther(rest);
    assert toks + (emitted + Lex(s[i + 1..])) == toks + emitted + Lex(s[i + 1..]);
    if c == '(' {
      ScanMatchesLex(s, i + 1, toks + emitted, depth + 1);
    } else if c == ')' {
      if depth - 1 >= 0 {
        ScanMatchesLex(s, i + 1, toks + emitted, depth - 1);
      }
    } else {
      assert emitted == (if IsOperatorChar(c) then [Operator(c)] else []);
      assert toks + [] == toks;
      ScanMatchesLex(s, i + 1, toks + emitted, depth);
    }
  }

  /** `tokenize`: fails exactly on unbalanced parentheses, otherwise yields the
      maximal-munch token sequence. */
  function Tokenize(s: string): (r: Result<seq<Token>, TokenizeError>)
    ensures r.Err? <==> !Balanced(s)
    ensures r.Ok? ==> r.value == Lex(s)
  {
    ScanMatchesLex(s, 0, [], 0);
    ParensScanBalanced(s, 0, 0);
    assert s[..0] == [] && s[0..] == s;
    Scan(s, 0, [], [], 0)
  }

  /** Over the validator's alphabet the number tokens are exactly the operands the
      validator checked, so after validation every number token parses. */
  lemma {:induction false} NumberTextsAreOperands(s: string)
    requires Validator.AllAllowed(s)
    ensures NumberTexts(Lex(s)) == Validator.Operands(s)
    decreases |s|
  {
    if s != [] {
      assert Validator.AllAllowed(s[1..]) by {
        assert forall i | 0 <= i < |s| - 1 :: s[1..][i] == s[i + 1];
      }
      if IsNumberChar(s[0]) {
        var n := NumberLength(s);
        assert n == Validator.OperandLength(s) by {
          SameRunLength(s);
        }
        assert Validator.AllAllowed(s[n..]) by {
          assert forall i | 0 <= i < |s| - n :: s[n..][i] == s[i + n];
        }
        NumberTextsAreOperands(s[n..]);
        assert Lex(s) == [Number(s[..n])] + Lex(s[n..]);
        NumberTextsCons(Number(s[..n]), Lex(s[n..]));
      } else {
        NumberTextsAreOperands(s[1..]);
        var t := Lex(s);
        if IsOperatorChar(s[0]) {
          NumberTextsCons(Operator(s[0]), Lex(s[1..]));
        } else if s[0] == '(' {
          NumberTextsCons(LeftParen, Lex(s[1..]));
        } else {
          NumberTextsCons(RightParen, Lex(s[1..]));
        }
      }
    }
  }

  lemma NumberTextsAppend(a: seq<Token>, b: seq<Token>)
    ensures NumberTexts(a + b) == NumberTexts(a) + NumberTexts(b)
  {
    if a != [] {
      assert (a + b)[1..] == a[1..] + b;
      NumberTextsAppend(a[1..], b);
    } else {
      assert a + b == b;
    }
  }

  /** What every token the tokenizer emits looks like: numbers are runs of digits
      and points, operators are one of the four operator characters. */
  predicate Lexical(toks: seq<Token>) {
    forall t | t in toks :: (t.Number? ==> IsNumberText(t.text)) && (t.Operator? ==> IsOperatorChar(t.sym))
  }

  lemma {:induction false} LexIsLexical(s: string)
    ensures Lexical(Lex(s))
    decreases |s|
  {
    if s != [] {
      if IsNumberChar(s[0]) {
        var n := NumberLength(s);
        LexIsLexical(s[n..]);
        assert Lex(s) == [Number(s[..n])] + Lex(s[n..]);
      } else {
        LexIsLexical(s[1..]);
        assert Lex(s) == Emitted(s[0]) + Lex(s[1..]);
      }
    }
  }

  lemma NumberTextsCons(t: Token, rest: seq<Token>)
    ensures NumberTexts([t] + rest) == (if t.Number? then [t.text] else []) + NumberTexts(rest)
  {
    assert ([t] + rest)[1..] == rest;
  }

  lemma {:induction false} SameRunLength(s: string)
    requires Validator.AllAllowed(s)
    ensures NumberLength(s) == Validator.OperandLength(s)
    decreases |s|
  {
    if s != [] {
      assert Validator.AllAllowed(s[1..]) by {
        assert forall i | 0 <= i < |s| - 1 :: s[1..][i] == s[i + 1];
      }
      SameRunLength(s[1..]);
    }
  }

  /** A validated expression tokenizes, and each of its number tokens parses. */
  lemma ValidatedTokens(s: string)
    requires Validator.WellFormedText(s)
    ensures Tokenize(s) == Ok(Lex(s))
    ensures forall t | t in NumberTexts(Lex(s)) :: IsDecimalText(t)
  {
    NumberTextsAreOperands(s);
  }
}

=== FILE: tree.dfy ===
/** The operator tree and its compilation into tasks (`createTasksFromTree`). */
module Tree {
  import opened Wrappers
  import opened Text
  import opened Records

  /** A possibly absent tree node, as the parser links them. */
  datatype Node = Nil | Node(value: string, left: Node, right: Node)

  function Leaf(v: string): Node {
    Node(v, Nil, Nil)
  }

  /** Number of nodes holding one of the four operators: one task each. */
  function OpCount(n: Node): nat {
    match n
    case Nil => 0
    case Node(v, l, r) => OpCount(l) + OpCount(r) + (if IsOperator(v) then 1 else 0)
  }

  /** The shape the parser produces from valid text: literal leaves that are
      neither operators nor references, and operator nodes with two children. */
  predicate WellShaped(n: Node) {
    match n
    case Nil => false
    case Node(v, l, r) =>
      if l.Nil? && r.Nil? then !IsOperator(v) && !HasPrefix(v, RefPrefix)
      else IsOperator(v) && WellShaped(l) && WellShaped(r)
  }

  /** Longest chain of operator nodes from `n` down. */
  function Height(n: Node): nat {
    match n
    case Nil => 0
    case Node(v, l, r) =>
      (if IsOperator(v) then 1 else 0) + (if Height(l) < Height(r) then Height(r) else Height(l))
  }

  lemma {:induction false} HeightAtMostOpCount(n: Node)
    ensures Height(n) <= OpCount(n)
  {
    match n
    case Nil =>
    case Node(v, l, r) =>
      HeightAtMostOpCount(l);
      HeightAtMostOpCount(r);
  }

  /** `getNodeReference`: how a parent names this node in its task, given the
      task id the node was assigned (operator nodes only). */
  function NodeReference(n: Node, taskId: string): string {
    if n.Nil? then []
    else if IsOperator(n.value) then RefPrefix + taskId
    else n.value
  }

  /** A reference is empty for an absent node, names the node's task when the
      node is an operator, and is the node's own text otherwise. */
  lemma NodeReferenceMeaning(n: Node, taskId: string)
    ensures n.Nil? ==> NodeReference(n, taskId) == []
    ensures n.Node? && IsOperator(n.value) ==>
      HasPrefix(NodeReference(n, taskId), RefPrefix) && RefTarget(NodeReference(n, taskId)) == taskId
    ensures n.Node? && !IsOperator(n.value) ==> NodeReference(n, taskId) == n.value
  {
    RefTargetOfRef(taskId);
  }

  /** The four environment settings, as raw text ("" when unset). */
  datatype TimeConfig = TimeConfig(addition: string, subtraction: string, multiplication: string, division: string)

  function SettingFor(op: string, cfg: TimeConfig): string
    requires IsOperator(op)
  {
    if op == "+" then cfg.addition
    else if op == "-" then cfg.subtraction
    else if op == "*" then cfg.multiplication
    else cfg.division
  }

  /** `getOperationTime`: the configured milliseconds when the setting is an
      integer, otherwise 100 for `+` and `-`, 200 for `*`, 300 for `/`; any other
      operator string costs 0. */
  function OperationTime(op: string, cfg: TimeConfig): (t: int)
    ensures !IsOperator(op) ==> t == 0
    ensures IsOperator(op) && Atoi(SettingFor(op, cfg)).Some? ==> t == Atoi(SettingFor(op, cfg)).value
    ensures IsOperator(op) && Atoi(SettingFor(op, cfg)).None? ==>
      t == (if op == "*" then 200 else if op == "/" then 300 else 100)
  {
    if !IsOperator(op) then 0
    else match Atoi(SettingFor(op, cfg))
      case Some(ms) => ms
      case None =>
        if op == "+" || op == "-" then 100
        else if op == "*" then 200
        else 300
  }

  /** A setting written as a plain decimal number is taken as given; an unset one
      falls back to the defaults. */
  lemma OperationTimeOfSetting(n: nat, cfg: TimeConfig)
    ensures OperationTime("+", cfg.(addition := NatText(n))) == n
    ensures OperationTime("/", cfg.(division := NatText(n))) == n
    ensures OperationTime("*", TimeConfig("", "", "", "")) == 200
    ensures OperationTime("-", TimeConfig("", "", "", "")) == 100
  {
    AtoiOfNatText(n);
  }

  /** What every emitted task carries: its id from the supply, the expression id,
      an operator with its configured time, and no outcome yet. */
  predicate FreshTask(t: Task, id: string, exprId: string, cfg: TimeConfig) {
    && t.id == id
    && t.exprId == exprId
    && t.userId == []
    && IsOperator(t.op)
    && t.opTime == OperationTime(t.op, cfg)
    && t.result == 0.0
    && !t.completed
  }

  /** The task id `n` is given when its subtree draws ids from `supply` starting at
      `start`: the last one drawn, which is `n`'s own when `n` is an operator. */
  function TaskIdOf(n: Node, supply: nat -> string, start: nat): string {
    if OpCount(n) == 0 then [] else supply(start + OpCount(n) - 1)
  }

  /** The task of an operator node, referring to its children. */
  function OwnTask(exprId: string, n: Node, supply: nat -> string, start: nat, cfg: TimeConfig): Task
    requires n.Node?
  {
    var a := OpCount(n.left);
    Task(TaskIdOf(n, supply, start), exprId, [],
         NodeReference(n.left, TaskIdOf(n.left, supply, start)),
         NodeReference(n.right, TaskIdOf(n.right, supply, start + a)),
         n.value, OperationTime(n.value, cfg), 0.0, false)
  }

  /** `createTasksFromTree`: a post-order walk that emits one task per operator
      node, drawing task ids `supply(start)`, `supply(start + 1)`, ... in emission order. */
  function CreateTasks(exprId: string, n: Node, supply: nat -> string, start: nat, cfg: TimeConfig): (ts: seq<Task>)
    ensures |ts| == OpCount(n)
    decreases n
  {
    match n
    case Nil => []
    case Node(v, l, r) =>
      CreateTasks(exprId, l, supply, start, cfg)
        + CreateTasks(exprId, r, supply, start + OpCount(l), cfg)
        + (if IsOperator(v) then [OwnTask(exprId, n, supply, start, cfg)] else [])
  }

  /** An operator node's list is its left list, its right list and its own task. */
  lemma CreateTasksOfOperator(exprId: string, n: Node, supply: nat -> string, start: nat, cfg: TimeConfig)
    requires WellShaped(n) && !n.left.Nil?
    ensures CreateTasks(exprId, n, supply, start, cfg) ==
      CreateTasks(exprId, n.left, supply, start, cfg)
        + CreateTasks(exprId, n.right, supply, start + OpCount(n.left), cfg)
        + [OwnTask(exprId, n, supply, start, cfg)]
  {
    assert IsOperator(n.value);
  }

  /** Where task `k` of a node's list comes from: the left subtree's list, the
      right subtree's list, or the node itself. */
  lemma CreateTasksSplit(exprId: string, n: Node, supply: nat -> string, start: nat, cfg: TimeConfig, k: nat)
    requires n.Node? && k < OpCount(n)
    ensures k < OpCount(n.left) ==>
      CreateTasks(exprId, n, supply, start, cfg)[k] == CreateTasks(exprId, n.left, supply, start, cfg)[k]
    ensures OpCount(n.left) <= k < OpCount(n.left) + OpCount(n.right) ==>
      CreateTasks(exprId, n, supply, start, cfg)[k] ==
      CreateTasks(exprId, n.right, supply, start + OpCount(n.left), cfg)[k - OpCount(n.left)]
    ensures OpCount(n.left) + OpCount(n.right) <= k ==>
      && k == OpCount(n) - 1 && IsOperator(n.value)
      && CreateTasks(exprId, n, supply, start, cfg)[k] == OwnTask(exprId, n, supply, start, cfg)
      && TaskIdOf(n, supply, start) == supply(start + k)
  {
    var a, b := OpCount(n.left), OpCount(n.right);
    var lt := CreateTasks(exprId, n.left, supply, start, cfg);
    var rt := CreateTasks(exprId, n.right, supply, start + a, cfg);
    var own: seq<Task> := if IsOperator(n.value) then [OwnTask(exprId, n, supply, start, cfg)] else [];
    assert CreateTasks(exprId, n, supply, start, cfg) == lt + rt + own;
    if k < a {
      assert (lt + rt + own)[k] == lt[k];
    } else if k < a + b {
      assert (lt + rt + own)[k] == rt[k - a];
    } else {
      assert OpCount(n) == a + b + (if IsOperator(n.value) then 1 else 0);
      assert IsOperator(n.value);
      assert (lt + rt + own)[k] == own[0];
    }
  }

  /** Every emitted task carries its id from the supply, the expression id, an
      operator with its configured time, and a supply outcome. */
  lemma {:induction false} CreateTasksFresh(exprId: string, n: Node, supply: nat -> string, start: nat, cfg: TimeConfig, k: nat)
    requires k < OpCount(n)
    ensures FreshTask(CreateTasks(exprId, n, supply, start, cfg)[k], supply(start + k), exprId, cfg)
    decreases n
  {
    var a, b := OpCount(n.left), OpCount(n.right);
    CreateTasksSplit(exprId, n, supply, start, cfg, k);
    if k < a {
      CreateTasksFresh(exprId, n.left, supply, start, cfg, k);
    } else if k < a + b {
      CreateTasksFresh(exprId, n.right, supply, start + a, cfg, k - a);
    }
  }

  /** `x` is one of the ids `supply(lo)`, ..., `supply(hi - 1)`. */
  predicate Drawn(x: string, supply: nat -> string, lo: nat, hi: nat)
    decreases hi
  {
    lo < hi && (supply(hi - 1) == x || Drawn(x, supply, lo, hi - 1))
  }

  lemma {:induction false} DrawnAt(x: string, supply: nat -> string, lo: nat, hi: nat, j: nat)
    requires lo <= j < hi && supply(j) == x
    ensures Drawn(x, supply, lo, hi)
    decreases hi
  {
    if j < hi - 1 {
      DrawnAt(x, supply, lo, hi - 1, j);
    }
  }

  lemma {:induction false} DrawnIndex(x: string, supply: nat -> string, lo: nat, hi: nat) returns (j: nat)
    requires Drawn(x, supply, lo, hi)
    ensures lo <= j < hi && supply(j) == x
    decreases hi
  {
    if supply(hi - 1) == x {
      j := hi - 1;
    } else {
      j := DrawnIndex(x, supply, lo, hi - 1);
    }
  }

  lemma {:induction false} DrawnWiden(x: string, supply: nat -> string, lo: nat, hi: nat, lo': nat, hi': nat)
    requires Drawn(x, supply, lo, hi) && lo' <= lo && hi <= hi'
    ensures Drawn(x, supply, lo', hi')
    decreases hi
  {
    if supply(hi - 1) == x {
      DrawnAt(x, supply, lo', hi', hi - 1);
    } else {
      DrawnWiden(x, supply, lo, hi - 1, lo', hi');
    }
  }

  /** A reference operand names one of the ids `supply(lo)`, ..., `supply(hi - 1)`. */
  predicate RefersBack(arg: string, supply: nat -> string, lo: nat, hi: nat) {
    HasPrefix(arg, RefPrefix) ==> Drawn(RefTarget(arg), supply, lo, hi)
  }

  lemma RefersBackWiden(arg: string, supply: nat -> string, lo: nat, hi: nat, lo': nat, hi': nat)
    requires RefersBack(arg, supply, lo, hi) && lo' <= lo && hi <= hi'
    ensures RefersBack(arg, supply, lo', hi')
  {
    if HasPrefix(arg, RefPrefix) {
      DrawnWiden(RefTarget(arg), supply, lo, hi, lo', hi');
    }
  }

  /** Every task of `ts`, placed at ids `supply(start)`, `supply(start + 1)`, ...,
      refers only to tasks placed before it. */
  predicate Ordered(ts: seq<Task>, supply: nat -> string, start: nat)
    decreases |ts|
  {
    ts == [] ||
      var k := |ts| - 1;
      && Ordered(ts[..k], supply, start)
      && RefersBack(ts[k].arg1, supply, start, start + k)
      && RefersBack(ts[k].arg2, supply, start, start + k)
  }

  /** Task `k` of an ordered list refers to tasks before it. */
  lemma {:induction false} OrderedAt(ts: seq<Task>, supply: nat -> string, start: nat, k: nat)
    requires Ordered(ts, supply, start) && k < |ts|
    ensures RefersBack(ts[k].arg1, supply, start, start + k)
    ensures RefersBack(ts[k].arg2, supply, start, start + k)
    decreases |ts|
  {
    if k < |ts| - 1 {
      var init := ts[..|ts| - 1];
      OrderedAt(init, supply, start, k);
      assert init[k] == ts[k];
    }
  }

  lemma OrderedSnoc(ts: seq<Task>, t: Task, supply: nat -> string, start: nat, hi: nat)
    requires hi == start + |ts|
    requires Ordered(ts, supply, start)
    requires RefersBack(t.arg1, supply, start, hi) && RefersBack(t.arg2, supply, start, hi)
    ensures Ordered(ts + [t], supply, start)
  {
    assert (ts + [t])[..|ts|] == ts;
  }

  /** An ordered list placed right after another ordered list keeps the order. */
  lemma {:induction false} OrderedConcat(lt: seq<Task>, rt: seq<Task>, supply: nat -> string, start: nat, mid: nat)
    requires mid == start + |lt|
    requires Ordered(lt, supply, start) && Ordered(rt, supply, mid)
    ensures Ordered(lt + rt, supply, start)
    decreases |rt|
  {
    if rt == [] {
      assert lt + rt == lt;
    } else {
      var k := |rt| - 1;
      var init, t := rt[..k], rt[k];
      OrderedConcat(lt, init, supply, start, mid);
      RefersBackWiden(t.arg1, supply, mid, mid + k, start, mid + k);
      RefersBackWiden(t.arg2, supply, mid, mid + k, start, mid + k);
      OrderedSnoc(lt + init, t, supply, start, mid + k);
      assert lt + init + [t] == lt + rt;
    }
  }

  /** An operator node's list is ordered once its three parts, side by side, are. */
  lemma OrderedOfOperator(exprId: string, n: Node, supply: nat -> string, start: nat, cfg: TimeConfig)
    requires WellShaped(n) && !n.left.Nil?
    requires Ordered(CreateTasks(exprId, n.left, supply, start, cfg)
          + CreateTasks(exprId, n.right, supply, start + OpCount(n.left), cfg)
          + [OwnTask(exprId, n, supply, start, cfg)], supply, start)
    ensures Ordered(CreateTasks(exprId, n, supply, start, cfg), supply, start)
  {
    CreateTasksOfOperator(exprId, n, supply, start, cfg);
  }

  /** Two ordered lists side by side, then a task referring into both, stay ordered. */
  lemma OrderedParts(lt: seq<Task>, rt: seq<Task>, t: Task, supply: nat -> string, start: nat, mid: nat, hi: nat)
    requires mid == start + |lt| && hi == mid + |rt|
    requires Ordered(lt, supply, start) && Ordered(rt, supply, mid)
    requires RefersBack(t.arg1, supply, start, hi) && RefersBack(t.arg2, supply, start, hi)
    ensures Ordered(lt + rt + [t], supply, start)
  {
    OrderedConcat(lt, rt, supply, start, mid);
    OrderedSnoc(lt + rt, t, supply, start, hi);
  }

  /** Ordered lists for the two subtrees, followed by the node's own task, are ordered. */
  lemma OwnTaskOrdered(exprId: string, n: Node, supply: nat -> string, start: nat, cfg: TimeConfig, lt: seq<Task>, rt: seq<Task>)
    requires WellShaped(n) && !n.left.Nil?
    requires |lt| == OpCount(n.left) && |rt| == OpCount(n.right)
    requires Ordered(lt, supply, start) && Ordered(rt, supply, start + OpCount(n.left))
    ensures Ordered(lt + rt + [OwnTask(exprId, n, supply, start, cfg)], supply, start)
  {
    var mid := start + |lt|;
    var hi := mid + |rt|;
    OwnTaskRefersBack(exprId, n, supply, start, cfg, hi);
    OrderedParts(lt, rt, OwnTask(exprId, n, supply, start, cfg), supply, start, mid, hi);
  }

  /** An operator node's task refers into its children's id ranges. */
  lemma OwnTaskRefersBack(exprId: string, n: Node, supply: nat -> string, start: nat, cfg: TimeConfig, hi: nat)
    requires WellShaped(n) && !n.left.Nil?
    requires hi == start + OpCount(n.left) + OpCount(n.right)
    ensures RefersBack(OwnTask(exprId, n, supply, start, cfg).arg1, supply, start, hi)
    ensures RefersBack(OwnTask(exprId, n, supply, start, cfg).arg2, supply, start, hi)
  {
    var mid := start + OpCount(n.left);
    var t := OwnTask(exprId, n, supply, start, cfg);
    assert t.arg1 == NodeReference(n.left, TaskIdOf(n.left, supply, start));
    assert t.arg2 == NodeReference(n.right, TaskIdOf(n.right, supply, mid));
    ChildRefersWithin(n.left, supply, start, mid, start, hi);
    ChildRefersWithin(n.right, supply, mid, hi, start, hi);
  }

  /** A child's reference stays within any range around the child's own. */
  lemma ChildRefersWithin(c: Node, supply: nat -> string, lo: nat, mid: nat, lo': nat, hi': nat)
    requires WellShaped(c) && mid == lo + OpCount(c) && lo' <= lo && mid <= hi'
    ensures RefersBack(NodeReference(c, TaskIdOf(c, supply, lo)), supply, lo', hi')
  {
    ChildReferenceBack(c, supply, lo);
    RefersBackWiden(NodeReference(c, TaskIdOf(c, supply, lo)), supply, lo, mid, lo', hi');
  }

  /** The tasks are topologically ordered: every reference names a task emitted earlier. */
  lemma {:induction false} CreateTasksOrdered(exprId: string, n: Node, supply: nat -> string, start: nat, cfg: TimeConfig)
    requires n.Nil? || WellShaped(n)
    ensures Ordered(CreateTasks(exprId, n, supply, start, cfg), supply, start)
    decreases n
  {
    if n.Node? && !n.left.Nil? {
      CreateTasksOrdered(exprId, n.left, supply, start, cfg);
      CreateTasksOrdered(exprId, n.right, supply, start + OpCount(n.left), cfg);
      OwnTaskOrdered(exprId, n, supply, start, cfg,
        CreateTasks(exprId, n.left, supply, start, cfg), CreateTasks(exprId, n.right, supply, start + OpCount(n.left), cfg));
      OrderedOfOperator(exprId, n, supply, start, cfg);
    } else {
      assert CreateTasks(exprId, n, supply, start, cfg) == [];
    }
  }

  /** Task `j` of `ts` carries the id `supply(start + j)`. */
  predicate IdsFrom(ts: seq<Task>, supply: nat -> string, start: nat) {
    forall j | 0 <= j < |ts| :: ts[j].id == supply(start + j)
  }

  lemma CreateTasksIds(exprId: string, n: Node, supply: nat -> string, start: nat, cfg: TimeConfig)
    ensures IdsFrom(CreateTasks(exprId, n, supply, start, cfg), supply, start)
  {
    forall j | 0 <= j < OpCount(n)
      ensures CreateTasks(exprId, n, supply, start, cfg)[j].id == supply(start + j)
    {
      CreateTasksFresh(exprId, n, supply, start, cfg, j);
    }
  }

  /** In an ordered list whose ids come from the supply, every `task:X` operand
      names a task placed before it. */
  lemma OrderedRefersEarlier(ts: seq<Task>, supply: nat -> string, start: nat, k: nat, arg: string)
    requires Ordered(ts, supply, start) && IdsFrom(ts, supply, start)
    requires k < |ts| && (arg == ts[k].arg1 || arg == ts[k].arg2) && HasPrefix(arg, RefPrefix)
    ensures exists j | 0 <= j < k :: ts[j].id == RefTarget(arg)
  {
    OrderedAt(ts, supply, start, k);
    var i := DrawnIndex(RefTarget(arg), supply, start, start + k);
    assert ts[i - start].id == RefTarget(arg);
  }

  /** Every `task:X` operand of an emitted task names a task emitted before it. */
  lemma CreateTasksRefersEarlier(exprId: string, n: Node, supply: nat -> string, start: nat, cfg: TimeConfig, k: nat, arg: string)
    requires WellShaped(n) && k < OpCount(n)
    requires arg == CreateTasks(exprId, n, supply, start, cfg)[k].arg1 || arg == CreateTasks(exprId, n, supply, start, cfg)[k].arg2
    requires HasPrefix(arg, RefPrefix)
    ensures exists j | 0 <= j < k :: CreateTasks(exprId, n, supply, start, cfg)[j].id == RefTarget(arg)
  {
    CreateTasksOrdered(exprId, n, supply, start, cfg);
    CreateTasksIds(exprId, n, supply, start, cfg);
    OrderedRefersEarlier(CreateTasks(exprId, n, supply, start, cfg), supply, start, k, arg);
  }

  /** A child's reference names the last id of the child's own range. */
  lemma ChildReferenceBack(c: Node, supply: nat -> string, start: nat)
    requires WellShaped(c)
    ensures RefersBack(NodeReference(c, TaskIdOf(c, supply, start)), supply, start, start + OpCount(c))
  {
    NodeReferenceMeaning(c, TaskIdOf(c, supply, start));
    if IsOperator(c.value) {
      var j := start + OpCount(c) - 1;
      DrawnAt(TaskIdOf(c, supply, start), supply, start, start + OpCount(c), j);
    }
  }
}

=== FILE: validator.dfy ===
/** `ValidateExpression`: the pre-check run on the space-stripped expression
    before tokenizing. Five checks run in a fixed order and the first failing
    one decides the error. */
module Validator {
  import opened Wrappers
  import opened Text

  datatype ValidationError =
    | EmptyExpression
    | InvalidCharacter(position: nat, ch: char)
    | ConsecutiveOperators(position: nat)
    | MismatchedParentheses
    | InvalidOperand(operand: string)

  /** The calculator's alphabet: digits, the four operators, `.` and parentheses. */
  predicate IsAllowed(c: char) {
    IsDigit(c) || IsOperatorChar(c) || c == '.' || c == '(' || c == ')'
  }

  predicate AllAllowed(s: string) {
    forall i | 0 <= i < |s| :: IsAllowed(s[i])
  }

  predicate NoAdjacentOperators(s: string) {
    forall i | 0 <= i < |s| - 1 :: !(IsOperatorChar(s[i]) && IsOperatorChar(s[i + 1]))
  }

  /** Position of the first character outside the alphabet, scanning from `from`. */
  function FirstDisallowed(s: string, from: nat): (r: Option<nat>)
    requires from <= |s|
    decreases |s| - from
    ensures r.None? <==> forall i | from <= i < |s| :: IsAllowed(s[i])
    ensures r.Some? ==> from <= r.value < |s| && !IsAllowed(s[r.value])
    ensures r.Some? ==> forall i | from <= i < r.value :: IsAllowed(s[i])
  {
    if from == |s| then None
    else if !IsAllowed(s[from]) then Some(from)
    else FirstDisallowed(s, from + 1)
  }

  /** Position of the first operator character directly followed by another one. */
  function FirstAdjacentOperators(s: string, from: nat): (r: Option<nat>)
    requires from <= |s|
    decreases |s| - from
    ensures r.None? <==> forall i | from <= i < |s| - 1 :: !(IsOperatorChar(s[i]) && IsOperatorChar(s[i + 1]))
    ensures r.Some? ==> from <= r.value < |s| - 1 && IsOperatorChar(s[r.value]) && IsOperatorChar(s[r.value + 1])
    ensures r.Some? ==> forall i | from <= i < r.value :: !(IsOperatorChar(s[i]) && IsOperatorChar(s[i + 1]))
  {
    if from + 1 >= |s| then None
    else if IsOperatorChar(s[from]) && IsOperatorChar(s[from + 1]) then Some(from)
    else FirstAdjacentOperators(s, from + 1)
  }

  /** Operator and parenthesis characters separate operands. */
  predicate IsSeparator(c: char) {
    IsOperatorChar(c) || c == '(' || c == ')'
  }

  /** Length of the run of non-separator characters at the front of `s`. */
  function OperandLength(s: string): (n: nat)
    ensures n <= |s|
    ensures forall i | 0 <= i < n :: !IsSeparator(s[i])
    ensures n < |s| ==> IsSeparator(s[n])
  {
    if s == [] || IsSeparator(s[0]) then 0 else 1 + OperandLength(s[1..])
  }

  /** `strings.FieldsFunc` with the separator test of the operand check: the
      maximal non-empty runs between separators, left to right. */
  function Operands(s: string): (fields: seq<string>)
    ensures forall f | f in fields :: |f| > 0 && forall i | 0 <= i < |f| :: !IsSeparator(f[i])
    ensures forall f | f in fields :: multiset(f) <= multiset(s)
    decreases |s|
  {
    if s == [] then []
    else if IsSeparator(s[0]) then
      assert s == [s[0]] + s[1..];
      Operands(s[1..])
    else
      var n := OperandLength(s);
      assert s == s[..n] + s[n..];
      [s[..n]] + Operands(s[n..])
  }

  /** A separator ends the run in front of it. */
  lemma {:induction false} OperandLengthBeforeSeparator(a: string, c: char, b: string)
    requires IsSeparator(c)
    ensures OperandLength(a + [c] + b) == OperandLength(a)
    decreases |a|
  {
    if a == [] {
      assert (a + [c] + b)[0] == c;
    } else {
      assert (a + [c] + b)[0] == a[0] && (a + [c] + b)[1..] == a[1..] + [c] + b;
      if !IsSeparator(a[0]) {
        OperandLengthBeforeSeparator(a[1..], c, b);
      }
    }
  }

  /** The field at the front of a text that starts with a non-separator. */
  lemma OperandsFront(s: string)
    requires s != [] && !IsSeparator(s[0])
    ensures Operands(s) == [s[..OperandLength(s)]] + Operands(s[OperandLength(s)..])
  {
  }

  /** A separator splits the fields: those before it, then those after it. */
  lemma {:induction false} OperandsAroundSeparator(a: string, c: char, b: string)
    requires IsSeparator(c)
    ensures Operands(a + [c] + b) == Operands(a) + Operands(b)
    decreases |a|
  {
    var s := a + [c] + b;
    if a == [] {
      assert s[0] == c && s[1..] == b;
    } else if IsSeparator(a[0]) {
      assert s[0] == a[0] && s[1..] == a[1..] + [c] + b;
      OperandsAroundSeparator(a[1..], c, b);
    } else {
      var n := OperandLength(a);
      var rest := a[n..] + [c] + b;
      OperandLengthBeforeSeparator(a, c, b);
      assert s[0] == a[0] && s[..n] == a[..n] && s[n..] == rest;
      OperandsAroundSeparator(a[n..], c, b);
      var field, tail := [a[..n]], Operands(a[n..]);
      calc {
        Operands(s);
        { OperandsFront(s); }
        field + Operands(rest);
        field + (tail + Operands(b));
        (field + tail) + Operands(b);
        { OperandsFront(a); }
        Operands(a) + Operands(b);
      }
    }
  }

  /** A non-empty text without separators is one field. */
  lemma OperandsOfRun(a: string)
    requires a != [] && forall i | 0 <= i < |a| :: !IsSeparator(a[i])
    ensures Operands(a) == [a]
  {
    assert OperandLength(a) == |a|;
    assert a[..|a|] == a && a[|a|..] == [];
  }

  /** The first operand that does not parse as a number. */
  function FirstBadOperand(fields: seq<string>): (r: Option<string>)
    ensures r.None? <==> forall f | f in fields :: ParseFloat(f).Some?
    ensures r.Some? ==> r.value in fields && ParseFloat(r.value).None?
    ensures r.Some? ==>
      exists j | 0 <= j < |fields| ::
        fields[j] == r.value && forall k | 0 <= k < j :: ParseFloat(fields[k]).Some?
  {
    if fields == [] then None
    else if ParseFloat(fields[0]).None? then Some(fields[0])
    else
      var rest := FirstBadOperand(fields[1..]);
      assert rest.Some? ==>
        exists j | 0 <= j < |fields| ::
          fields[j] == rest.value && forall k | 0 <= k < j :: ParseFloat(fields[k]).Some?
      by {
        if rest.Some? {
          var j :| 0 <= j < |fields[1..]| && fields[1..][j] == rest.value
            && forall k | 0 <= k < j :: ParseFloat(fields[1..][k]).Some?;
          assert forall k | 0 <= k < j + 1 :: ParseFloat(fields[k]).Some? by {
            forall k | 0 <= k < j + 1 ensures ParseFloat(fields[k]).Some? {
              if k > 0 { assert fields[k] == fields[1..][k - 1]; }
            }
          }
          assert fields[j + 1] == rest.value;
        }
      }
      rest
  }

  /** Everything the validator demands of an expression, stated declaratively. */
  predicate WellFormedText(s: string) {
    && |s| > 0
    && AllAllowed(s)
    && NoAdjacentOperators(s)
    && Balanced(s)
    && forall f | f in Operands(s) :: IsDecimalText(f)
  }

  /** `ValidateExpression`: `None` is the nil error. */
  function Validate(s: string): (r: Option<ValidationError>)
    ensures r.None? <==> WellFormedText(s)
    ensures r == Some(EmptyExpression) <==> s == []
    ensures r.Some? && r.value.InvalidCharacter? ==>
      && r.value.position < |s| && s[r.value.position] == r.value.ch && !IsAllowed(r.value.ch)
      && forall i | 0 <= i < r.value.position :: IsAllowed(s[i])
    ensures r.Some? && r.value.ConsecutiveOperators? ==>
      && AllAllowed(s)
      && r.value.position < |s| - 1
      && IsOperatorChar(s[r.value.position]) && IsOperatorChar(s[r.value.position + 1])
      && forall i | 0 <= i < r.value.position :: !(IsOperatorChar(s[i]) && IsOperatorChar(s[i + 1]))
    ensures r == Some(MismatchedParentheses) <==>
      |s| > 0 && AllAllowed(s) && NoAdjacentOperators(s) && !Balanced(s)
    ensures r.Some? && r.value.InvalidOperand? ==>
      && |s| > 0 && AllAllowed(s) && NoAdjacentOperators(s) && Balanced(s)
      && r.value.operand in Operands(s) && !IsDecimalText(r.value.operand)
    ensures r.Some? && r.value.InvalidOperand? ==>
      var fields := Operands(s);
      exists j | 0 <= j < |fields| ::
        fields[j] == r.value.operand && forall k | 0 <= k < j :: IsDecimalText(fields[k])
  {
    ParensScanBalanced(s, 0, 0);
    assert s[..0] == [];
    if |s| == 0 then Some(EmptyExpression)
    else match FirstDisallowed(s, 0)
      case Some(i) => Some(InvalidCharacter(i, s[i]))
      case None =>
        match FirstAdjacentOperators(s, 0)
        case Some(i) => Some(ConsecutiveOperators(i))
        case None =>
          if !ParensScan(s, 0, 0) then Some(MismatchedParentheses)
          else match FirstBadOperand(Operands(s))
            case Some(f) => Some(InvalidOperand(f))
            case None => None
  }

  /** Over the validated alphabet an operand is a number exactly when it has a
      digit and at most one decimal point. */
  lemma OperandsOverAlphabet(s: string)
    requires AllAllowed(s)
    ensures forall f | f in Operands(s) :: forall i | 0 <= i < |f| :: IsNumberChar(f[i])
  {
    forall f, i | f in Operands(s) && 0 <= i < |f|
      ensures IsNumberChar(f[i])
    {
      assert f[i] in multiset(f);
      assert f[i] in multiset(s);
      assert f[i] in s;
    }
  }
}

=== FILE: wrappers.dfy ===
/** Failure-carrying values used throughout the model: `Option` for lookups that
    may find nothing, `Result` for operations that return an error value. */
module Wrappers {

  datatype Option<+T> = None | Some(value: T) {

    /** The value, or `default` when there is none (SQL's COALESCE). */
    function GetOr(default: T): T {
      match this
      case Some(v) => v
      case None => default
    }
  }

  datatype Result<+T, +E> = Ok(value: T) | Err(error: E) {

    predicate IsFailure() {
      Err?
    }

    function PropagateFailure<U>(): Result<U, E>
      requires Err?
    {
      Err(error)
    }

    function Extract(): T
      requires Ok?
    {
      value
    }
  }
}
